=== FILE: README.md ===
# pyterranetes core, modelled in Dafny

pyterranetes (`p10s`) builds configuration files from Python scripts. A
script creates a *context* for one output file, such as a terraform
`.tf.json`, a kubernetes `.yaml` or a plain JSON/YAML config file. It adds
blocks, objects or dicts to the context, and the context merges them into
one data tree and writes it out. Scripts share settings through a global
*values store*, which `with values(...)` scopes rebind.

This project models that core as pure functions on immutable values:

- `Tree` (`tree.dfy`): the JSON-like value trees, where a Python dict is its
  keys in insertion order plus a map.
- `Merge` (`merge.dfy`): the deep merge `merge_dicts` / `_merge_dicts` of
  `p10s/utils.py`.
- `Scopes` and `ValueStore` (`scopes.dfy`, `values.dfy`): the `Values`
  mapping of `p10s/values.py`, the global store with its `values(...)`
  scope, `value` and `set_value`, and the merge fold of `Values.from_files`.
- `Engine` (`engine.dfy`): `Config.merge`, `Config.set`,
  `Config.serialize` and the older keyword-only scope of `p10s/engine.py`.
- `Contexts` (`contexts.dfy`): where a context writes. This covers the
  two `BaseContext` constructors (`p10s/context.py`, `p10s/base.py`) and the
  pathlib `suffix`/`stem`/`with_suffix` rules they rely on.
- `Terraform` (`terraform.dfy`): the terraform blocks and their storage
  paths, the `name`/`type` setters, `copy`, the `Output` shorthand, the
  terraform `Context` and `many_from_hcl`/`from_hcl` over a parsed
  document.
- `ConfigData` (`autodata.dfy`): the `AutoData` builder and the merging
  `ConfigContext` of `p10s/config_context.py`.
- `Kubernetes` (`kubernetes.dfy`): `Data`/`KubernetesObject` and the
  kind-to-class dispatch of `p10s/kubernetes.py`, plus its list-valued
  `Context`.
- `IniParser` (`ini.dfy`): what assigning a section into the standard
  `configparser.ConfigParser()` demands of the data the INI context of
  `p10s/config_context.py` adds. This follows Python 3.12's `read_dict`:
  - lower-cased option names must be unique within a section;
  - values must not be `None`;
  - `str(value)` must pass the `%` interpolation check of `BasicInterpolation`.
- `Wrappers` (`wrappers.dfy`): `Option` and `Result`. A Python exception
  becomes `Err(e)`, where `e` names the exception class.

The global store is passed as an explicit `Scopes.Stack`. It holds the
current store and the stores that active scopes replaced. Parsers (HCL,
YAML) are outside the model: their parsed documents are inputs.

Three places where the code behaves differently from its documentation:

- `merge_dicts(*args)` is a right fold, `_merge_dicts(a, merge_dicts(rest))`,
  not a left fold over the arguments. With a scalar in the middle the two
  differ, and `Merge.RightFoldIsNotLeftFold` shows an instance.
- Neither `values(...)` context manager has a `try/finally`. An exception
  in the body therefore leaves the inner store current (`Scopes.Stack.Exit`,
  `ValueStore.ExceptionLeaksScope`).
- The kubernetes `Secret` class declares `KIND = 'Ingress'`
  (`Kubernetes.SecretIsCreatedAsIngress`).

## Model

| member | source | states |
|---|---|---|
| Tree.Dict.Put | p10s/utils.py:22 | `d[k] = v` binds `k` to `v` and nothing else, keeps every existing key at its place in the key order, appends a new key last (the order grows by one exactly for a new key), and keeps a well-formed dict well formed |
| Tree.Dict.Remove | p10s/values.py:63-64 | `del d[k]` drops exactly `k`, from the map and from the key order, and keeps the dict well formed |
| Tree.Overlay | p10s/values.py:97-101 | applying `for k, v in e.items(): d[k] = v` gives `d`'s bindings overridden by all of `e`'s, and stays well formed |
| Tree.PutEach | p10s/values.py:100-101 | assigning the keys `ks` one at a time adds exactly `e`'s bindings for those keys |
| Tree.NoDuplicatesConcat | p10s/utils.py:17-29 | two key orders with no key in common concatenate to one with no repeated key, which is why appending new keys keeps a dict well formed |
| Scopes.Stack.Push | p10s/values.py:95-102 | entering a scope makes the new store current, remembers the old one, and is undone by `Pop` |
| Scopes.Stack.Pop | p10s/values.py:104 | a normal exit restores the store the scope replaced and drops one frame, leaving the outer frames' saved stores as they were |
| Scopes.Stack.Abandon | p10s/values.py:103-104 | an exception from the body skips the restore: the inner store stays current while the frame is gone and the outer frames survive |
| Scopes.Stack.Exit | p10s/values.py:91-104 | leaving a scope restores the replaced store on a normal exit and keeps the inner store when the body raised; either way only the innermost frame goes |
| Scopes.Stack.SetTop | p10s/values.py:113-117 | assigning a key changes only that key of the current store and no saved store |
| Merge.MergeInto | p10s/utils.py:14-33 | the merged keys are the union, with new keys appended in `b`'s order; keys only in `a` keep their values; `b`'s value replaces `a`'s unless both are dicts, where the result is the recursive merge of the two, holding the keys of both; merging `{}` changes nothing, and merging into `{}` gives `b` |
| Merge.MergeValues | p10s/utils.py:14-33 | `_merge_dicts` succeeds exactly when `b` is a dict and either `b` is empty or `a` is a dict; a non-dict `a` merged with an empty `b` comes back as is; a non-dict `b` fails on `keys`, and a non-dict `a` with a non-empty `b` fails on `a.get` (AttributeError) when `b`'s first value is a dict and on `a[k] = new` (TypeError) when it is not |
| Merge.MergeAll | p10s/utils.py:1-11 | `merge_dicts()` is `{}`, `merge_dicts(x)` is `x`, and dict arguments always merge to a dict |
| Merge.MergeIdempotent | p10s/utils.py:14-33 | merging a well-formed dict with itself gives it back |
| Merge.RightWinsOnLeaves | p10s/utils.py:17-29 | every non-dict value reachable in `b` is at the same path in the merge |
| Merge.LeftSurvives | p10s/utils.py:17-29 | whatever `a` holds at a path `b` does not reach survives the merge, including sibling keys inside nested dicts |
| Merge.UntouchedIsAbsent | p10s/utils.py:17-29 | a path `b` does not reach holds nothing in `b` |
| Merge.UntouchedStaysAbsent | p10s/utils.py:17-29 | a path empty in `a` and not reached by `b` is empty in the merge, so the merge creates nothing that neither side holds |
| Merge.MergeKeepsShallowWf | p10s/utils.py:17-29 | the merged top-level dict lists each key once, and exactly its keys |
| Merge.MergeKeepsWf | p10s/utils.py:14-33 | merging well-formed nested dicts gives a well-formed nested dict |
| Merge.LastArgumentWins | p10s/utils.py:1-11 | in `merge_dicts(*args)` every leaf of the last argument is in the result |
| Merge.MergeSingles | p10s/utils.py:17-29 | `{k: v}` merged with `{k: w}` is `{k: merge(v, w)}` when both are dicts, else `{k: w}` |
| Merge.RightFoldThroughScalar | p10s/utils.py:1-11 | with a scalar between two dicts under one key, the right fold still merges the outer two dicts |
| Merge.LeftFoldThroughScalar | p10s/utils.py:1-11 | a left fold over the same arguments drops the first dict |
| Merge.RightFoldIsNotLeftFold | p10s/utils.py:1-11 | the variadic merge differs from the left fold on a concrete input |
| ValueStore.Values.GetItem | p10s/values.py:57-58 | `v[k]` succeeds exactly when `k` is bound and gives its value, else KeyError |
| ValueStore.Values.SetItem | p10s/values.py:60-61 | after `v[k] = x`, `k` reads `x`, every other key reads as before, and the length grows by one exactly for a new key |
| ValueStore.Values.DelItem | p10s/values.py:63-64 | `del v[k]` succeeds exactly when `k` is bound; afterwards `k` is missing, the length drops by one and other keys are unchanged |
| ValueStore.Values.GetValue | p10s/values.py:78-79 | `get_value` gives the bound value or the default and never fails |
| ValueStore.ApplyArgs | p10s/values.py:97-99 | applying the positional arguments succeeds exactly when every one is a dict, and keeps the store well formed |
| ValueStore.ApplyArgsBinds | p10s/values.py:97-99 | the store afterwards binds its old entries overridden by the positional dicts, with a later dict winning over an earlier one |
| ValueStore.Enter | p10s/values.py:91-102 | entering `values(*args, **kwargs)` succeeds exactly when every positional argument is a dict, and saves the old store |
| ValueStore.EnterBinds | p10s/values.py:91-102 | inside the scope a key is bound to its keyword value, else its value in the last positional dict holding it, else its outer value |
| ValueStore.ValueOf | p10s/values.py:107-110 | `value(k, default)` is the bound value or the default |
| ValueStore.SetValue | p10s/values.py:113-117 | `set_value(k, v)` returns `v`, binds `k` to `v` in the current store only, and leaves other keys and saved stores unchanged |
| ValueStore.UseValues | p10s/values.py:86-88 | `use_values` replaces the current store and nothing else |
| ValueStore.SetAll | p10s/values.py:113-117 | any number of `set_value` calls leaves the saved stores alone |
| ValueStore.AssignmentsInsideScopeAreForgotten | p10s/values.py:91-117 | after a normal exit the store is exactly the one current before the scope, whatever was assigned inside |
| ValueStore.NestedScopeShadows | p10s/values.py:91-110 | an inner keyword binding shadows the outer one and is gone after the inner scope exits |
| ValueStore.ExceptionLeaksScope | p10s/values.py:91-104 | when the body raises, the scope's binding is still visible afterwards though it was unbound before |
| ValueStore.Collected | p10s/values.py:41-46 | the files collected on the walk are exactly the ones found, and the file in `basedir` itself comes last |
| ValueStore.BasedirFileWins | p10s/values.py:27-33 | every leaf set by the values file in `basedir` is in the merged values, over whatever the files further up set |
| ValueStore.FromFiles | p10s/values.py:41-52 | the files found walking up from `basedir` are merged outermost first, and the result is that fold or its first merge error |
| ValueStore.LastFileWins | p10s/values.py:48-52 | every leaf set by the file closest to `basedir` is in the merged values |
| Engine.ConfigMergeIsDeepMerge | p10s/engine.py:52-65 | `Config.merge` equals the deep merge of `p10s/utils.py`: same keys in the same order, same values |
| Engine.ConfigSet | p10s/engine.py:67-69 | `Config.set` succeeds exactly when the data is a dict or the new values are empty; on a dict the result is a dict |
| Engine.ConfigSetMerges | p10s/engine.py:67-69 | `Config.set` on a dict is the deep merge: the new leaves win and what they do not reach survives |
| Engine.Serialize | p10s/engine.py:71-86 | the result has no tuple, path or `Config` left; an already serialized value is unchanged; dicts keep their keys and order, lists and tuples their length, and a path becomes its text; each dict value and list item is the serialization of the original's, and a nested `Config` becomes the serialization of its data |
| Engine.SerializeConfig | p10s/engine.py:71-86 | `Config.serialize()` leaves no tuple, path or nested `Config`, so serializing it again changes nothing |
| Engine.SerializeAt | p10s/engine.py:71-85 | whatever the data holds at a dict path is there serialized afterwards: a nested `Config` as the serialization of its data, a path as its text, and an already serialized value unchanged |
| Engine.Enter | p10s/engine.py:14-23 | the keyword scope saves the old store and binds the keywords over a copy of it |
| Engine.Lookup | p10s/engine.py:26-36 | `value(key)` succeeds exactly when the key is bound or a default is given, with the bound value first, and raises ValueError otherwise |
| Engine.SetValue | p10s/engine.py:39-41 | after `set_value(key, v)`, `value(key)` is `v`, every other key looks up as before, and no saved store changes |
| Engine.SetInsideScopeIsLocal | p10s/engine.py:14-41 | an assignment inside the scope is visible there and the enclosing store is restored exactly on exit |
| Contexts.LastDot | p10s/context.py:13 | the index of the last dot, or -1, with no dot after it |
| Contexts.Suffix | p10s/context.py:13 | the suffix is empty or a dot plus at least one dot-free character, is shorter than the name, and ends it |
| Contexts.Stem | p10s/context.py:13 | the stem followed by the suffix is the name |
| Contexts.WithSuffix | p10s/context.py:13 | `with_suffix` succeeds exactly for a valid suffix and a non-empty name, and changes only the last component to stem plus suffix |
| Contexts.SuffixOfReplaced | p10s/context.py:13 | after appending a one-dot suffix to a stem, `suffix` and `stem` give them back |
| Contexts.WithSuffixIdempotent | p10s/context.py:13 | replacing a one-dot suffix twice is replacing it once |
| Contexts.ResolveInput | p10s/context.py:6-9 | an explicit input is kept; otherwise the input is the store's `p10s['file']`, None when unbound, and an error when `p10s` is not a dict |
| Contexts.DeriveOutput | p10s/context.py:11-13 | an output is derived exactly when the input is a path, the class has an extension and `with_suffix` accepts it |
| Contexts.InitContext | p10s/context.py:4-15 | an explicit output is kept, one is derived from a known input, and with neither the `output` attribute stays unset; construction succeeds exactly when the input resolves and, with no output given, either no input is known or an output derives from it |
| Contexts.InitBase | p10s/base.py:5-15 | as above, including when construction succeeds, except that with neither input nor output the `output` attribute is set to None |
| Contexts.BasesDifferOnlyWithoutInput | p10s/base.py:12-15 | the two constructors agree on success and input, and differ in output exactly when neither input nor output is known |
| Contexts.MissingExtensionFails | p10s/base.py:12-13 | a class without `output_file_extension` cannot derive an output from an input path |
| Contexts.DerivesSiblingFile | p10s/base.py:12-13 | `foo.p10s` with extension `.txt` writes to `foo.txt` |
| Terraform.StoragePath | p10s/terraform.py:194-250 | a block's body sits under its `KIND`, then its type and name when it has them |
| Terraform.Nest | p10s/terraform.py:196-244 | the nested one-key dicts of a constructor hold the body at exactly the given path |
| Terraform.OrEmpty | p10s/terraform.py:197 | `body or {}` keeps a truthy body and turns a falsy one into `{}` |
| Terraform.Make | p10s/terraform.py:194-244 | a constructed block stores only its `KIND` at top level and its `body` reads back as `body or {}` |
| Terraform.Body | p10s/terraform.py:183-250 | the `body` property succeeds exactly when something is stored along the storage path, and returns it |
| Terraform.Move | p10s/terraform.py:229-230 | moving a key moves its value to the new key, and deletes the entry when the keys are equal |
| Terraform.SetName | p10s/terraform.py:226-231 | the `NameBlock` name setter keeps the body under the new name, removes the old one, and changes nothing for the same name |
| Terraform.SetType | p10s/terraform.py:256-260 | the type setter as written keeps the body for a new type and loses it when the type is set to its current value |
| Terraform.SetTypedName | p10s/terraform.py:266-270 | the typed name setter as written keeps the body for a new name and loses it for the current name |
| Terraform.SetTypeGuarded | p10s/terraform.py:256-260 | the guarded type setter never loses a body that was there |
| Terraform.SetTypedNameGuarded | p10s/terraform.py:266-270 | the guarded name setter never loses a body that was there |
| Terraform.NameRenameIsRebuild | p10s/terraform.py:207-231 | renaming a constructed named block gives the block constructed under the new name with the same body |
| Terraform.TypeRenameMoves | p10s/terraform.py:234-260 | changing a constructed block's type to a different one gives the block constructed under that type |
| Terraform.TypedNameRenameMoves | p10s/terraform.py:234-270 | changing a constructed typed block's name to a different one gives the block constructed under that name |
| Terraform.SameTypeLosesBody | p10s/terraform.py:256-260 | setting a block's type to its current type leaves an empty kind table, so the body is gone |
| Terraform.SameTypedNameLosesBody | p10s/terraform.py:266-270 | setting a typed block's name to its current name leaves an empty type table, so the body is gone |
| Terraform.GuardedTypeRenameIsRebuild | p10s/terraform.py:256-260 | with the guard, every type change of a constructed block is a rebuild under the new type |
| Terraform.GuardedTypedNameRenameIsRebuild | p10s/terraform.py:266-270 | with the guard, every name change of a constructed typed block is a rebuild under the new name |
| Terraform.Copy | p10s/terraform.py:200-247 | `copy()` succeeds exactly when the body is readable, and keeps class, identity and `body or {}` |
| Terraform.CopyOfMade | p10s/terraform.py:200-247 | the copy of a constructed block equals it |
| Terraform.NewOutput | p10s/terraform.py:310-320 | with a name the `Output` is an ordinary named block; with neither name nor body it needs exactly one keyword pair `k=v` and becomes the output `k` with body `{'value': v}` |
| Terraform.NewContext | p10s/terraform.py:126-134 | the context's data defaults to `{}` and it is placed by the `p10s/context.py` constructor with extension `.tf.json` |
| Terraform.BareContextHasNoOutput | p10s/terraform.py:128-134 | outside any script `Context()` has no input and no `output` attribute |
| Terraform.Add | p10s/terraform.py:136-145 | adding blocks merges each block's data in order and keeps input and output; nothing to add changes nothing |
| Terraform.AddConcat | p10s/terraform.py:140-145 | adding a list is adding its parts one after the other, and a failing prefix fails the whole |
| Terraform.LastBlockLeavesWin | p10s/terraform.py:140-145 | every leaf of the last block added is in the context afterwards |
| Terraform.SiblingBlocksShareTable | p10s/terraform.py:140-145 | two blocks of one named kind end up side by side in the kind's table, in the order added |
| Terraform.DivergingSurvives | p10s/terraform.py:140-145 | what the context holds along a path every added block's path diverges from survives the adding |
| Terraform.AddedBodiesFound | p10s/terraform.py:140-145 | blocks with pairwise diverging paths, added where nothing is stored yet, each have their body at their path afterwards |
| Terraform.PlusAsWritten | p10s/terraform.py:147-162 | `ctx + block` as written fails on a context whose `output` was never set, and otherwise adds to a copy |
| Terraform.Plus | p10s/terraform.py:157-162 | `ctx + block` on a dict context succeeds with the union of top-level keys and keeps input and output |
| Terraform.PlusOnBareContextFails | p10s/terraform.py:147-148 | as written, `Context() + block` outside a script fails |
| Terraform.PlusOnBareContext | p10s/terraform.py:157-162 | with the copy fixed, `Context() + Variable('foo', body)` holds the variable while the bare context stays `{}` |
| Terraform.NamedBlocks | p10s/terraform.py:353-365 | one block per name of a named table, in the table's order, each holding the table's value |
| Terraform.TypedBlocks | p10s/terraform.py:367-373 | a type's dict yields one block per name, in order, each holding that name's value; a non-dict that does not fail yields none |
| Terraform.TypeTables | p10s/terraform.py:366-373 | reading a `resource`/`data` table succeeds exactly when every type's table can be read, and its blocks are exactly the blocks of its types |
| Terraform.TypeTablesConcat | p10s/terraform.py:366-373 | the types are read in order: the blocks of the first types come before those of the later ones, and the first failing type's error is the error |
| Terraform.TypeTablesFirstFailure | p10s/terraform.py:366-373 | when every type before the `i`-th reads and the `i`-th does not, its error is the table's error |
| Terraform.Sections | p10s/terraform.py:350-373 | the blocks of several top-level keys are exactly those of each key's section, and collecting them succeeds exactly when every section does |
| Terraform.SectionsConcat | p10s/terraform.py:349-373 | keys are visited in order: the blocks of earlier keys come first, and the first failing section's error is the error |
| Terraform.SectionsFirstFailure | p10s/terraform.py:349-373 | when every section before the `i`-th succeeds and the `i`-th fails, its error is the result |
| Terraform.ManyFromHcl | p10s/terraform.py:343-375 | it succeeds exactly when every top-level key's section does; every block returned is its class constructed from what the document holds at its storage path, and every body stored at a block path has its block |
| Terraform.ManyFromHclInOrder | p10s/terraform.py:349-375 | the result is the sections of the keys before the `i`-th, then that key's, then those after it, in the document's key order, with the first failure as the error |
| Terraform.ManyFromHclSound | p10s/terraform.py:343-375 | every returned block is read from the document |
| Terraform.ManyFromHclComplete | p10s/terraform.py:343-375 | every body the document holds at a block's storage path has its block among the results |
| Terraform.NonDictTableFails | p10s/terraform.py:353-368 | a named, typed or `local` table that is not a dict makes the conversion fail |
| Terraform.LocalEntryFails | p10s/terraform.py:359-365 | any entry under `local` fails, since `Locals` takes no name |
| Terraform.FromHcl | p10s/terraform.py:417-423 | `from_hcl` succeeds exactly when the document yields one block, which is read from the document |
| Terraform.FromHclResource | p10s/terraform.py:366-423 | `resource "t" "n" {...}` converts to that resource |
| Terraform.HclRebuild | p10s/terraform.py:140-145 | adding the blocks `many_from_hcl` returns to an empty context puts every block body the document holds back at its path, a falsy body as `{}` |
| ConfigData.KeyOf | p10s/config_context.py:128-148 | strings and ints are the only keys; a bool is the int key 1 or 0; anything else is InvalidKeyType |
| ConfigData.AssertForKey | p10s/config_context.py:128-148 | an untagged node takes the kind of its first key, and a key of the other kind fails with DataAccessMismatch |
| ConfigData.Set | p10s/config_context.py:172-175 | `a[key] = x` succeeds exactly for a valid key of the node's kind, tags the node, and stores `x` under the key |
| ConfigData.Get | p10s/config_context.py:150-156 | `a[key]` succeeds exactly for a valid key of the node's kind; it returns the stored item or stores and returns a fresh child |
| ConfigData.Length | p10s/config_context.py:113 | a sequence node renders `1 + max(keys)` items: every non-negative key has its index, and the last index is a key that was set |
| ConfigData.RenderMapping | p10s/config_context.py:103-110 | a mapping node renders as a well-formed dict whose key order is the node's insertion order, children rendered and plain values kept |
| ConfigData.RenderSequence | p10s/config_context.py:111-121 | a sequence node renders as a list of that length with each set index rendered and None elsewhere |
| ConfigData.FreshRendersEmpty | p10s/config_context.py:95-102 | a new `AutoData` renders as `{}` |
| ConfigData.SetKeepsValid | p10s/config_context.py:172-175 | assignment keeps a node consistent: tag matching its keys, each key once |
| ConfigData.GetKeepsValid | p10s/config_context.py:150-156 | reading keeps the node consistent and returns a consistent child |
| ConfigData.TagIsFixed | p10s/config_context.py:128-148 | once tagged, a node keeps its kind and rejects keys of the other kind or type |
| ConfigData.GetAfterSet | p10s/config_context.py:150-175 | reading a key just assigned returns the assigned item and changes nothing |
| ConfigData.SetPath | p10s/config_context.py:150-175 | a chained `a[k1]...[kn] = x` tags the top node by `k1` and stores under it |
| ConfigData.SetPathThenFind | p10s/config_context.py:150-175 | reading back along the same keys finds the assigned item, and every other key of the top node keeps its item |
| ConfigData.SetPathKeepsValid | p10s/config_context.py:150-175 | a chained assignment keeps every node consistent |
| ConfigData.AssignedLeafRenders | p10s/config_context.py:100-121 | an assigned plain value appears in the rendering under its string key, or at its non-negative index |
| ConfigData.HoleRendersAsNone | p10s/config_context.py:111-121 | `a[1] = 'value'` renders as `[None, 'value']` |
| ConfigData.MixedChainRenders | p10s/config_context.py:100-175 | `a['a'][4]['f'] = 'z'` renders as `{'a': [None, None, None, None, {'f': 'z'}]}` |
| ConfigData.KindIsDecidedByFirstKey | p10s/config_context.py:128-148 | after `a['key']` is assigned `a[0]` fails, and after `a[0]` is assigned `a['key']` fails |
| ConfigData.NewConfig | p10s/config_context.py:26-29 | a config context is placed by `p10s/base.py` with its format's extension, and its data defaults to `{}` |
| ConfigData.Add | p10s/config_context.py:31-59 | adding keeps format and placement. For YAML and JSON it succeeds exactly when the merge can, and makes the data the deep merge. For INI it succeeds exactly when every section assignment does and then changes nothing; non-dict data is missing `items`, and otherwise the error is that of the first section that fails |
| ConfigData.AddedLeavesWin | p10s/config_context.py:31-33 | for a YAML or JSON context (INI overrides `add`), every leaf of the added data is in the result, and old leaves the added data does not reach survive |
| ConfigData.IniAddKeepsData | p10s/config_context.py:56-59 | adding a section with an int option to a fresh INI context succeeds and leaves its data the empty dict |
| ConfigData.IniRefusesNone | p10s/config_context.py:56-59 | `{'s': {'a': None}}` raises TypeError |
| ConfigData.IniRefusesLonePercent | p10s/config_context.py:56-59 | `{'s': {'a': '50%'}}` raises ValueError |
| ConfigData.IniTakesEscapedPercent | p10s/config_context.py:56-59 | `{'s': {'a': '50%%'}}` goes in and changes nothing |
| ConfigData.IniRefusesCaseCollision | p10s/config_context.py:56-59 | `{'s': {'A': 1, 'a': 2}}` raises DuplicateOptionError for option `a` |
| IniParser.OptionError | p10s/config_context.py:57-58 | an option goes in exactly when its lower-cased name is new in the section, its value is not `None` and its text passes the interpolation check. A repeated name gives DuplicateOptionError, and otherwise `None` gives TypeError |
| IniParser.FirstBadOption | p10s/config_context.py:57-58 | the options before the returned index all go in, and the one at it fails |
| IniParser.SectionError | p10s/config_context.py:57-58 | a section without `items` raises AttributeError; otherwise it fails exactly when one of its options does, with the first failing option's error |
| IniParser.FirstBadSection | p10s/config_context.py:57-58 | the sections before the returned index all go in, and the one at it fails |
| IniParser.AddError | p10s/config_context.py:56-59 | non-dict data lacks `items`; otherwise `add` fails exactly when some section does, with the first failing section's error |
| IniParser.SingleOption | p10s/config_context.py:56-59 | one section holding one option fails exactly as that option does |
| IniParser.DropEscapes | p10s/config_context.py:57-58 | removing `%%` never lengthens the text and leaves text without `%` as it is |
| IniParser.DropRefs | p10s/config_context.py:57-58 | removing `%(name)s` references never lengthens the text and leaves text without `%` as it is |
| IniParser.NoPercentIsValid | p10s/config_context.py:57-58 | a value whose text has no `%` always passes the interpolation check |
| IniParser.PercentExamples | p10s/config_context.py:57-58 | `50%%` passes the interpolation check and `50%` does not |
| IniParser.ReferencePasses | p10s/config_context.py:57-58 | `%(name)s` followed by plain text passes the check |
| IniParser.ReferenceWithoutSFails | p10s/config_context.py:57-58 | a reference whose `)` is not followed by `s`, such as `%(home)d`, fails the check |
| IniParser.CloseAtFirst | p10s/config_context.py:57-58 | the reference scan stops at the first `)` |
| ConfigData.JsonContextHoldsDatum | p10s/config_context.py:74-81 | `JSONContext(dir / 'test') + DATUM` writes `dir/test.json` and holds exactly DATUM |
| Kubernetes.New | p10s/kubernetes.py:109-148 | the constructor makes `data` default to `{}`; a `kind` argument, else the class `KIND`, is written to `data['kind']`; plain `Data` takes no kind |
| Kubernetes.SecretIsCreatedAsIngress | p10s/kubernetes.py:211-212 | `Secret()` is created with kind `Ingress` |
| Kubernetes.ClassKindIsRendered | p10s/kubernetes.py:142-148 | an object of a class with a `KIND` renders with that kind |
| Kubernetes.Write | p10s/kubernetes.py:150-184 | each field setter of a `KubernetesObject` succeeds exactly on a dict body, makes the getter return the new value, and leaves every other key alone |
| Kubernetes.WriteLeavesOtherFields | p10s/kubernetes.py:150-184 | setting one of `kind`/`apiVersion`/`metadata`/`spec` leaves the other three as they were |
| Kubernetes.Render | p10s/kubernetes.py:116-127 | rendering leaves no tuple or `Data` inside, keeps an already plain value, dicts their keys, and lists and tuples their length; each dict value and list item is the rendering of the original's, and a nested `Data` becomes the rendering of its data |
| Kubernetes.RenderAt | p10s/kubernetes.py:116-127 | whatever the data holds at a dict path is there rendered afterwards: a nested `Data` as the rendering of its data, a plain value unchanged |
| Kubernetes.RenderIdempotent | p10s/kubernetes.py:116-127 | rendering twice is rendering once |
| Kubernetes.NestedDataRenders | p10s/kubernetes.py:116-127 | `Data([[Data(4)], {'foo': Data('bar')}])` renders as `[[4], {'foo': 'bar'}]` |
| Kubernetes.Update | p10s/kubernetes.py:133-136 | `update` succeeds exactly when the merge can, keeps the class, and makes the body the deep merge |
| Kubernetes.UpdateLeaves | p10s/kubernetes.py:133-136 | every leaf `update` sets is in the new body, and old leaves it does not reach survive |
| Kubernetes.UpdateReplacesScalar | p10s/kubernetes.py:133-136 | updating `{'a': 'b'}` with `{'a': {'c': 'd'}}` renders as `{'a': {'c': 'd'}}` |
| Kubernetes.NewContext | p10s/kubernetes.py:70-78 | the context's objects default to `[]` and it is placed by `p10s/base.py` with extension `.yaml` |
| Kubernetes.TakeData | p10s/kubernetes.py:85-89 | the objects appended before the first non-`Data` item: a prefix of `Data` items that stops at a non-`Data` one |
| Kubernetes.Add | p10s/kubernetes.py:80-93 | `add` succeeds exactly when every item is a `Data` and then appends them all in order; otherwise the items before the first bad one stay appended |
| Kubernetes.AddAppendsInOrder | p10s/kubernetes.py:80-90 | adding two lists one after the other is adding their concatenation |
| Kubernetes.NonDataIsRejected | p10s/kubernetes.py:85-89 | adding something that is neither a list nor a `Data` raises and appends nothing |
| Kubernetes.Plus | p10s/kubernetes.py:95-99 | `ctx + x` is `add` on a new context holding a copy of the objects |
| Kubernetes.PlusKeepsPlacement | p10s/kubernetes.py:95-99 | when input and output are known, `ctx + x` succeeds exactly when `add` would and gives the same objects and placement |
| Kubernetes.RenderAll | p10s/kubernetes.py:101-102 | rendering succeeds exactly when every object is a `Data` (otherwise `render` is missing), and then gives one plain document per object, its `render()`, in order |
| Kubernetes.AddKeepsRenderable | p10s/kubernetes.py:80-102 | `add` appends only `Data`, so a context that renders still renders afterwards, even when `add` raised part way |
| Kubernetes.DataToObject | p10s/kubernetes.py:215-227 | dispatch succeeds exactly for a dict whose kind is `Deployment`, `ConfigMap` or `Service`, keeping the data as the body; a missing or None kind raises |
| Kubernetes.ManyToObjects | p10s/kubernetes.py:235-238 | every document is dispatched in order, and the first failure fails the whole |

## Left out

- `p10s/generator.py`, `p10s/loads.py`, `p10s/watcher.py`, `p10s/__init__.py` and `Compiler.compile` in `p10s/engine.py`: these cover script discovery, running scripts, parsing and file watching. That is I/O; the model takes parsed documents as inputs.
- Every `render`, `_output_stream`, `render_to_stream` and `Config.generate` body: these write files or standard output. Only the data they write is modelled (`Kubernetes.RenderAll`, `Engine.SerializeConfig`).
- `INIContext`: the parser's own sections and its `write` are outside the model. Only the errors assigning a section can raise are modelled (`IniParser`); on success, `data` stays the same.
- IniParser.Repr: string escapes in `repr` are not modelled. Backslashes, quotes and non-printable characters are written as they are, not escaped. An escape never adds or removes a `%`, `(`, `)` or `s`, so the interpolation check gives the same answer. The address in the default object repr is left out as well.
- IniParser.Lower: only ASCII letters are lower-cased. Two option names that collide only under Python's full Unicode `str.lower()` are not detected as duplicates.
- `from_yaml` / `many_from_yaml`: YAML parsing is left out; only the dispatch of each parsed document is modelled (`Kubernetes.DataToObject`, `Kubernetes.ManyToObjects`).
- Python object identity: mutation through shared references, and `deepcopy`. Values are immutable here, so a copy is the value itself. `Values.copy`, `__iter__` and `__len__` need no contract of their own.
- `AutoData.__getattr__` / `__setattr__`: these forward to item access with the attribute name as a string key, which `ConfigData.Get`/`ConfigData.Set` with a `Str` key model. The `_data`/`_type` attribute names are not modelled.
- `UnknownDataTypeError`: `data()` can raise it only for a node tag outside the three that `_assert_for_key` assigns, so it is unreachable and left out.
- ValueStore.FromFiles: the filesystem walk and the "basedir does not exist" error are left out. The method takes the file loaded at each directory on the walk, or none.
- ConfigData.SetPath: indexing into a plain value in the middle of a chain is an error in the model. Python would index the value itself, for example a dict stored as a leaf.
- ConfigData.Length: negative int keys are stored, but `range(1 + max(keys))` never reaches them, so they are not rendered. The contract speaks only of non-negative keys.
- Terraform.NewOutput: requires that the keyword arguments do not contain `name` or `body`, since Python binds those to the parameters. With no name but a body, Python stores the body under the key None, which string keys cannot represent; the model returns an error.
- Terraform.TypedBlocks: a non-empty list or string under a resource type is an error. Python would iterate it and fail on the subscript too, except for a list of ints, which indexes the list and is not representable here.
- Terraform.Add: block data is a dict. A `TerraformBlock` built directly with `data=None` has no `data` attribute, and that case is not modelled.
- Kubernetes.Plus: states the result in terms of `add` on the re-placed context. When the input is None, `__init__` looks it up in the store again, so the new context's placement can differ from the old one's. `Kubernetes.PlusKeepsPlacement` covers the case where both are known.
- Engine.ConfigSet: `values` is always a dict in the model. A non-dict argument is not modelled.
- The older `Values` dict of `p10s/engine.py` is a plain dict, modelled by the same `Scopes.Stack` as the store of `p10s/values.py`.

## Findings

| source | as written | input that shows it | evidently intended | confidence | as-written member | corrected member |
|---|---|---|---|---|---|---|
| p10s/terraform.py:147-148 | `copy()` passes `output=self.output`, but the `BaseContext` of `p10s/context.py:11-13` never assigns `output` when neither input nor output is known | `tf.Context() + tf.Variable('foo', {'type': 'string'})` outside a script: AttributeError on `output` | the sum is a new context holding `{'variable': {'foo': {'type': 'string'}}}` while the original stays `{}` | not executed | Terraform.PlusAsWritten, Terraform.PlusOnBareContextFails | Terraform.Plus, Terraform.PlusOnBareContext |
| p10s/terraform.py:256-260 | the `TypeNameBlock` type setter has no same-value guard, unlike the `NameBlock` name setter (226-231) | `r = Resource('t', 'n', {...}); r.type = 't'`: the body is deleted and reading `r.body` raises KeyError | setting the current type changes nothing | not executed | Terraform.SetType, Terraform.SameTypeLosesBody | Terraform.SetTypeGuarded, Terraform.GuardedTypeRenameIsRebuild |
| p10s/terraform.py:266-270 | the `TypeNameBlock` name setter has no same-value guard either | `r = Resource('t', 'n', {...}); r.name = 'n'`: the body is deleted and reading `r.body` raises KeyError | setting the current name changes nothing | not executed | Terraform.SetTypedName, Terraform.SameTypedNameLosesBody | Terraform.SetTypedNameGuarded, Terraform.GuardedTypedNameRenameIsRebuild |

=== FILE: autodata.dfy ===
/** `p10s/config_context.py`: the auto-structuring `AutoData` builder and the
    merging `ConfigContext`. */
module ConfigData {
  import opened Wrappers
  import opened Tree
  import opened Scopes
  import Merge
  import Contexts
  import IniParser

  /** `_type`: None until the first key decides between a mapping and a
      sequence. */
  datatype Tag = Unset | MappingTag | SequenceTag

  /** A key `_assert_for_key` accepts. A bool is an int in Python (and
      `True == 1` as a dict key), so it becomes the int key 0 or 1. */
  datatype Key = StrKey(s: string) | IntKey(i: int)

  /** An `AutoData` node: its tag, its keys in insertion order and what each
      holds, a child node or a plain value. */
  datatype Auto = Auto(tag: Tag, order: seq<Key>, slots: map<Key, Slot>)
  datatype Slot = Node(node: Auto) | Leaf(value: Value)

  /** `AutoData()`. */
  function Fresh(): (r: Auto)
    ensures r.tag == Unset && r.slots == map[]
  {
    Auto(Unset, [], map[])
  }

  /** The key a Python value stands for, or InvalidKeyType. */
  function KeyOf(v: Value): (r: Result<Key>)
    ensures r.Ok? <==> v.Str? || v.Int? || v.Bool?
    ensures v.Str? ==> r == Ok(StrKey(v.s))
    ensures v.Int? ==> r == Ok(IntKey(v.i))
    ensures v.Bool? ==> r == Ok(IntKey(if v.b then 1 else 0))
    ensures r.Err? ==> r.error == InvalidKeyType
  {
    match v
    case Str(s) => Ok(StrKey(s))
    case Int(i) => Ok(IntKey(i))
    case Bool(b) => Ok(IntKey(if b then 1 else 0))
    case _ => Err(InvalidKeyType)
  }

  /** The tag a key asks for. */
  function Wanted(k: Key): Tag {
    if k.StrKey? then MappingTag else SequenceTag
  }

  /** `_assert_for_key`: an untagged node takes the tag the key asks for; a
      node tagged the other way fails with DataAccessMismatch. */
  function AssertForKey(a: Auto, k: Key): (r: Result<Auto>)
    ensures r.Ok? <==> a.tag == Unset || a.tag == Wanted(k)
    ensures r.Err? ==> r.error == DataAccessMismatch
    ensures r.Ok? ==> r.value == a.(tag := Wanted(k))
  {
    var tag := if a.tag == Unset then Wanted(k) else a.tag;
    if tag != Wanted(k) then Err(DataAccessMismatch)
    else Ok(a.(tag := tag))
  }

  /** `_data[k] = x` on a node already tagged for `k`. */
  function Store(a: Auto, k: Key, x: Slot): (r: Auto)
    ensures r.tag == a.tag && r.slots == a.slots[k := x]
    ensures (k in a.slots ==> r.order == a.order) && (k !in a.slots ==> r.order == a.order + [k])
  {
    Auto(a.tag, if k in a.slots then a.order else a.order + [k], a.slots[k := x])
  }

  /** `__setitem__(key, x)`. */
  function Set(a: Auto, key: Value, x: Slot): (r: Result<Auto>)
    ensures r.Ok? <==> KeyOf(key).Ok? && (a.tag == Unset || a.tag == Wanted(KeyOf(key).value))
    ensures r.Ok? ==> && r.value.tag == Wanted(KeyOf(key).value)
                      && r.value.slots == a.slots[KeyOf(key).value := x]
  {
    var k :- KeyOf(key);
    var tagged :- AssertForKey(a, k);
    Ok(Store(tagged, k, x))
  }

  /** `__getitem__(key)`: the stored item, or else a fresh child that is
      stored and returned. Returns the node as it is afterwards and the
      item. */
  function Get(a: Auto, key: Value): (r: Result<(Auto, Slot)>)
    ensures r.Ok? <==> KeyOf(key).Ok? && (a.tag == Unset || a.tag == Wanted(KeyOf(key).value))
    ensures r.Ok? ==>
              var k := KeyOf(key).value;
              && r.value.0.tag == Wanted(k)
              && k in r.value.0.slots && r.value.0.slots[k] == r.value.1
              && (k in a.slots ==> r.value.1 == a.slots[k] && r.value.0.slots == a.slots)
              && (k !in a.slots ==> r.value.1 == Node(Fresh()) && r.value.0.slots == a.slots[k := Node(Fresh())])
  {
    var k :- KeyOf(key);
    var tagged :- AssertForKey(a, k);
    if k in tagged.slots then Ok((tagged, tagged.slots[k]))
    else Ok((Store(tagged, k, Node(Fresh())), Node(Fresh())))
  }

  /** What every node the class builds satisfies: it is untagged exactly
      while empty, its keys are of the kind its tag asks for, and its
      children do the same. */
  predicate Valid(a: Auto)
    decreases a
  {
    && (a.tag == Unset <==> a.slots == map[])
    && (forall k :: k in a.slots ==> Wanted(k) == a.tag)
    && (forall k :: k in a.order ==> k in a.slots)
    && (forall k :: k in a.slots ==> k in a.order)
    && (forall i, j :: 0 <= i < j < |a.order| ==> a.order[i] != a.order[j])
    && (forall k :: k in a.slots && a.slots[k].Node? ==> Valid(a.slots[k].node))
  }

  /** The largest int key among `ks`. */
  function MaxIndex(ks: seq<Key>): (r: int)
    requires |ks| > 0 && forall i :: 0 <= i < |ks| ==> ks[i].IntKey?
    ensures forall i :: 0 <= i < |ks| ==> ks[i].i <= r
    ensures exists i :: 0 <= i < |ks| && ks[i].i == r
  {
    if |ks| == 1 then ks[0].i
    else
      var rest := MaxIndex(ks[1..]);
      assert forall i :: 1 <= i < |ks| ==> ks[i] == ks[1..][i - 1];
      if ks[0].i >= rest then ks[0].i else rest
  }

  /** The length `data()` gives a sequence node: `1 + max(keys)`, and an
      empty range when every key is negative. */
  function Length(a: Auto): (r: nat)
    requires Valid(a) && a.tag == SequenceTag
    ensures forall k :: k in a.slots && k.i >= 0 ==> k.i < r
    ensures r > 0 ==> IntKey(r - 1) in a.slots
  {
    assert a.order != [] by {
      var k :| k in a.slots;
      assert k in a.order;
    }
    assert forall i :: 0 <= i < |a.order| ==> a.order[i] in a.slots;
    var m := MaxIndex(a.order);
    forall k | k in a.slots
      ensures k.i <= m
    {
      var i :| 0 <= i < |a.order| && a.order[i] == k;
    }
    if m < 0 then 0 else m + 1
  }

  /** The string keys of a mapping node, in insertion order. */
  function Names(ks: seq<Key>): (r: seq<string>)
    requires forall i :: 0 <= i < |ks| ==> ks[i].StrKey?
    ensures |r| == |ks| && forall i :: 0 <= i < |ks| ==> r[i] == ks[i].s
  {
    seq(|ks|, i requires 0 <= i < |ks| => ks[i].s)
  }

  /** `data()`: an untagged node is `{}`, otherwise the rendering its tag
      selects. */
  function Render(a: Auto): (r: Value)
    requires Valid(a)
    decreases a, 2
    ensures a.tag == Unset ==> r == DictVal(Empty())
    ensures a.tag == MappingTag ==> r == RenderMapping(a)
    ensures a.tag == SequenceTag ==> r == RenderSequence(a)
  {
    match a.tag
    case Unset => DictVal(Empty())
    case MappingTag => RenderMapping(a)
    case SequenceTag => RenderSequence(a)
  }

  /** A mapping node becomes a dict of its items in insertion order, child
      nodes rendered and plain values kept as they are. */
  function RenderMapping(a: Auto): (r: Value)
    requires Valid(a) && a.tag == MappingTag
    decreases a, 1
    ensures && r.DictVal? && r.dict.Wf()
            && (forall s :: s in r.dict.entries <==> StrKey(s) in a.slots)
            && (forall s :: StrKey(s) in a.slots ==> r.dict.entries[s] == RenderSlot(a, StrKey(s)))
    ensures r.DictVal? && |r.dict.keys| == |a.order|
    ensures r.DictVal? ==> forall i :: 0 <= i < |a.order| ==> StrKey(r.dict.keys[i]) == a.order[i]
  {
    NamesOfMapping(a);
    var names := Names(a.order);
    var entries := map k | k in a.slots :: k.s := RenderSlot(a, k);
    assert forall s :: s in entries <==> StrKey(s) in a.slots;
    DictVal(Dict(names, entries))
  }

  /** The names of a mapping node are its string keys, each once. */
  lemma NamesOfMapping(a: Auto)
    requires Valid(a) && a.tag == MappingTag
    ensures forall i :: 0 <= i < |a.order| ==> a.order[i].StrKey?
    ensures NoDuplicates(Names(a.order))
    ensures forall s :: s in Names(a.order) <==> StrKey(s) in a.slots
    ensures forall i :: 0 <= i < |a.order| ==> StrKey(Names(a.order)[i]) == a.order[i]
  {
    assert forall i :: 0 <= i < |a.order| ==> a.order[i] in a.slots;
    var names := Names(a.order);
    forall s | s in names
      ensures StrKey(s) in a.slots
    {
      var i :| 0 <= i < |names| && names[i] == s;
      assert a.order[i] == StrKey(s);
    }
    forall s | StrKey(s) in a.slots
      ensures s in names
    {
      assert StrKey(s) in a.order;
      var i :| 0 <= i < |a.order| && a.order[i] == StrKey(s);
      assert names[i] == s;
    }
    forall i, j | 0 <= i < j < |names|
      ensures names[i] != names[j]
    {
      assert a.order[i] != a.order[j];
    }
  }

  /** A sequence node becomes a list of length `1 + max(keys)`, None where
      no key was set. */
  function RenderSequence(a: Auto): (r: Value)
    requires Valid(a) && a.tag == SequenceTag
    decreases a, 1
    ensures && r.List? && |r.items| == Length(a)
            && (forall i :: 0 <= i < Length(a) && IntKey(i) !in a.slots ==> r.items[i] == Null)
            && (forall i :: 0 <= i < Length(a) && IntKey(i) in a.slots ==> r.items[i] == RenderSlot(a, IntKey(i)))
  {
    List(seq(Length(a), i requires 0 <= i < Length(a) =>
      if IntKey(i) in a.slots then RenderSlot(a, IntKey(i)) else Null))
  }

  /** What `data()` puts for the item at `k`. */
  function RenderSlot(a: Auto, k: Key): (r: Value)
    requires Valid(a) && k in a.slots
    decreases a, 0
  {
    match a.slots[k]
    case Leaf(v) => v
    case Node(n) => Render(n)
  }

  /** A fresh node is valid and renders as `{}`. */
  lemma FreshRendersEmpty()
    ensures Valid(Fresh()) && Render(Fresh()) == DictVal(Empty())
  {
  }

  /** Storing under a key the node accepts keeps it valid. */
  lemma StoreKeepsValid(a: Auto, k: Key, x: Slot)
    requires Valid(a) && (a.tag == Unset || a.tag == Wanted(k))
    requires x.Node? ==> Valid(x.node)
    ensures Valid(Store(a.(tag := Wanted(k)), k, x))
  {
    var r := Store(a.(tag := Wanted(k)), k, x);
    if k !in a.slots {
      DistinctAppend(a.order, k);
    }
    assert k in r.slots;
  }

  /** Appending an element not yet present keeps a sequence duplicate-free. */
  lemma DistinctAppend(s: seq<Key>, x: Key)
    requires forall i, j :: 0 <= i < j < |s| ==> s[i] != s[j]
    requires x !in s
    ensures forall i, j :: 0 <= i < j < |s + [x]| ==> (s + [x])[i] != (s + [x])[j]
  {
    var t := s + [x];
    forall i, j | 0 <= i < j < |t|
      ensures t[i] != t[j]
    {
      if j == |s| {
        assert t[i] == s[i];
      }
    }
  }

  /** `__setitem__` keeps a node valid. */
  lemma SetKeepsValid(a: Auto, key: Value, x: Slot)
    requires Valid(a) && (x.Node? ==> Valid(x.node))
    ensures Set(a, key, x).Ok? ==> Valid(Set(a, key, x).value)
  {
    if Set(a, key, x).Ok? {
      StoreKeepsValid(a, KeyOf(key).value, x);
    }
  }

  /** `__getitem__` keeps a node valid and returns a valid child. */
  lemma GetKeepsValid(a: Auto, key: Value)
    requires Valid(a)
    ensures Get(a, key).Ok? ==>
              && Valid(Get(a, key).value.0)
              && (Get(a, key).value.1.Node? ==> Valid(Get(a, key).value.1.node))
  {
    if Get(a, key).Ok? {
      var k := KeyOf(key).value;
      if k !in a.slots {
        StoreKeepsValid(a, k, Node(Fresh()));
      }
    }
  }

  /** Once tagged, a node keeps its tag: item access with the other kind of
      key fails with DataAccessMismatch, and a key that is neither a string
      nor an int fails with InvalidKeyType, in both cases before anything
      is stored. */
  lemma TagIsFixed(a: Auto, key: Value, x: Slot)
    ensures a.tag != Unset && Set(a, key, x).Ok? ==> Set(a, key, x).value.tag == a.tag
    ensures a.tag != Unset && Get(a, key).Ok? ==> Get(a, key).value.0.tag == a.tag
    ensures a.tag == MappingTag && (key.Int? || key.Bool?) ==>
              Set(a, key, x) == Err(DataAccessMismatch) && Get(a, key) == Err(DataAccessMismatch)
    ensures a.tag == SequenceTag && key.Str? ==>
              Set(a, key, x) == Err(DataAccessMismatch) && Get(a, key) == Err(DataAccessMismatch)
    ensures !(key.Str? || key.Int? || key.Bool?) ==>
              Set(a, key, x) == Err(InvalidKeyType) && Get(a, key) == Err(InvalidKeyType)
  {
  }

  /** Reading back a key just assigned gives the assigned item and changes
      nothing. */
  lemma GetAfterSet(a: Auto, key: Value, x: Slot)
    requires Set(a, key, x).Ok?
    ensures Get(Set(a, key, x).value, key) == Ok((Set(a, key, x).value, x))
  {
  }

  /** A chain of item accesses ending in an assignment,
      `a[p0][p1]...[pn] = x`: each step but the last reads (creating a child
      where the key is missing) and the last assigns. Every step goes
      through a child node; indexing into a plain value is not modelled. */
  function SetPath(a: Auto, path: seq<Value>, x: Slot): (r: Result<Auto>)
    requires |path| > 0
    decreases |path|
    ensures r.Ok? ==> KeyOf(path[0]).Ok? && r.value.tag == Wanted(KeyOf(path[0]).value)
    ensures r.Ok? ==> KeyOf(path[0]).value in r.value.slots
  {
    if |path| == 1 then Set(a, path[0], x)
    else
      var got :- Get(a, path[0]);
      if !got.1.Node? then Err(TypeMismatch("not an AutoData"))
      else
        var child :- SetPath(got.1.node, path[1..], x);
        Ok(Store(got.0, KeyOf(path[0]).value, Node(child)))
  }

  /** A chained assignment keeps the node valid. */
  lemma {:induction false} SetPathKeepsValid(a: Auto, path: seq<Value>, x: Slot)
    requires |path| > 0 && Valid(a) && (x.Node? ==> Valid(x.node))
    ensures SetPath(a, path, x).Ok? ==> Valid(SetPath(a, path, x).value)
    decreases |path|
  {
    if SetPath(a, path, x).Ok? {
      if |path| == 1 {
        SetKeepsValid(a, path[0], x);
      } else {
        var got := Get(a, path[0]).value;
        GetKeepsValid(a, path[0]);
        SetPathKeepsValid(got.1.node, path[1..], x);
        var k := KeyOf(path[0]).value;
        StoreKeepsValid(got.0, k, Node(SetPath(got.1.node, path[1..], x).value));
        assert got.0.(tag := Wanted(k)) == got.0;
      }
    }
  }

  /** The item reached by following `path` through child nodes without
      creating anything, or None. */
  function Find(a: Auto, path: seq<Value>): Option<Slot>
    requires |path| > 0
    decreases |path|
  {
    if KeyOf(path[0]).Err? || KeyOf(path[0]).value !in a.slots then None
    else
      var item := a.slots[KeyOf(path[0]).value];
      if |path| == 1 then Some(item)
      else if item.Node? then Find(item.node, path[1..])
      else None
  }

  /** Reading back a chained assignment along the same keys finds the
      assigned item, and the other keys of the top node are untouched. */
  lemma {:induction false} SetPathThenFind(a: Auto, path: seq<Value>, x: Slot)
    requires |path| > 0 && SetPath(a, path, x).Ok?
    ensures Find(SetPath(a, path, x).value, path) == Some(x)
    ensures forall k :: k in a.slots && k != KeyOf(path[0]).value ==>
              k in SetPath(a, path, x).value.slots && SetPath(a, path, x).value.slots[k] == a.slots[k]
    decreases |path|
  {
    var k := KeyOf(path[0]).value;
    var r := SetPath(a, path, x).value;
    if |path| > 1 {
      var got := Get(a, path[0]).value;
      var child := SetPath(got.1.node, path[1..], x).value;
      SetPathThenFind(got.1.node, path[1..], x);
      assert r == Store(got.0, k, Node(child));
      assert r.slots[k] == Node(child);
    }
  }

  /** An assigned plain value shows up where `data()` renders the key: as
      the dict entry for a string key, at its index for a non-negative int
      key. */
  lemma AssignedLeafRenders(a: Auto, key: Value, v: Value)
    requires Valid(a) && Set(a, key, Leaf(v)).Ok?
    ensures Valid(Set(a, key, Leaf(v)).value)
    ensures key.Str? ==>
              var r := Render(Set(a, key, Leaf(v)).value);
              r.DictVal? && key.s in r.dict.entries && r.dict.entries[key.s] == v
    ensures key.Int? && key.i >= 0 ==>
              var r := Render(Set(a, key, Leaf(v)).value);
              r.List? && key.i < |r.items| && r.items[key.i] == v
  {
    SetKeepsValid(a, key, Leaf(v));
  }

  /** `a[1] = 'value'` renders as `[None, 'value']`. */
  lemma HoleRendersAsNone()
    ensures Set(Fresh(), Int(1), Leaf(Str("value"))).Ok?
    ensures Valid(Set(Fresh(), Int(1), Leaf(Str("value"))).value)
    ensures Render(Set(Fresh(), Int(1), Leaf(Str("value"))).value) == List([Null, Str("value")])
  {
    var a := Set(Fresh(), Int(1), Leaf(Str("value"))).value;
    assert a == Auto(SequenceTag, [IntKey(1)], map[IntKey(1) := Leaf(Str("value"))]);
    assert MaxIndex(a.order) == 1;
    var r := Render(a);
    assert r.items[0] == Null;
    assert r.items == [Null, Str("value")];
  }

  /** A chained assignment on a fresh node builds one child per step. */
  lemma FreshChainStep(key: Value, rest: seq<Value>, x: Slot)
    requires KeyOf(key).Ok? && |rest| > 0 && SetPath(Fresh(), rest, x).Ok?
    ensures
      var k := KeyOf(key).value;
      SetPath(Fresh(), [key] + rest, x)
      == Ok(Auto(Wanted(k), [k], map[k := Node(SetPath(Fresh(), rest, x).value)]))
  {
    var path := [key] + rest;
    assert path[0] == key && path[1..] == rest;
    var k := KeyOf(key).value;
    var e: seq<Key> := [];
    assert e + [k] == [k];
    var got := Get(Fresh(), key).value;
    assert got.1 == Node(Fresh()) && got.0 == Auto(Wanted(k), [k], map[k := Node(Fresh())]);
    var child := SetPath(Fresh(), rest, x).value;
    assert SetPath(Fresh(), path, x) == Ok(Store(got.0, k, Node(child)));
    assert map[k := Node(Fresh())][k := Node(child)] == map[k := Node(child)];
  }

  /** A node holding one item under a key of its kind is valid. */
  lemma SingleValid(k: Key, x: Slot)
    requires x.Node? ==> Valid(x.node)
    ensures Valid(Auto(Wanted(k), [k], map[k := x]))
  {
    assert k in map[k := x];
  }

  /** A single assignment on a fresh node. */
  lemma FreshSet(key: Value, x: Slot)
    requires KeyOf(key).Ok?
    ensures
      var k := KeyOf(key).value;
      SetPath(Fresh(), [key], x) == Ok(Auto(Wanted(k), [k], map[k := x]))
  {
    var e: seq<Key> := [];
    assert e + [KeyOf(key).value] == [KeyOf(key).value];
  }

  /** `a['a'][4]['f'] = 'z'` renders as
      `{'a': [None, None, None, None, {'f': 'z'}]}`. */
  lemma MixedChainRenders()
    ensures SetPath(Fresh(), [Str("a"), Int(4), Str("f")], Leaf(Str("z"))).Ok?
    ensures Valid(SetPath(Fresh(), [Str("a"), Int(4), Str("f")], Leaf(Str("z"))).value)
    ensures Render(SetPath(Fresh(), [Str("a"), Int(4), Str("f")], Leaf(Str("z"))).value)
            == DictVal(Single("a", List([Null, Null, Null, Null, DictVal(Single("f", Str("z")))])))
  {
    var leaf := Auto(MappingTag, [StrKey("f")], map[StrKey("f") := Leaf(Str("z"))]);
    var mid := Auto(SequenceTag, [IntKey(4)], map[IntKey(4) := Node(leaf)]);
    var top := Auto(MappingTag, [StrKey("a")], map[StrKey("a") := Node(mid)]);
    MixedChainBuilds(leaf, mid, top);
    TopRenders(top, mid, leaf);
  }

  lemma MixedChainBuilds(leaf: Auto, mid: Auto, top: Auto)
    requires leaf == Auto(MappingTag, [StrKey("f")], map[StrKey("f") := Leaf(Str("z"))])
    requires mid == Auto(SequenceTag, [IntKey(4)], map[IntKey(4) := Node(leaf)])
    requires top == Auto(MappingTag, [StrKey("a")], map[StrKey("a") := Node(mid)])
    ensures SetPath(Fresh(), [Str("a"), Int(4), Str("f")], Leaf(Str("z"))) == Ok(top)
  {
    FreshSet(Str("f"), Leaf(Str("z")));
    FreshChainStep(Int(4), [Str("f")], Leaf(Str("z")));
    assert [Int(4)] + [Str("f")] == [Int(4), Str("f")];
    FreshChainStep(Str("a"), [Int(4), Str("f")], Leaf(Str("z")));
    assert [Str("a")] + [Int(4), Str("f")] == [Str("a"), Int(4), Str("f")];
  }

  lemma TopRenders(top: Auto, mid: Auto, leaf: Auto)
    requires leaf == Auto(MappingTag, [StrKey("f")], map[StrKey("f") := Leaf(Str("z"))])
    requires mid == Auto(SequenceTag, [IntKey(4)], map[IntKey(4) := Node(leaf)])
    requires top == Auto(MappingTag, [StrKey("a")], map[StrKey("a") := Node(mid)])
    ensures Valid(top)
    ensures Render(top) == DictVal(Single("a", List([Null, Null, Null, Null, DictVal(Single("f", Str("z")))])))
  {
    LeafRenders(leaf);
    MidRenders(mid, leaf, DictVal(Single("f", Str("z"))));
    OneNameRenders("a", Node(mid));
  }

  /** A mapping node with one item renders as a one-entry dict. */
  lemma OneNameRenders(s: string, x: Slot)
    requires x.Node? ==> Valid(x.node)
    ensures Valid(Auto(MappingTag, [StrKey(s)], map[StrKey(s) := x]))
    ensures Render(Auto(MappingTag, [StrKey(s)], map[StrKey(s) := x]))
            == DictVal(Single(s, RenderSlot(Auto(MappingTag, [StrKey(s)], map[StrKey(s) := x]), StrKey(s))))
  {
    var a := Auto(MappingTag, [StrKey(s)], map[StrKey(s) := x]);
    SingleValid(StrKey(s), x);
    var r := RenderMapping(a);
    NamesOfMapping(a);
    assert Names(a.order) == [s];
    assert r.dict.entries.Keys == {s};
  }

  lemma LeafRenders(leaf: Auto)
    requires leaf == Auto(MappingTag, [StrKey("f")], map[StrKey("f") := Leaf(Str("z"))])
    ensures Valid(leaf) && Render(leaf) == DictVal(Single("f", Str("z")))
  {
    OneNameRenders("f", Leaf(Str("z")));
  }

  lemma MidRenders(mid: Auto, leaf: Auto, item: Value)
    requires Valid(leaf) && Render(leaf) == item
    requires mid == Auto(SequenceTag, [IntKey(4)], map[IntKey(4) := Node(leaf)])
    ensures Valid(mid)
    ensures Render(mid) == List([Null, Null, Null, Null, item])
  {
    var items := [Null, Null, Null, Null, item];
    assert items[..4] == [Null, Null, Null, Null];
    assert forall v :: v in items[..4] ==> v == Null;
    assert items[4] == Render(leaf);
    OneIndexRenders(4, Node(leaf), items);
  }

  /** A sequence node holding one item at index `k` renders as `k` nulls
      followed by that item. */
  lemma OneIndexRenders(k: nat, x: Slot, items: seq<Value>)
    requires x.Node? ==> Valid(x.node)
    requires |items| == k + 1 && forall v :: v in items[..k] ==> v == Null
    requires items[k] == (if x.Node? then Render(x.node) else x.value)
    ensures var a := Auto(SequenceTag, [IntKey(k)], map[IntKey(k) := x]);
            Valid(a) && Render(a) == List(items)
  {
    var a := Auto(SequenceTag, [IntKey(k)], map[IntKey(k) := x]);
    SingleValid(IntKey(k), x);
    assert MaxIndex(a.order) == k;
    var r := RenderSequence(a);
    assert r.items[k] == RenderSlot(a, IntKey(k));
    forall i | 0 <= i < k
      ensures r.items[i] == items[i]
    {
      assert items[i] in items[..k];
    }
    assert r.items == items;
  }

  /** Once `a['key']` is assigned, reading `a[0]` fails, and after `a[0]`
      is assigned, reading `a['key']` fails. */
  lemma KindIsDecidedByFirstKey()
    ensures Set(Fresh(), Str("key"), Leaf(Str("1"))).Ok?
    ensures Get(Set(Fresh(), Str("key"), Leaf(Str("1"))).value, Int(0)) == Err(DataAccessMismatch)
    ensures Set(Fresh(), Int(0), Leaf(Str("1"))).Ok?
    ensures Get(Set(Fresh(), Int(0), Leaf(Str("1"))).value, Str("key")) == Err(DataAccessMismatch)
  {
  }

  /** The concrete config contexts and the `output_file_extension` each
      declares. */
  datatype Format = Ini | Yaml | Json {
    function Extension(): string {
      match this
      case Ini => ".ini"
      case Yaml => ".yaml"
      case Json => ".json"
    }
  }

  /** A `ConfigContext`: where it writes and the data accumulated so far. */
  datatype ConfigCtx = ConfigCtx(format: Format, place: Contexts.Placement, data: Value)

  /** `ConfigContext(input, output, data=data)`: placed as `p10s/base.py`
      places any context, with `data` defaulting to `{}`. */
  function NewConfig(s: Stack, format: Format, input: Value, output: Value, data: Value): (r: Result<ConfigCtx>)
    ensures r.Ok? <==> Contexts.InitBase(s, input, output, Some(format.Extension())).Ok?
    ensures r.Ok? ==> Contexts.InitBase(s, input, output, Some(format.Extension())) == Ok(r.value.place)
    ensures r.Ok? ==> r.value.format == format
    ensures r.Ok? && data == Null ==> r.value.data == DictVal(Empty())
    ensures r.Ok? && data != Null ==> r.value.data == data
  {
    var place :- Contexts.InitBase(s, input, output, Some(format.Extension()));
    Ok(ConfigCtx(format, place, if data == Null then DictVal(Empty()) else data))
  }

  /** `add(data)`, `+= data` and `+ data` (the last on a deep copy, which
      is the same value here): `merge_dicts(self.data, data)`. The INI
      context overrides `add`: it assigns each `(section, values)` pair of
      `data.items()` into its `configparser`, which may raise, and leaves
      `data` as it was. */
  function Add(c: ConfigCtx, d: Value): (r: Result<ConfigCtx>)
    ensures c.format != Ini ==> (r.Ok? <==> d.DictVal? && (d.dict.entries == map[] || c.data.DictVal?))
    ensures c.format == Ini ==>
              (r.Ok? <==> d.DictVal? && forall i :: 0 <= i < |d.dict.keys| ==> IniParser.SectionError(d.dict, i).None?)
    ensures c.format == Ini && !d.DictVal? ==> r == Err(AttributeMissing("items"))
    ensures c.format == Ini && d.DictVal? && r.Err? ==>
              Some(r.error) == IniParser.SectionError(d.dict, IniParser.FirstBadSection(d.dict, 0))
    ensures r.Ok? ==> r.value.format == c.format && r.value.place == c.place
    ensures r.Ok? && c.format == Ini ==> r.value == c
    ensures r.Ok? && c.format != Ini && c.data.DictVal? ==>
              r.value.data == DictVal(Merge.MergeInto(c.data.dict, d.dict))
    ensures r.Ok? && !c.data.DictVal? ==> r.value.data == c.data
  {
    if c.format == Ini then
      match IniParser.AddError(d)
      case None => Ok(c)
      case Some(e) => Err(e)
    else
      var merged :- Merge.MergeAll([c.data, d]);
      Ok(c.(data := merged))
  }

  /** Every leaf the added data sets is in the result, and every leaf of the
      old data the added data does not reach survives. */
  lemma AddedLeavesWin(c: ConfigCtx, d: Dict, path: seq<string>, v: Value)
    requires c.format != Ini && c.data.DictVal? && !v.DictVal?
    ensures At(DictVal(d), path) == Some(v) ==>
              Add(c, DictVal(d)).Ok? && At(Add(c, DictVal(d)).value.data, path) == Some(v)
    ensures At(c.data, path) == Some(v) && Merge.Untouched(d, path) ==>
              Add(c, DictVal(d)).Ok? && At(Add(c, DictVal(d)).value.data, path) == Some(v)
  {
    if At(DictVal(d), path) == Some(v) {
      Merge.RightWinsOnLeaves(c.data.dict, d, path, v);
    }
    if At(c.data, path) == Some(v) && Merge.Untouched(d, path) {
      Merge.LeftSurvives(c.data.dict, d, path, v);
    }
  }

  /** The INI sections `{section: {option: values[option]}}`. */
  function IniData(section: string, values: Dict): Value {
    DictVal(Single(section, DictVal(values)))
  }

  /** Adding a section with an int option to a fresh INI context succeeds
      and leaves its data as it was: `INIContext(p) += {'s': {'a': 1}}`
      still holds `{}`. */
  lemma IniAddKeepsData(s: Stack, input: Value, output: Value, section: string, option: string, n: int)
    requires NewConfig(s, Ini, input, output, Null).Ok?
    ensures var c := NewConfig(s, Ini, input, output, Null).value;
            Add(c, IniData(section, Single(option, Int(n)))) == Ok(c) && c.data == DictVal(Empty())
  {
    IniParser.NoPercentIsValid(IniParser.IntText(n));
    IniParser.SingleOption(section, option, Int(n));
  }

  /** `configparser` refuses a `None` value: `{'s': {'a': None}}` raises
      TypeError. */
  lemma IniRefusesNone(c: ConfigCtx, section: string, option: string)
    requires c.format == Ini
    ensures Add(c, IniData(section, Single(option, Null))) == Err(TypeMismatch("option values must be strings"))
  {
    IniParser.SingleOption(section, option, Null);
  }

  /** A lone `%` fails the interpolation check: `{'s': {'a': '50%'}}`
      raises ValueError. */
  lemma IniRefusesLonePercent(c: ConfigCtx, section: string, option: string)
    requires c.format == Ini
    ensures Add(c, IniData(section, Single(option, Str("50%")))) == Err(ValueInvalid("invalid interpolation syntax"))
  {
    var values := Single(option, Str("50%"));
    assert !IniParser.Collides(values.keys, 0) && values.GetOr(option, Null) == Str("50%");
    assert IniParser.OptionError(section, values, 0) == Some(ValueInvalid("invalid interpolation syntax")) by {
      IniParser.PercentExamples();
    }
    IniParser.SingleOption(section, option, Str("50%"));
  }

  /** The escaped `{'s': {'a': '50%%'}}` goes in. */
  lemma IniTakesEscapedPercent(c: ConfigCtx, section: string, option: string)
    requires c.format == Ini
    ensures Add(c, IniData(section, Single(option, Str("50%%")))) == Ok(c)
  {
    var values := Single(option, Str("50%%"));
    assert !IniParser.Collides(values.keys, 0) && values.GetOr(option, Null) == Str("50%%");
    assert IniParser.OptionError(section, values, 0).None? by {
      IniParser.PercentExamples();
    }
    IniParser.SingleOption(section, option, Str("50%%"));
  }

  /** Option names are lower-cased, so `{'s': {'A': 1, 'a': 2}}` raises
      DuplicateOptionError on the second. */
  lemma IniRefusesCaseCollision(c: ConfigCtx, section: string)
    requires c.format == Ini
    ensures Add(c, IniData(section, Dict(["A", "a"], map["A" := Int(1), "a" := Int(2)])))
            == Err(DuplicateOption(section, "a"))
  {
    var values := Dict(["A", "a"], map["A" := Int(1), "a" := Int(2)]);
    assert IniParser.Lower("A") == "a" == IniParser.Lower("a");
    assert !IniParser.Collides(values.keys, 0);
    IniParser.NoPercentIsValid(IniParser.IntText(1));
    assert IniParser.OptionError(section, values, 0).None?;
    assert IniParser.Collides(values.keys, 1);
    assert IniParser.FirstBadOption(section, values, 0) == 1;
    assert IniParser.FirstBadSection(Single(section, DictVal(values)), 0) == 0;
  }

  /** `JSONContext(dir / 'test') + DATUM`: writes `dir/test.json` and holds
      exactly DATUM. */
  lemma JsonContextHoldsDatum(s: Stack, dir: seq<string>, datum: Dict)
    requires datum.Wf()
    ensures
      var c := NewConfig(s, Json, PathVal(Path("/", dir + ["test"])), Null, Null);
      && c.Ok?
      && c.value.place.output == Some(PathVal(Path("/", dir + ["test.json"])))
      && Add(c.value, DictVal(datum)) == Ok(c.value.(data := DictVal(datum)))
  {
    var p := Path("/", dir + ["test"]);
    assert p.Name() == "test";
    assert Contexts.LastDot("test") == -1;
    assert Contexts.Stem("test") == "test";
    assert p.parts[..|p.parts| - 1] == dir;
    assert Contexts.Stem("test") + ".json" == "test.json";
    assert Contexts.ValidSuffix(".json");
    var q := Contexts.WithSuffix(p, ".json").value;
    assert q.parts == dir + ["test.json"];
  }
}

=== FILE: contexts.dfy ===
/** Where a context writes: `BaseContext.__init__` in `p10s/context.py` (the
    base of the terraform context) and in `p10s/base.py` (the base of the
    kubernetes and config contexts), with the `pathlib` suffix rules they use. */
module Contexts {
  import opened Wrappers
  import opened Tree
  import opened Scopes
  import ValueStore

  /** `name.rfind('.')`: the index of the last dot, or -1. */
  function LastDot(name: string): (r: int)
    ensures -1 <= r < |name|
    ensures r >= 0 ==> name[r] == '.'
    ensures forall i :: r < i < |name| ==> name[i] != '.'
  {
    if |name| == 0 then -1
    else if name[|name| - 1] == '.' then |name| - 1
    else LastDot(name[..|name| - 1])
  }

  /** `PurePath.suffix`: from the last dot on, provided that dot is neither
      the first nor the last character of the name. */
  function Suffix(name: string): (r: string)
    ensures r == "" || (|r| >= 2 && r[0] == '.' && '.' !in r[1..] && |r| < |name|)
    ensures r <= name[|name| - |r|..] && |r| <= |name|
  {
    var i := LastDot(name);
    if 0 < i < |name| - 1 then name[i..] else ""
  }

  /** `PurePath.stem`: the name without its suffix. */
  function Stem(name: string): (r: string)
    ensures r + Suffix(name) == name
  {
    var n := Suffix(name);
    assert name == name[..|name| - |n|] + name[|name| - |n|..];
    name[..|name| - |n|]
  }

  /** A suffix `with_suffix` accepts: no separator, and either empty or a
      dot followed by at least one character. */
  predicate ValidSuffix(ext: string) {
    && '/' !in ext
    && (ext == "" || (ext[0] == '.' && ext != "."))
  }

  /** `PurePath.with_suffix(ext)` on a POSIX path: rejects a bad suffix, then
      a path with an empty name, and otherwise replaces the last suffix of
      the name (appending when there is none). */
  function WithSuffix(p: Path, ext: string): (r: Result<Path>)
    ensures r.Ok? <==> ValidSuffix(ext) && p.Name() != ""
    ensures r.Ok? ==> && r.value.anchor == p.anchor
                      && |r.value.parts| == |p.parts| > 0
                      && (forall i :: 0 <= i < |p.parts| - 1 ==> r.value.parts[i] == p.parts[i])
                      && r.value.Name() == Stem(p.Name()) + ext
  {
    if !ValidSuffix(ext) then Err(ValueInvalid("Invalid suffix " + ext))
    else if p.Name() == "" then Err(ValueInvalid("has an empty name"))
    else
      var parts := p.parts[..|p.parts| - 1] + [Stem(p.Name()) + ext];
      Ok(Path(p.anchor, parts))
  }

  /** A suffix with exactly one dot, like `.txt`, is what `Suffix` then
      finds again, and the stem survives. */
  lemma SuffixOfReplaced(stem: string, ext: string)
    requires stem != "" && |ext| >= 2 && ext[0] == '.' && '.' !in ext[1..]
    ensures Suffix(stem + ext) == ext
    ensures Stem(stem + ext) == stem
  {
    var name := stem + ext;
    forall i | |stem| < i < |name|
      ensures name[i] != '.'
    {
      assert name[i] == ext[1..][i - |stem| - 1];
    }
    LastDotIs(name, |stem|);
  }

  lemma LastDotIs(name: string, i: int)
    requires 0 <= i < |name| && name[i] == '.'
    requires forall j :: i < j < |name| ==> name[j] != '.'
    ensures LastDot(name) == i
    decreases |name|
  {
    if i < |name| - 1 {
      LastDotIs(name[..|name| - 1], i);
    }
  }

  /** Replacing a one-dot suffix twice is replacing it once. */
  lemma WithSuffixIdempotent(p: Path, ext: string)
    requires WithSuffix(p, ext).Ok?
    requires |ext| >= 2 && '.' !in ext[1..]
    ensures WithSuffix(WithSuffix(p, ext).value, ext) == WithSuffix(p, ext)
  {
    var q := WithSuffix(p, ext).value;
    var stem := Stem(p.Name());
    assert stem != "" by {
      assert stem + Suffix(p.Name()) == p.Name();
    }
    SuffixOfReplaced(stem, ext);
    var q2 := WithSuffix(q, ext).value;
    assert q2.parts == q.parts;
  }

  /** `input=None`: `value('p10s', {}).get('file', None)`, which needs the
      bound `p10s` value to be a dict. An explicit input is kept. */
  function ResolveInput(s: Stack, input: Value): (r: Result<Value>)
    ensures input != Null ==> r == Ok(input)
    ensures input == Null && "p10s" !in s.current.entries ==> r == Ok(Null)
    ensures input == Null && "p10s" in s.current.entries ==>
              match s.current.entries["p10s"]
              case DictVal(d) => r == Ok(d.GetOr("file", Null))
              case _ => r.Err?
  {
    if input != Null then Ok(input)
    else
      var p := ValueStore.ValueOf(s, "p10s", DictVal(Empty()));
      if p.DictVal? then Ok(p.dict.GetOr("file", Null))
      else Err(AttributeMissing("get"))
  }

  /** `self.input.with_suffix(self.output_file_extension)`: the input must be
      a path and the class must declare an extension (`ext` is None when it
      does not). */
  function DeriveOutput(input: Value, ext: Option<string>): (r: Result<Value>)
    ensures r.Ok? <==> && input.PathVal? && ext.Some?
                       && WithSuffix(input.path, ext.value).Ok?
    ensures r.Ok? ==> r.value == PathVal(WithSuffix(input.path, ext.value).value)
  {
    if !input.PathVal? then Err(AttributeMissing("with_suffix"))
    else if ext.None? then Err(AttributeMissing("output_file_extension"))
    else
      var p :- WithSuffix(input.path, ext.value);
      Ok(PathVal(p))
  }

  /** The `input`/`output` attributes after `__init__`; `output` is None
      when the attribute was never assigned. */
  datatype Placement = Placement(input: Value, output: Option<Value>)

  /** `p10s/context.py`: with neither output nor input the `output`
      attribute is left unset. */
  function InitContext(s: Stack, input: Value, output: Value, ext: Option<string>): (r: Result<Placement>)
    ensures r.Ok? ==> ResolveInput(s, input) == Ok(r.value.input)
    ensures output != Null ==> (r.Ok? <==> ResolveInput(s, input).Ok?)
    ensures output == Null ==>
              (r.Ok? <==> && ResolveInput(s, input).Ok?
                          && (ResolveInput(s, input).value == Null ||
                              DeriveOutput(ResolveInput(s, input).value, ext).Ok?))
    ensures r.Ok? && output != Null ==> r.value.output == Some(output)
    ensures r.Ok? && output == Null && r.value.input == Null ==> r.value.output.None?
    ensures r.Ok? && output == Null && r.value.input != Null ==>
              DeriveOutput(r.value.input, ext).Ok? &&
              r.value.output == Some(DeriveOutput(r.value.input, ext).value)
  {
    var inp :- ResolveInput(s, input);
    if output == Null then
      if inp != Null then
        var out :- DeriveOutput(inp, ext);
        Ok(Placement(inp, Some(out)))
      else Ok(Placement(inp, None))
    else Ok(Placement(inp, Some(output)))
  }

  /** `p10s/base.py`: the same, except that with neither output nor input
      `output` is set to None. */
  function InitBase(s: Stack, input: Value, output: Value, ext: Option<string>): (r: Result<Placement>)
    ensures r.Ok? ==> ResolveInput(s, input) == Ok(r.value.input) && r.value.output.Some?
    ensures output != Null ==> (r.Ok? <==> ResolveInput(s, input).Ok?)
    ensures output == Null ==>
              (r.Ok? <==> && ResolveInput(s, input).Ok?
                          && (ResolveInput(s, input).value == Null ||
                              DeriveOutput(ResolveInput(s, input).value, ext).Ok?))
    ensures r.Ok? && output != Null ==> r.value.output == Some(output)
    ensures r.Ok? && output == Null && r.value.input == Null ==> r.value.output == Some(Null)
    ensures r.Ok? && output == Null && r.value.input != Null ==>
              DeriveOutput(r.value.input, ext).Ok? &&
              r.value.output == Some(DeriveOutput(r.value.input, ext).value)
  {
    var inp :- ResolveInput(s, input);
    if output == Null && inp != Null then
      var out :- DeriveOutput(inp, ext);
      Ok(Placement(inp, Some(out)))
    else Ok(Placement(inp, Some(output)))
  }

  /** The two bases agree except when neither an input nor an output is
      known: then only `p10s/base.py` assigns `output`. */
  lemma BasesDifferOnlyWithoutInput(s: Stack, input: Value, output: Value, ext: Option<string>)
    ensures InitContext(s, input, output, ext).Ok? <==> InitBase(s, input, output, ext).Ok?
    ensures InitContext(s, input, output, ext).Ok? ==>
              var c, b := InitContext(s, input, output, ext).value, InitBase(s, input, output, ext).value;
              && c.input == b.input
              && (c.output == b.output <==> !(output == Null && c.input == Null))
  {
  }

  /** A class without `output_file_extension` cannot derive an output from
      an input path. */
  lemma MissingExtensionFails(s: Stack, p: Path)
    ensures InitBase(s, PathVal(p), Null, None).Err?
    ensures InitContext(s, PathVal(p), Null, None).Err?
  {
  }

  /** `foo.p10s` with extension `.txt` is placed at `foo.txt`. */
  lemma DerivesSiblingFile()
    ensures InitBase(Stack(Empty(), []), PathVal(Path("", ["foo.p10s"])), Null, Some(".txt"))
            == Ok(Placement(PathVal(Path("", ["foo.p10s"])), Some(PathVal(Path("", ["foo.txt"])))))
  {
    ReplacesP10sSuffix();
  }

  lemma ReplacesP10sSuffix()
    ensures WithSuffix(Path("", ["foo.p10s"]), ".txt") == Ok(Path("", ["foo.txt"]))
  {
    assert "foo" + ".p10s" == "foo.p10s";
    SuffixOfReplaced("foo", ".p10s");
    assert ValidSuffix(".txt");
    WithSuffixOfName("foo.p10s", ".txt");
    assert "foo" + ".txt" == "foo.txt";
  }

  /** `with_suffix` on a relative path of one component. */
  lemma WithSuffixOfName(name: string, ext: string)
    requires ValidSuffix(ext) && name != ""
    ensures WithSuffix(Path("", [name]), ext) == Ok(Path("", [Stem(name) + ext]))
  {
    var p := Path("", [name]);
    assert p.Name() == name;
    assert p.parts[..0] + [Stem(name) + ext] == [Stem(name) + ext];
  }
}

=== FILE: engine.dfy ===
/** `p10s/engine.py`: `Config.merge`, `Config.serialize` and the older
    keyword-only `values`/`value`/`set_value` scope whose lookup raises. */
module Engine {
  import opened Wrappers
  import opened Tree
  import opened Scopes
  import Merge

  /** A `Config` object; `data` defaults to None. */
  datatype Config = Config(data: Value)

  /** `Config.merge(a, b)`: for each key of `b` in order, recurse when the key
      is in `a` and both values are dicts, otherwise store `b`'s value. */
  function ConfigMerge(a: Dict, b: Dict): Dict
    decreases b, |b.keys| + 1
  {
    MergeKeys(a, b, b.keys)
  }

  /** The loop of `Config.merge` over the keys `ks` still to visit. */
  function MergeKeys(a: Dict, b: Dict, ks: seq<string>): Dict
    decreases b, |ks|
  {
    if |ks| == 0 then a
    else
      var key := ks[0];
      var next :=
        if key !in b.entries then a
        else if key in a.entries && a.entries[key].DictVal? && b.entries[key].DictVal? then
          a.Put(key, DictVal(ConfigMerge(a.entries[key].dict, b.entries[key].dict)))
        else a.Put(key, b.entries[key]);
      MergeKeys(next, b, ks[1..])
  }

  /** What `_merge_dicts` stores at a key of `b`; it depends on `a` only
      through `a`'s entry at that key. */
  function MergedAt(a: Dict, b: Dict, k: string): Value
    requires k in b.entries
  {
    if Merge.Recurses(a, b, k) then DictVal(Merge.MergeInto(a.entries[k].dict, b.entries[k].dict))
    else b.entries[k]
  }

  /** What `MergeKeys` has produced after visiting `ks`. */
  function Visited(a: Dict, b: Dict, ks: seq<string>): Dict
    requires forall k :: k in ks ==> k in b.entries
  {
    Dict(a.keys + Absent(ks, a.entries.Keys),
         a.entries + map k | k in ks :: MergedAt(a, b, k))
  }

  /** `Config.merge` and `_merge_dicts` are the same merge: both recurse
      exactly where both sides hold dicts, keep keys only `a` has, and append
      new keys in `b`'s order. */
  lemma {:induction false} ConfigMergeIsDeepMerge(a: Dict, b: Dict)
    requires NestedWf(b)
    ensures ConfigMerge(a, b) == Merge.MergeInto(a, b)
    decreases b, |b.keys| + 1
  {
    MergeKeysVisits(a, b, b.keys);
    VisitedAllIsMerge(a, b);
  }

  /** Having visited every key of `b` is the deep merge. */
  lemma VisitedAllIsMerge(a: Dict, b: Dict)
    requires b.Wf()
    ensures Visited(a, b, b.keys) == Merge.MergeInto(a, b)
  {
    VisitedAllEntries(a, b);
  }

  lemma VisitedAllEntries(a: Dict, b: Dict)
    requires b.Wf()
    ensures a.entries + (map k | k in b.keys :: MergedAt(a, b, k)) == Merge.MergeInto(a, b).entries
  {
    var l, r := a.entries + (map k | k in b.keys :: MergedAt(a, b, k)), Merge.MergeInto(a, b).entries;
    MergeIntoAtAll(a, b);
    assert forall k :: k in b.keys <==> k in b.entries;
    SameMaps(l, r);
  }

  lemma MergeIntoAtAll(a: Dict, b: Dict)
    ensures forall k :: k in b.entries ==> Merge.MergeInto(a, b).entries[k] == MergedAt(a, b, k)
  {
    forall k | k in b.entries
      ensures Merge.MergeInto(a, b).entries[k] == MergedAt(a, b, k)
    {
      MergeIntoAt(a, b, k);
    }
  }

  /** Maps with the same keys and the same value at each key are equal. */
  lemma SameMaps(l: map<string, Value>, r: map<string, Value>)
    requires forall k :: k in l <==> k in r
    requires forall k :: k in l ==> l[k] == r[k]
    ensures l == r
  {
  }

  /** The deep merge stores `MergedAt` at each key of `b`. */
  lemma MergeIntoAt(a: Dict, b: Dict, k: string)
    requires k in b.entries
    ensures Merge.MergeInto(a, b).entries[k] == MergedAt(a, b, k)
  {
  }

  lemma {:induction false} MergeKeysVisits(a: Dict, b: Dict, ks: seq<string>)
    requires NestedWf(b) && NoDuplicates(ks)
    requires forall k :: k in ks ==> k in b.entries
    ensures MergeKeys(a, b, ks) == Visited(a, b, ks)
    decreases b, |ks|
  {
    if |ks| == 0 {
      assert Visited(a, b, ks).entries == a.entries;
    } else {
      var key := ks[0];
      if Merge.Recurses(a, b, key) {
        ConfigMergeIsDeepMerge(a.entries[key].dict, b.entries[key].dict);
      }
      var next := a.Put(key, MergedAt(a, b, key));
      assert MergeKeys(a, b, ks) == MergeKeys(next, b, ks[1..]);
      assert forall k :: k in ks[1..] ==> k in ks;
      MergeKeysVisits(next, b, ks[1..]);
      VisitedStepKeys(a, ks, MergedAt(a, b, key));
      VisitedStepEntries(a, b, ks);
    }
  }

  /** Storing at the first key then appending the absent rest appends the
      same keys as appending all the absent ones. */
  lemma VisitedStepKeys(a: Dict, ks: seq<string>, v: Value)
    requires NoDuplicates(ks) && |ks| > 0
    ensures
      var next := a.Put(ks[0], v);
      next.keys + Absent(ks[1..], next.entries.Keys) == a.keys + Absent(ks, a.entries.Keys)
  {
    var key := ks[0];
    if key in a.entries {
      StepKeysPresent(a, ks, v);
    } else {
      StepKeysNew(a, ks, v);
    }
  }

  lemma StepKeysPresent(a: Dict, ks: seq<string>, v: Value)
    requires |ks| > 0 && ks[0] in a.entries
    ensures
      var next := a.Put(ks[0], v);
      next.keys + Absent(ks[1..], next.entries.Keys) == a.keys + Absent(ks, a.entries.Keys)
  {
    var next := a.Put(ks[0], v);
    assert next.entries.Keys == a.entries.Keys;
  }

  lemma StepKeysNew(a: Dict, ks: seq<string>, v: Value)
    requires NoDuplicates(ks) && |ks| > 0 && ks[0] !in a.entries
    ensures
      var next := a.Put(ks[0], v);
      next.keys + Absent(ks[1..], next.entries.Keys) == a.keys + Absent(ks, a.entries.Keys)
  {
    var next := a.Put(ks[0], v);
    assert next.keys == a.keys + [ks[0]] by {}
    assert next.entries.Keys == a.entries.Keys + {ks[0]} by {}
    AppendNew(a.keys, ks, a.entries.Keys);
  }

  /** Appending a first key not yet present, then the rest of the absent
      ones, appends all the absent ones. */
  lemma AppendNew(keys: seq<string>, ks: seq<string>, present: set<string>)
    requires NoDuplicates(ks) && |ks| > 0 && ks[0] !in present
    ensures keys + [ks[0]] + Absent(ks[1..], present + {ks[0]}) == keys + Absent(ks, present)
  {
    assert ks[0] !in ks[1..];
    AbsentAddsNothing(ks[1..], present, ks[0]);
    var rest := Absent(ks[1..], present);
    assert keys + [ks[0]] + rest == keys + ([ks[0]] + rest);
  }

  /** Storing at one key leaves what every other key merges to alone. */
  lemma MergedAtOtherKey(a: Dict, b: Dict, key: string, v: Value, k: string)
    requires k in b.entries && k != key
    ensures MergedAt(a.Put(key, v), b, k) == MergedAt(a, b, k)
  {
  }

  /** Storing at a key outside `rest` changes nothing `rest` merges to. */
  lemma PutKeepsMerged(a: Dict, b: Dict, key: string, v: Value, rest: seq<string>)
    requires key !in rest
    requires forall k :: k in rest ==> k in b.entries
    ensures (map k | k in rest :: MergedAt(a.Put(key, v), b, k))
         == (map k | k in rest :: MergedAt(a, b, k))
  {
    forall k | k in rest
      ensures MergedAt(a.Put(key, v), b, k) == MergedAt(a, b, k)
    {
      MergedAtOtherKey(a, b, key, v, k);
    }
  }

  /** The merged values over `ks` are those over its tail plus its head. */
  lemma MergedCons(a: Dict, b: Dict, ks: seq<string>)
    requires |ks| > 0
    requires forall k :: k in ks ==> k in b.entries
    ensures (map k | k in ks :: MergedAt(a, b, k))
         == (map k | k in ks[1..] :: MergedAt(a, b, k))[ks[0] := MergedAt(a, b, ks[0])]
  {
    NoDuplicatesTail(ks);
  }

  /** Storing a key first, then a union that lacks it, is the union with it. */
  lemma UpdateThenUnion(m: map<string, Value>, key: string, v: Value, later: map<string, Value>)
    requires key !in later
    ensures m[key := v] + later == m + later[key := v]
  {
  }

  /** Visiting the first key then the rest stores the same values. */
  lemma VisitedStepEntries(a: Dict, b: Dict, ks: seq<string>)
    requires NoDuplicates(ks) && |ks| > 0
    requires forall k :: k in ks ==> k in b.entries
    ensures
      var next := a.Put(ks[0], MergedAt(a, b, ks[0]));
      next.entries + (map k | k in ks[1..] :: MergedAt(next, b, k))
      == a.entries + (map k | k in ks :: MergedAt(a, b, k))
  {
    var key := ks[0];
    var v := MergedAt(a, b, key);
    var rest := ks[1..];
    NoDuplicatesTail(ks);
    PutKeepsMerged(a, b, key, v, rest);
    MergedCons(a, b, ks);
    UpdateThenUnion(a.entries, key, v, map k | k in rest :: MergedAt(a, b, k));
  }

  lemma AbsentAddsNothing(ks: seq<string>, present: set<string>, x: string)
    requires x !in ks
    ensures Absent(ks, present + {x}) == Absent(ks, present)
    decreases |ks|
  {
    if |ks| > 0 {
      AbsentAddsNothing(ks[1..], present, x);
    }
  }

  /** `Config.set(values)`: `Config.merge(self.data, values)`. Iterating a
      non-empty `values` needs `key in a` and `a[key] = ...` on the data, which
      only a dict supports; an empty `values` hands the data back untouched. */
  function ConfigSet(c: Config, values: Dict): (r: Result<Config>)
    ensures r.Ok? <==> c.data.DictVal? || values.keys == []
    ensures r.Ok? && !c.data.DictVal? ==> r.value == c
    ensures r.Ok? && c.data.DictVal? ==> r.value.data.DictVal?
  {
    if c.data.DictVal? then Ok(Config(DictVal(ConfigMerge(c.data.dict, values))))
    else if values.keys == [] then Ok(c)
    else Err(TypeMismatch("argument of type is not iterable"))
  }

  /** `Config.set` on a dict is the deep merge of `p10s/utils.py`: leaves of
      `values` win, and what they do not reach survives. */
  lemma ConfigSetMerges(c: Config, values: Dict, path: seq<string>, v: Value)
    requires c.data.DictVal? && NestedWf(values) && !v.DictVal?
    ensures ConfigSet(c, values) == Ok(Config(DictVal(Merge.MergeInto(c.data.dict, values))))
    ensures At(DictVal(values), path) == Some(v) ==> At(ConfigSet(c, values).value.data, path) == Some(v)
    ensures At(c.data, path) == Some(v) && Merge.Untouched(values, path) ==>
              At(ConfigSet(c, values).value.data, path) == Some(v)
  {
    ConfigMergeIsDeepMerge(c.data.dict, values);
    if At(DictVal(values), path) == Some(v) {
      Merge.RightWinsOnLeaves(c.data.dict, values, path, v);
    }
    if At(c.data, path) == Some(v) && Merge.Untouched(values, path) {
      Merge.LeftSurvives(c.data.dict, values, path, v);
    }
  }

  /** The value contains no tuple, path or nested `Config` (a nested
      kubernetes `Data` is left alone, so whatever it holds is not examined). */
  predicate Serialized(v: Value) {
    match v
    case Tuple(_) => false
    case PathVal(_) => false
    case ConfigObj(_) => false
    case List(xs) => forall i :: 0 <= i < |xs| ==> Serialized(xs[i])
    case DictVal(d) => forall k :: k in d.entries ==> Serialized(d.entries[k])
    case _ => true
  }

  /** `_serialize` inside `Config.serialize`: dicts and lists keep their
      shape, tuples become lists, a nested `Config` is replaced by its own
      serialization, a path by its text, and anything else is kept. */
  function Serialize(v: Value): (r: Value)
    ensures Serialized(r)
    ensures Serialized(v) ==> r == v
    ensures v.DictVal? ==> r.DictVal? && r.dict.keys == v.dict.keys
                           && r.dict.entries.Keys == v.dict.entries.Keys
    ensures v.List? || v.Tuple? ==> r.List? && |r.items| == |v.items|
    ensures v.PathVal? ==> r == Str(v.path.Text())
    ensures v.DictVal? ==> forall k :: k in v.dict.entries ==> r.dict.entries[k] == Serialize(v.dict.entries[k])
    ensures v.List? || v.Tuple? ==> forall i :: 0 <= i < |v.items| ==> r.items[i] == Serialize(v.items[i])
    ensures v.ConfigObj? ==> r == Serialize(v.config)
  {
    match v
    case DictVal(d) =>
      var r := DictVal(Dict(d.keys, map k | k in d.entries :: Serialize(d.entries[k])));
      assert Serialized(v) ==> r.dict.entries == d.entries;
      r
    case List(xs) =>
      var r := List(seq(|xs|, i requires 0 <= i < |xs| => Serialize(xs[i])));
      assert Serialized(v) ==> r.items == xs;
      r
    case Tuple(xs) => List(seq(|xs|, i requires 0 <= i < |xs| => Serialize(xs[i])))
    case ConfigObj(inner) => Serialize(inner)
    case PathVal(p) => Str(p.Text())
    case _ => v
  }

  /** Whatever sits at a dict path of `v` sits there serialized in the
      serialization: a nested `Config` is replaced by the serialization of
      its data, a path by its text, and an already serialized value is kept. */
  lemma {:induction false} SerializeAt(v: Value, path: seq<string>, w: Value)
    requires At(v, path) == Some(w)
    ensures At(Serialize(v), path) == Some(Serialize(w))
    ensures w.ConfigObj? ==> At(Serialize(v), path) == Some(Serialize(w.config))
    ensures w.PathVal? ==> At(Serialize(v), path) == Some(Str(w.path.Text()))
    ensures Serialized(w) ==> At(Serialize(v), path) == Some(w)
    decreases |path|
  {
    if |path| > 0 {
      var child := v.dict.entries[path[0]];
      SerializeAt(child, path[1..], w);
      assert Serialize(v).dict.entries[path[0]] == Serialize(child);
    }
  }

  /** `Config.serialize()`. */
  function SerializeConfig(c: Config): (r: Value)
    ensures Serialized(r)
    ensures Serialize(r) == r
  {
    Serialize(c.data)
  }

  /** `with values(**kwargs)`: a shallow copy of the current dict with the
      keyword pairs assigned becomes current. */
  function Enter(s: Stack, kwargs: Dict): (r: Stack)
    ensures r.saved == s.saved + [s.current]
    ensures kwargs.Wf() ==> r.current.entries == s.current.entries + kwargs.entries
  {
    s.Push(Overlay(s.current, kwargs))
  }

  /** `value(key)` raises ValueError for an unbound key; `value(key, default)`
      returns the bound value or the default. */
  function Lookup(s: Stack, key: string, default: Option<Value>): (r: Result<Value>)
    ensures default.Some? ==> r.Ok?
    ensures r.Ok? <==> key in s.current.entries || default.Some?
    ensures key in s.current.entries ==> r == Ok(s.current.entries[key])
    ensures key !in s.current.entries && default.Some? ==> r == Ok(default.value)
  {
    if default.Some? then Ok(s.current.GetOr(key, default.value))
    else if key in s.current.entries then Ok(s.current.entries[key])
    else Err(ValueInvalid("Key " + key + " not found"))
  }

  /** `set_value(key, value)`: assigns in the current dict only. */
  function SetValue(s: Stack, key: string, v: Value): (r: Stack)
    ensures Lookup(r, key, None) == Ok(v)
    ensures forall j :: j != key ==> Lookup(r, j, None) == Lookup(s, j, None)
    ensures r.saved == s.saved
  {
    s.SetTop(key, v)
  }

  /** An assignment made inside the scope is visible there and gone from the
      enclosing dict once the scope exits normally. */
  lemma SetInsideScopeIsLocal(s: Stack, kwargs: Dict, key: string, v: Value)
    ensures
      var inner := SetValue(Enter(s, kwargs), key, v);
      && Lookup(inner, key, None) == Ok(v)
      && inner.Exit(false) == s
  {
    var inner := SetValue(Enter(s, kwargs), key, v);
    assert inner.saved[..|inner.saved| - 1] == s.saved;
  }
}

=== FILE: ini.dfy ===
/** What `configparser.ConfigParser()[section] = values` demands of the data
    the INI context adds (Python 3.12's `__setitem__`, `read_dict`, `set` and
    `BasicInterpolation.before_set`). The parser's own state is not modelled:
    assigning a section first clears it, so earlier additions never make a
    later one fail. */
module IniParser {
  import opened Wrappers
  import opened Tree

  /** `str.lower()` on a character; only ASCII letters are mapped. */
  function LowerChar(c: char): (r: char)
    ensures 'A' <= c <= 'Z' ==> 'a' <= r <= 'z' && r as int == c as int + 32
    ensures !('A' <= c <= 'Z') ==> r == c
  {
    if 'A' <= c <= 'Z' then (c as int + 32) as char else c
  }

  /** `optionxform`: option names are compared lower-cased. */
  function Lower(s: string): (r: string)
    ensures |r| == |s| && forall i :: 0 <= i < |s| ==> r[i] == LowerChar(s[i])
  {
    seq(|s|, i requires 0 <= i < |s| => LowerChar(s[i]))
  }

  function Digit(n: nat): (r: char)
    requires n < 10
    ensures '0' <= r <= '9'
  {
    "0123456789"[n]
  }

  /** The decimal digits of `n`, most significant first. */
  function Digits(n: nat): (r: string)
    ensures |r| > 0 && forall i :: 0 <= i < |r| ==> '0' <= r[i] <= '9'
  {
    if n < 10 then [Digit(n)] else Digits(n / 10) + [Digit(n % 10)]
  }

  /** `str(i)` for an int. */
  function IntText(i: int): (r: string)
    ensures '%' !in r
  {
    if i < 0 then "-" + Digits(-i) else Digits(i)
  }

  /** `repr(s)`: single quotes unless the text holds a single quote and no
      double quote. */
  function Quoted(s: string): (r: string)
    ensures |r| == |s| + 2 && r[1..|r| - 1] == s
  {
    if '\'' in s && '"' !in s then "\"" + s + "\"" else "'" + s + "'"
  }

  /** `repr(v)`. `Config` and `Data` define no `__repr__`; the default
      `<... object at 0x...>` is written here without the address. */
  function Repr(v: Value): string
    decreases v, 1
  {
    match v
    case Null => "None"
    case Bool(b) => if b then "True" else "False"
    case Int(i) => IntText(i)
    case Str(s) => Quoted(s)
    case PathVal(p) => "PosixPath(" + Quoted(p.Text()) + ")"
    case List(_) => "[" + ItemsRepr(v, 0) + "]"
    case Tuple(xs) => if |xs| == 1 then "(" + Repr(xs[0]) + ",)" else "(" + ItemsRepr(v, 0) + ")"
    case DictVal(_) => "{" + EntriesRepr(v, 0) + "}"
    case ConfigObj(_) => "<object>"
    case DataObj(_) => "<object>"
  }

  /** The items of a list or tuple from index `i` on, separated by ", ". */
  function ItemsRepr(v: Value, i: nat): string
    requires v.List? || v.Tuple?
    decreases v, 0, |v.items| - i
  {
    if i >= |v.items| then ""
    else (if i > 0 then ", " else "") + Repr(v.items[i]) + ItemsRepr(v, i + 1)
  }

  /** The `'key': value` pairs of a dict from its `i`-th key on, in order. */
  function EntriesRepr(v: Value, i: nat): string
    requires v.DictVal?
    decreases v, 0, |v.dict.keys| - i
  {
    if i >= |v.dict.keys| then ""
    else
      var k := v.dict.keys[i];
      var shown := Quoted(k) + ": " + (if k in v.dict.entries then Repr(v.dict.entries[k]) else "None");
      (if i > 0 then ", " else "") + shown + EntriesRepr(v, i + 1)
  }

  /** `str(value)`: a string or path is its own text, anything else its repr. */
  function Text(v: Value): string {
    match v
    case Str(s) => s
    case PathVal(p) => p.Text()
    case _ => Repr(v)
  }

  /** `value.replace('%%', '')`: escaped percent signs, scanned left to right. */
  function DropEscapes(s: string): (r: string)
    ensures |r| <= |s|
    ensures '%' !in s ==> r == s
    decreases |s|
  {
    if |s| == 0 then []
    else if |s| >= 2 && s[0] == '%' && s[1] == '%' then DropEscapes(s[2..])
    else [s[0]] + DropEscapes(s[1..])
  }

  /** The first `)` at or after index `j`. */
  function CloseAt(s: string, j: nat): (r: Option<nat>)
    ensures r.Some? ==> j <= r.value < |s| && s[r.value] == ')'
    ensures r.Some? ==> forall m :: j <= m < r.value ==> s[m] != ')'
    ensures r.None? ==> forall m :: j <= m < |s| ==> s[m] != ')'
    decreases |s| - j
  {
    if j >= |s| then None
    else if s[j] == ')' then Some(j)
    else CloseAt(s, j + 1)
  }

  /** Where the reference `%(name)s` that `s` starts with ends, if it does
      (the pattern `%\(([^)]+)\)s`: a non-empty name without `)`). */
  function RefEnd(s: string): (r: Option<nat>)
    requires |s| >= 2 && s[0] == '%' && s[1] == '('
    ensures r.Some? ==> 4 < r.value <= |s| && s[r.value - 2] == ')' && s[r.value - 1] == 's'
    ensures r.Some? ==> forall m :: 2 <= m < r.value - 2 ==> s[m] != ')'
  {
    var close := CloseAt(s, 2);
    if close.Some? && close.value > 2 && close.value + 1 < |s| && s[close.value + 1] == 's'
    then Some(close.value + 2)
    else None
  }

  /** `_KEYCRE.sub('', s)`: every well-formed reference removed, left to right. */
  function DropRefs(s: string): (r: string)
    ensures |r| <= |s|
    ensures '%' !in s ==> r == s
    decreases |s|
  {
    if |s| == 0 then []
    else if |s| >= 2 && s[0] == '%' && s[1] == '(' && RefEnd(s).Some? then DropRefs(s[RefEnd(s).value..])
    else [s[0]] + DropRefs(s[1..])
  }

  /** `BasicInterpolation.before_set` accepts the value: no `%` is left once
      the escapes and the references are gone. */
  predicate ValidInterpolation(s: string) {
    '%' !in DropRefs(DropEscapes(s))
  }

  /** Text without a percent sign always passes. */
  lemma NoPercentIsValid(s: string)
    requires '%' !in s
    ensures ValidInterpolation(s)
  {
  }

  /** The escaped `50%%` passes, the lone `50%` does not. */
  lemma PercentExamples()
    ensures ValidInterpolation("50%%")
    ensures !ValidInterpolation("50%")
  {
    assert DropEscapes("%") == "%";
    assert DropEscapes("0%") == "0%";
    assert DropEscapes("50%") == "50%";
    assert DropRefs("%") == "%";
    assert DropRefs("0%") == "0%";
    assert DropRefs("50%") == "50%";
    assert DropEscapes("%%") == [];
    assert DropEscapes("0%%") == "0";
    assert DropEscapes("50%%") == "50";
  }

  /** `CloseAt` finds the first `)`, skipping everything before it. */
  lemma {:induction false} CloseAtFirst(s: string, j: nat, k: nat)
    requires j <= k < |s| && s[k] == ')' && forall m :: j <= m < k ==> s[m] != ')'
    ensures CloseAt(s, j) == Some(k)
    decreases k - j
  {
    if j < k {
      CloseAtFirst(s, j + 1, k);
    }
  }

  /** The text of a reference `%(name)` followed by `tail`. */
  function Ref(name: string, tail: string): string {
    "%(" + name + ")" + tail
  }

  /** Where the reference's closing parenthesis is. */
  lemma RefClose(name: string, tail: string)
    requires '%' !in name + tail && ')' !in name
    ensures var s := Ref(name, tail);
            && |s| == |name| + 3 + |tail| && s[0] == '%' && s[1] == '('
            && s[1..] == "(" + name + ")" + tail
            && '%' !in s[1..] && s[|name| + 3..] == tail
            && CloseAt(s, 2) == Some(|name| + 2)
  {
    var s := Ref(name, tail);
    assert s[1..] == "(" + name + ")" + tail;
    forall m | 2 <= m < |name| + 2
      ensures s[m] != ')'
    {
      assert s[m] == name[m - 2];
    }
    CloseAtFirst(s, 2, |name| + 2);
    assert s[|name| + 3..] == tail;
  }

  /** A well-formed reference `%(name)s` passes, whatever plain text follows. */
  lemma ReferencePasses(name: string, rest: string)
    requires |name| > 0 && ')' !in name && '%' !in name + rest
    ensures ValidInterpolation(Ref(name, "s" + rest))
  {
    var s := Ref(name, "s" + rest);
    RefClose(name, "s" + rest);
    EscapesOfRef(s);
    assert RefEnd(s) == Some(|name| + 4);
    assert s[|name| + 4..] == rest;
  }

  /** A reference not closed by `s` fails, so `%(home)d` is refused. */
  lemma ReferenceWithoutSFails(name: string, tail: string)
    requires ')' !in name && '%' !in name + tail && (|tail| == 0 || tail[0] != 's')
    ensures !ValidInterpolation(Ref(name, tail))
  {
    var s := Ref(name, tail);
    RefClose(name, tail);
    EscapesOfRef(s);
    assert RefEnd(s) == None;
    assert DropRefs(s) == [s[0]] + DropRefs(s[1..]);
  }

  /** A text starting `%(` and then no `%` has no escapes to drop. */
  lemma EscapesOfRef(s: string)
    requires |s| >= 2 && s[0] == '%' && s[1] == '(' && '%' !in s[1..]
    ensures DropEscapes(s) == s
  {
    assert DropEscapes(s) == [s[0]] + DropEscapes(s[1..]);
    assert [s[0]] + s[1..] == s;
  }

  /** The `j`-th option name equals an earlier one once lower-cased. */
  predicate Collides(names: seq<string>, j: nat)
    requires j < |names|
  {
    exists i :: 0 <= i < j && Lower(names[i]) == Lower(names[j])
  }

  /** The error assigning the `j`-th option of a section raises, if any,
      given that the ones before it went in: `DuplicateOptionError` when its
      lower-cased name was already added in this section, `TypeError` for
      `None`, `ValueError` for a lone `%` in its text. */
  function OptionError(section: string, values: Dict, j: nat): (r: Option<Error>)
    requires j < |values.keys|
    ensures r.None? <==>
              && !Collides(values.keys, j)
              && values.GetOr(values.keys[j], Null) != Null
              && ValidInterpolation(Text(values.GetOr(values.keys[j], Null)))
    ensures Collides(values.keys, j) ==> r == Some(DuplicateOption(section, Lower(values.keys[j])))
    ensures !Collides(values.keys, j) && values.GetOr(values.keys[j], Null) == Null ==>
              r == Some(TypeMismatch("option values must be strings"))
  {
    var option := Lower(values.keys[j]);
    var v := values.GetOr(values.keys[j], Null);
    if Collides(values.keys, j) then Some(DuplicateOption(section, option))
    else if v == Null then Some(TypeMismatch("option values must be strings"))
    else if !ValidInterpolation(Text(v)) then Some(ValueInvalid("invalid interpolation syntax"))
    else None
  }

  /** The index of the first option from `j` on that fails, or the number
      of options when none does. */
  function FirstBadOption(section: string, values: Dict, j: nat): (r: nat)
    requires j <= |values.keys|
    ensures j <= r <= |values.keys|
    ensures forall m :: j <= m < r ==> OptionError(section, values, m).None?
    ensures r < |values.keys| ==> OptionError(section, values, r).Some?
    decreases |values.keys| - j
  {
    if j == |values.keys| || OptionError(section, values, j).Some? then j
    else FirstBadOption(section, values, j + 1)
  }

  /** `parser[section] = values`: `values.items()` must exist, then the
      options go in one by one until the first that raises. */
  function SectionError(d: Dict, i: nat): (r: Option<Error>)
    requires i < |d.keys|
    ensures !d.GetOr(d.keys[i], Null).DictVal? ==> r == Some(AttributeMissing("items"))
    ensures d.GetOr(d.keys[i], Null).DictVal? ==>
              var values := d.GetOr(d.keys[i], Null).dict;
              && (r.None? <==> forall j :: 0 <= j < |values.keys| ==> OptionError(d.keys[i], values, j).None?)
              && (r.Some? ==> r == OptionError(d.keys[i], values, FirstBadOption(d.keys[i], values, 0)))
  {
    var values := d.GetOr(d.keys[i], Null);
    if !values.DictVal? then Some(AttributeMissing("items"))
    else
      var bad := FirstBadOption(d.keys[i], values.dict, 0);
      if bad < |values.dict.keys| then OptionError(d.keys[i], values.dict, bad) else None
  }

  /** The index of the first section from `i` on that fails, or the number
      of sections when none does. */
  function FirstBadSection(d: Dict, i: nat): (r: nat)
    requires i <= |d.keys|
    ensures i <= r <= |d.keys|
    ensures forall m :: i <= m < r ==> SectionError(d, m).None?
    ensures r < |d.keys| ==> SectionError(d, r).Some?
    decreases |d.keys| - i
  {
    if i == |d.keys| || SectionError(d, i).Some? then i
    else FirstBadSection(d, i + 1)
  }

  /** `for key, value in data.items(): parser[key] = value`: the first
      section that raises stops the loop. */
  function AddError(data: Value): (r: Option<Error>)
    ensures !data.DictVal? ==> r == Some(AttributeMissing("items"))
    ensures data.DictVal? ==>
              (r.None? <==> forall i :: 0 <= i < |data.dict.keys| ==> SectionError(data.dict, i).None?)
    ensures data.DictVal? && r.Some? ==> r == SectionError(data.dict, FirstBadSection(data.dict, 0))
  {
    if !data.DictVal? then Some(AttributeMissing("items"))
    else
      var bad := FirstBadSection(data.dict, 0);
      if bad < |data.dict.keys| then SectionError(data.dict, bad) else None
  }

  /** One section holding one option fails exactly as that option does. */
  lemma SingleOption(section: string, option: string, v: Value)
    ensures AddError(DictVal(Single(section, DictVal(Single(option, v))))) == OptionError(section, Single(option, v), 0)
  {
    var values := Single(option, v);
    var d := Single(section, DictVal(values));
    assert SectionError(d, 0) == OptionError(section, values, 0);
  }
}

=== FILE: kubernetes.dfy ===
/** `p10s/kubernetes.py`: `Data` and `KubernetesObject` wrappers around an
    object body, their rendering, the append-only kubernetes `Context`, and
    the kind-to-class dispatch of parsed documents. */
module Kubernetes {
  import opened Wrappers
  import opened Tree
  import opened Scopes
  import Merge
  import Contexts

  /** `Data`, `KubernetesObject` and its subclasses. */
  datatype Class =
    | PlainData
    | KubernetesObject
    | Deployment
    | ConfigMap
    | Service
    | Job
    | StatefulSet
    | Ingress
    | Secret
  {
    /** The class attribute `KIND`. `Secret` declares "Ingress". */
    function Kind(): Option<string> {
      match this
      case PlainData => None
      case KubernetesObject => None
      case Deployment => Some("Deployment")
      case ConfigMap => Some("ConfigMap")
      case Service => Some("Service")
      case Job => Some("Job")
      case StatefulSet => Some("StatefulSet")
      case Ingress => Some("Ingress")
      case Secret => Some("Ingress")
    }
  }

  /** An instance: its class and its `data` (the `body`). */
  datatype Obj = Obj(cls: Class, data: Value) {
    /** The instance as it sits inside other values. */
    function AsValue(): Value {
      DataObj(data)
    }
  }

  /** `data[key]` on the body: only a dict has `get`. */
  function GetKey(data: Value, key: string): (r: Result<Value>)
    ensures r.Ok? <==> data.DictVal?
    ensures r.Ok? && key in data.dict.entries ==> r.value == data.dict.entries[key]
    ensures r.Ok? && key !in data.dict.entries ==> r.value == Null
  {
    if data.DictVal? then Ok(data.dict.GetOr(key, Null)) else Err(AttributeMissing("get"))
  }

  /** `data[key] = v` on the body: only a dict supports item assignment. */
  function PutKey(data: Value, key: string, v: Value): (r: Result<Value>)
    ensures r.Ok? <==> data.DictVal?
    ensures r.Ok? ==> GetKey(r.value, key) == Ok(v)
    ensures r.Ok? ==> forall k :: k != key ==> GetKey(r.value, k) == GetKey(data, k)
    ensures r.Ok? && data.dict.Wf() ==> r.value.dict.Wf()
  {
    if data.DictVal? then Ok(DictVal(data.dict.Put(key, v)))
    else Err(TypeMismatch("object does not support item assignment"))
  }

  /** Whether the constructor writes `data['kind']`, and what. */
  function KindWritten(cls: Class, kind: Value): Option<Value> {
    if kind != Null then Some(kind)
    else if cls.Kind().Some? then Some(Str(cls.Kind().value))
    else None
  }

  /** `cls(data, kind)`: `data` defaults to `{}`; a `kind` argument wins
      over the class `KIND`, either one is written into `data['kind']`
      (overwriting what was there), and with neither the body is untouched.
      Plain `Data` takes no `kind` argument. */
  function New(cls: Class, data: Value, kind: Value): (r: Result<Obj>)
    ensures cls == PlainData ==> (r.Ok? <==> kind == Null)
    ensures cls != PlainData ==>
              (r.Ok? <==> KindWritten(cls, kind).None? || data == Null || data.DictVal?)
    ensures r.Ok? ==> r.value.cls == cls
    ensures r.Ok? && (cls == PlainData || KindWritten(cls, kind).None?) ==>
              r.value.data == (if data == Null then DictVal(Empty()) else data)
    ensures r.Ok? && cls != PlainData && KindWritten(cls, kind).Some? ==>
              && GetKey(r.value.data, "kind") == Ok(KindWritten(cls, kind).value)
              && forall k :: k != "kind" ==> GetKey(r.value.data, k) == GetKey(if data == Null then DictVal(Empty()) else data, k)
  {
    var body := if data == Null then DictVal(Empty()) else data;
    if cls == PlainData then
      if kind != Null then Err(TypeMismatch("unexpected keyword argument 'kind'"))
      else Ok(Obj(cls, body))
    else
      match KindWritten(cls, kind)
      case None => Ok(Obj(cls, body))
      case Some(k) =>
        var written :- PutKey(body, "kind", k);
        Ok(Obj(cls, written))
  }

  /** `Secret()` is created with kind "Ingress". */
  lemma SecretIsCreatedAsIngress()
    ensures New(Secret, Null, Null).Ok?
    ensures GetKey(New(Secret, Null, Null).value.data, "kind") == Ok(Str("Ingress"))
  {
  }

  /** `Service({}).render()['kind'] == 'Service'`, and likewise for each
      class declaring a `KIND`. */
  lemma ClassKindIsRendered(cls: Class)
    requires cls.Kind().Some?
    ensures New(cls, DictVal(Empty()), Null).Ok?
    ensures Render(New(cls, DictVal(Empty()), Null).value.data)
            == DictVal(Single("kind", Str(cls.Kind().value)))
  {
    NewOnEmptyWritesKind(cls, Str(cls.Kind().value));
    PlainSingle("kind", Str(cls.Kind().value));
  }

  /** A class with a `KIND` writes it into an empty body as its only key. */
  lemma NewOnEmptyWritesKind(cls: Class, k: Value)
    requires cls != PlainData && KindWritten(cls, Null) == Some(k)
    ensures New(cls, DictVal(Empty()), Null) == Ok(Obj(cls, DictVal(Single("kind", k))))
  {
    SingleIsPut("kind", k);
  }

  lemma SingleIsPut(key: string, v: Value)
    ensures PutKey(DictVal(Empty()), key, v) == Ok(DictVal(Single(key, v)))
  {
    assert Empty().Put(key, v) == Single(key, v);
  }

  lemma PlainSingle(key: string, v: Value)
    requires Plain(v)
    ensures Plain(DictVal(Single(key, v)))
  {
  }

  /** The four body fields with accessors. */
  datatype Field = KindField | ApiVersion | Metadata | Spec {
    function Key(): string {
      match this
      case KindField => "kind"
      case ApiVersion => "apiVersion"
      case Metadata => "metadata"
      case Spec => "spec"
    }
  }

  /** The `kind`/`apiVersion`/`metadata`/`spec` getter, which only
      `KubernetesObject` and its subclasses have. */
  function Read(o: Obj, f: Field): Result<Value>
    requires o.cls != PlainData
  {
    GetKey(o.data, f.Key())
  }

  /** The matching setter: writes that one key of the body. */
  function Write(o: Obj, f: Field, v: Value): (r: Result<Obj>)
    requires o.cls != PlainData
    ensures r.Ok? <==> o.data.DictVal?
    ensures r.Ok? ==> r.value.cls == o.cls && Read(r.value, f) == Ok(v)
    ensures r.Ok? ==> forall k :: k != f.Key() ==> GetKey(r.value.data, k) == GetKey(o.data, k)
  {
    var d :- PutKey(o.data, f.Key(), v);
    Ok(o.(data := d))
  }

  /** Each setter leaves the other three fields alone. */
  lemma WriteLeavesOtherFields(o: Obj, f: Field, g: Field, v: Value)
    requires o.cls != PlainData && f != g && Write(o, f, v).Ok?
    ensures Read(Write(o, f, v).value, g) == Read(o, g)
  {
    assert f.Key() != g.Key();
  }

  /** No tuple and no `Data` is left anywhere inside, following lists and
      dicts (a nested `Config` is not looked into). */
  predicate Plain(v: Value) {
    match v
    case Tuple(_) => false
    case DataObj(_) => false
    case List(xs) => forall i :: 0 <= i < |xs| ==> Plain(xs[i])
    case DictVal(d) => forall k :: k in d.entries ==> Plain(d.entries[k])
    case _ => true
  }

  /** `Data.render`'s `_rec`: lists and tuples become lists of rendered
      items, dicts keep their keys with rendered values, a nested `Data` is
      replaced by its rendering, and anything else is kept. */
  function Render(v: Value): (r: Value)
    ensures Plain(r)
    ensures Plain(v) ==> r == v
    ensures v.DictVal? ==> r.DictVal? && r.dict.keys == v.dict.keys
                           && r.dict.entries.Keys == v.dict.entries.Keys
    ensures v.List? || v.Tuple? ==> r.List? && |r.items| == |v.items|
    ensures !(v.List? || v.Tuple? || v.DictVal? || v.DataObj?) ==> r == v
    ensures v.DictVal? ==> forall k :: k in v.dict.entries ==> r.dict.entries[k] == Render(v.dict.entries[k])
    ensures v.List? || v.Tuple? ==> forall i :: 0 <= i < |v.items| ==> r.items[i] == Render(v.items[i])
    ensures v.DataObj? ==> r == Render(v.data)
  {
    match v
    case List(xs) =>
      var r := List(seq(|xs|, i requires 0 <= i < |xs| => Render(xs[i])));
      assert Plain(v) ==> r.items == xs;
      r
    case Tuple(xs) => List(seq(|xs|, i requires 0 <= i < |xs| => Render(xs[i])))
    case DictVal(d) =>
      var r := DictVal(Dict(d.keys, map k | k in d.entries :: Render(d.entries[k])));
      assert Plain(v) ==> r.dict.entries == d.entries;
      r
    case DataObj(inner) => Render(inner)
    case _ => v
  }

  /** Rendering twice is rendering once. */
  lemma RenderIdempotent(v: Value)
    ensures Render(Render(v)) == Render(v)
  {
  }

  /** Whatever sits at a dict path of `v` sits there rendered in the
      rendering: a nested `Data` is replaced by the rendering of its data,
      and a plain value is kept as it is. */
  lemma {:induction false} RenderAt(v: Value, path: seq<string>, w: Value)
    requires At(v, path) == Some(w)
    ensures At(Render(v), path) == Some(Render(w))
    ensures w.DataObj? ==> At(Render(v), path) == Some(Render(w.data))
    ensures Plain(w) ==> At(Render(v), path) == Some(w)
    decreases |path|
  {
    if |path| > 0 {
      var child := v.dict.entries[path[0]];
      RenderAt(child, path[1..], w);
      assert Render(v).dict.entries[path[0]] == Render(child);
    }
  }

  /** `Data(data=[[Data(data=4)], {'foo': Data(data='bar')}]).render()`
      is `[[4], {'foo': 'bar'}]`. */
  lemma NestedDataRenders()
    ensures Render(List([List([DataObj(Int(4))]), DictVal(Single("foo", DataObj(Str("bar"))))]))
            == List([List([Int(4)]), DictVal(Single("foo", Str("bar")))])
  {
    var inner, d := List([DataObj(Int(4))]), DictVal(Single("foo", DataObj(Str("bar"))));
    RenderSingleton(DataObj(Int(4)), Int(4));
    RenderSingleDict("foo", DataObj(Str("bar")), Str("bar"));
    RenderPair(inner, List([Int(4)]), d, DictVal(Single("foo", Str("bar"))));
  }

  lemma RenderSingleton(x: Value, rx: Value)
    requires Render(x) == rx
    ensures Render(List([x])) == List([rx])
  {
    var r := Render(List([x]));
    SeqOfOne(r.items, rx);
  }

  lemma RenderPair(x: Value, rx: Value, y: Value, ry: Value)
    requires Render(x) == rx && Render(y) == ry
    ensures Render(List([x, y])) == List([rx, ry])
  {
    var r := Render(List([x, y]));
    SeqOfTwo(r.items, rx, ry);
  }

  lemma RenderSingleDict(key: string, x: Value, rx: Value)
    requires Render(x) == rx
    ensures Render(DictVal(Single(key, x))) == DictVal(Single(key, rx))
  {
    var d := Single(key, x);
    assert d.keys == [key] && d.entries.Keys == {key} && d.entries[key] == x;
    var r := Render(DictVal(d));
    assert r.dict.entries[key] == Render(x);
    DictOfOne(r.dict, key, rx);
  }

  lemma SeqOfOne(xs: seq<Value>, a: Value)
    requires |xs| == 1 && xs[0] == a
    ensures xs == [a]
  {
  }

  lemma SeqOfTwo(xs: seq<Value>, a: Value, b: Value)
    requires |xs| == 2 && xs[0] == a && xs[1] == b
    ensures xs == [a, b]
  {
  }

  lemma DictOfOne(d: Dict, key: string, v: Value)
    requires d.keys == [key] && d.entries.Keys == {key} && d.entries[key] == v
    ensures d == Single(key, v)
  {
    assert d.entries == map[key := v];
  }

  /** `update(new)`: `merge_dicts(self.data, new)`. */
  function Update(o: Obj, extra: Value): (r: Result<Obj>)
    ensures r.Ok? <==> extra.DictVal? && (extra.dict.entries == map[] || o.data.DictVal?)
    ensures r.Ok? ==> r.value.cls == o.cls
    ensures r.Ok? && o.data.DictVal? ==> r.value.data == DictVal(Merge.MergeInto(o.data.dict, extra.dict))
    ensures r.Ok? && !o.data.DictVal? ==> r.value.data == o.data
  {
    var merged :- Merge.MergeAll([o.data, extra]);
    Ok(o.(data := merged))
  }

  /** Every leaf `update` sets is in the new body; every leaf of the old
      body that `update` does not reach survives. */
  lemma UpdateLeaves(o: Obj, extra: Dict, path: seq<string>, v: Value)
    requires o.data.DictVal? && !v.DictVal?
    ensures At(DictVal(extra), path) == Some(v) ==>
              Update(o, DictVal(extra)).Ok? && At(Update(o, DictVal(extra)).value.data, path) == Some(v)
    ensures At(o.data, path) == Some(v) && Merge.Untouched(extra, path) ==>
              Update(o, DictVal(extra)).Ok? && At(Update(o, DictVal(extra)).value.data, path) == Some(v)
  {
    if At(DictVal(extra), path) == Some(v) {
      Merge.RightWinsOnLeaves(o.data.dict, extra, path, v);
    }
    if At(o.data, path) == Some(v) && Merge.Untouched(extra, path) {
      Merge.LeftSurvives(o.data.dict, extra, path, v);
    }
  }

  /** `KubernetesObject(data={'a': 'b'}).update({'a': {'c': 'd'}})` renders
      as `{'a': {'c': 'd'}}`: a dict replaces a scalar. */
  lemma UpdateReplacesScalar()
    ensures New(KubernetesObject, DictVal(Single("a", Str("b"))), Null).Ok?
    ensures
      var o := New(KubernetesObject, DictVal(Single("a", Str("b"))), Null).value;
      var u := Update(o, DictVal(Single("a", DictVal(Single("c", Str("d"))))));
      u.Ok? && Render(u.value.data) == DictVal(Single("a", DictVal(Single("c", Str("d")))))
  {
    PlainSingle("c", Str("d"));
    UpdateOneKey("a", Str("b"), DictVal(Single("c", Str("d"))));
  }

  /** Updating a one-key body at that key with a plain value that does not
      merge into the old one leaves just the new value. */
  lemma UpdateOneKey(key: string, x: Value, y: Value)
    requires !(x.DictVal? && y.DictVal?) && Plain(y)
    ensures New(KubernetesObject, DictVal(Single(key, x)), Null) == Ok(Obj(KubernetesObject, DictVal(Single(key, x))))
    ensures Update(Obj(KubernetesObject, DictVal(Single(key, x))), DictVal(Single(key, y)))
            == Ok(Obj(KubernetesObject, DictVal(Single(key, y))))
    ensures Render(DictVal(Single(key, y))) == DictVal(Single(key, y))
  {
    Merge.MergeSingles(key, x, y);
    PlainSingle(key, y);
  }

  /** The kubernetes `Context`: where it writes and the objects added. */
  datatype KContext = KContext(place: Contexts.Placement, objects: seq<Value>)

  /** `.yaml`, the context's `output_file_extension`. */
  const Extension := ".yaml"

  /** `Context(input, output, data=data)`: `data` defaults to `[]`; placed
      as `p10s/base.py` places any context. */
  function NewContext(s: Stack, input: Value, output: Value, data: Option<seq<Value>>): (r: Result<KContext>)
    ensures r.Ok? <==> Contexts.InitBase(s, input, output, Some(Extension)).Ok?
    ensures r.Ok? ==> Contexts.InitBase(s, input, output, Some(Extension)) == Ok(r.value.place)
    ensures r.Ok? ==> r.value.objects == data.GetOr([])
  {
    var place :- Contexts.InitBase(s, input, output, Some(Extension));
    Ok(KContext(place, data.GetOr([])))
  }

  /** What `add` iterates over: a list or tuple's items, anything else as
      a one-element list. */
  function Items(arg: Value): (r: seq<Value>)
    ensures arg.List? || arg.Tuple? ==> r == arg.items
    ensures !(arg.List? || arg.Tuple?) ==> r == [arg]
  {
    if arg.List? || arg.Tuple? then arg.items else [arg]
  }

  /** The items appended before the first one that is not a `Data`. */
  function TakeData(xs: seq<Value>): (r: seq<Value>)
    decreases |xs|
    ensures |r| <= |xs| && r == xs[..|r|]
    ensures forall i :: 0 <= i < |r| ==> r[i].DataObj?
    ensures |r| < |xs| ==> !xs[|r|].DataObj?
  {
    if |xs| == 0 || !xs[0].DataObj? then []
    else [xs[0]] + TakeData(xs[1..])
  }

  /** `add(object)` (and `+=`): appends each `Data` in order; the first
      item that is not one raises, after the items before it have been
      appended. Returns the context as it is afterwards and whether `add`
      returned normally. */
  function Add(c: KContext, arg: Value): (r: (KContext, bool))
    ensures r.0.place == c.place
    ensures r.1 <==> forall i :: 0 <= i < |Items(arg)| ==> Items(arg)[i].DataObj?
    ensures r.1 ==> r.0.objects == c.objects + Items(arg)
    ensures !r.1 ==> exists n :: 0 <= n < |Items(arg)|
                       && r.0.objects == c.objects + Items(arg)[..n]
                       && !Items(arg)[n].DataObj?
                       && forall i :: 0 <= i < n ==> Items(arg)[i].DataObj?
  {
    var items := Items(arg);
    var taken := TakeData(items);
    TakeDataAll(items);
    (c.(objects := c.objects + taken), |taken| == |items|)
  }

  /** `TakeData` keeps everything exactly when every item is a `Data`. */
  lemma TakeDataAll(xs: seq<Value>)
    ensures |TakeData(xs)| == |xs| <==> forall i :: 0 <= i < |xs| ==> xs[i].DataObj?
    ensures |TakeData(xs)| == |xs| ==> TakeData(xs) == xs
  {
    var r := TakeData(xs);
    if |r| < |xs| {
      assert !xs[|r|].DataObj?;
    } else {
      assert r == xs[..|xs|] == xs;
    }
  }

  /** Adding two lists one after the other is adding their concatenation. */
  lemma {:induction false} TakeDataConcat(xs: seq<Value>, ys: seq<Value>)
    requires forall i :: 0 <= i < |xs| ==> xs[i].DataObj?
    ensures TakeData(xs + ys) == xs + TakeData(ys)
    decreases |xs|
  {
    if |xs| > 0 {
      HeadTailConcat(xs, ys);
      HeadTailConcat(xs, TakeData(ys));
      TakeDataConcat(xs[1..], ys);
    } else {
      assert xs + ys == ys;
    }
  }

  lemma AddAppendsInOrder(c: KContext, xs: seq<Value>, ys: seq<Value>)
    requires Add(c, List(xs)).1
    ensures Add(Add(c, List(xs)).0, List(ys)) == Add(c, List(xs + ys))
  {
    TakeDataConcat(xs, ys);
    assert c.objects + xs + TakeData(ys) == c.objects + (xs + TakeData(ys));
    assert (|TakeData(ys)| == |ys|) == (|TakeData(xs + ys)| == |xs + ys|);
  }

  /** Adding the class itself instead of an instance raises and appends
      nothing. */
  lemma NonDataIsRejected(c: KContext, v: Value)
    requires !(v.List? || v.Tuple? || v.DataObj?)
    ensures Add(c, v) == (c, false)
  {
    assert Items(v) == [v];
    assert c.objects + [] == c.objects;
  }

  /** `ctx + object`: a new context built from the same input and output
      (re-resolved by `__init__`) over a copy of the objects, then `add`. */
  function Plus(s: Stack, c: KContext, arg: Value): (r: Result<KContext>)
    ensures r.Ok? ==> Add(KContext(r.value.place, c.objects), arg) == (r.value, true)
  {
    var made :- NewContext(s, c.place.input, c.place.output.GetOr(Null), Some(c.objects));
    var added := Add(made, arg);
    if added.1 then Ok(added.0) else Err(Raised("is not of type KubernetesObject"))
  }

  /** When the context already knows its input and output, `ctx + object`
      keeps both and appends exactly what `add` would, leaving `ctx` alone. */
  lemma PlusKeepsPlacement(s: Stack, c: KContext, arg: Value)
    requires c.place.input != Null && c.place.output.Some? && c.place.output.value != Null
    ensures Plus(s, c, arg).Ok? <==> Add(c, arg).1
    ensures Plus(s, c, arg).Ok? ==> Plus(s, c, arg).value == Add(c, arg).0
  {
    assert Contexts.InitBase(s, c.place.input, c.place.output.value, Some(Extension)) == Ok(c.place);
  }

  /** `_render_data`: the documents `ruamel.dump_all` writes, each object's
      `render()`. An object that is not a `Data` (one passed in through
      `Context(data=...)`) has no `render` and raises. */
  function RenderAll(c: KContext): (r: Result<seq<Value>>)
    ensures r.Ok? <==> forall i :: 0 <= i < |c.objects| ==> c.objects[i].DataObj?
    ensures r.Err? ==> r.error == AttributeMissing("render")
    ensures r.Ok? ==> |r.value| == |c.objects|
    ensures r.Ok? ==> forall i :: 0 <= i < |r.value| ==>
              Plain(r.value[i]) && r.value[i] == Render(c.objects[i].data)
  {
    if forall i :: 0 <= i < |c.objects| ==> c.objects[i].DataObj? then
      Ok(seq(|c.objects|, i requires 0 <= i < |c.objects| => Render(c.objects[i].data)))
    else Err(AttributeMissing("render"))
  }

  /** `add` appends only `Data`, so a context that renders still renders
      after it, whether `add` returned normally or raised part way. */
  lemma AddKeepsRenderable(c: KContext, arg: Value)
    requires RenderAll(c).Ok?
    ensures RenderAll(Add(c, arg).0).Ok?
  {
    var objs := Add(c, arg).0.objects;
    var taken := TakeData(Items(arg));
    assert objs == c.objects + taken;
    forall i | 0 <= i < |objs|
      ensures objs[i].DataObj?
    {
      if i >= |c.objects| {
        assert objs[i] == taken[i - |c.objects|];
      }
    }
  }

  /** `_data_to_object(data)`: a missing (or None) `kind` raises; the kinds
      "Deployment", "ConfigMap" and "Service" build that class over the same
      body; any other kind calls None and raises. */
  function DataToObject(data: Value): (r: Result<Obj>)
    ensures r.Ok? <==> data.DictVal? && data.dict.GetOr("kind", Null) in
                         {Str("Deployment"), Str("ConfigMap"), Str("Service")}
    ensures r.Ok? ==> r.value.data == data && New(r.value.cls, data, Null) == Ok(r.value)
    ensures r.Ok? ==> r.value.cls.Kind() == Some(data.dict.entries["kind"].s)
    ensures data.DictVal? && data.dict.GetOr("kind", Null) == Null ==> r.Err? && r.error.Raised?
  {
    var kind :- GetKey(data, "kind");
    if kind == Null then Err(Raised("Missing kind property"))
    else
      var cls :=
        if kind == Str("Deployment") then Some(Deployment)
        else if kind == Str("ConfigMap") then Some(ConfigMap)
        else if kind == Str("Service") then Some(Service)
        else None;
      if cls.None? then Err(TypeMismatch("'NoneType' object is not callable"))
      else
        assert data.dict.Put("kind", kind) == data.dict;
        Ok(Obj(cls.value, data))
  }

  /** `many_from_yaml`: each parsed document dispatched in order; the first
      failure propagates. */
  function ManyToObjects(docs: seq<Value>): (r: Result<seq<Obj>>)
    decreases |docs|
    ensures r.Ok? <==> forall i :: 0 <= i < |docs| ==> DataToObject(docs[i]).Ok?
    ensures r.Ok? ==> |r.value| == |docs|
                      && forall i :: 0 <= i < |docs| ==> r.value[i] == DataToObject(docs[i]).value
  {
    if |docs| == 0 then Ok([])
    else
      var first :- DataToObject(docs[0]);
      var rest :- ManyToObjects(docs[1..]);
      assert forall i :: 1 <= i < |docs| ==> docs[i] == docs[1..][i - 1];
      Ok([first] + rest)
  }
}

=== FILE: merge.dfy ===
/** The deep merge of `p10s/utils.py`: `_merge_dicts(a, b)` copies `b` into `a`,
    recursing only where both sides hold dicts, and `merge_dicts(*args)` folds it
    over its arguments from the right. */
module Merge {
  import opened Wrappers
  import opened Tree

  /** Both sides hold dicts at `k`: the only case in which the merge recurses. */
  predicate Recurses(a: Dict, b: Dict, k: string) {
    && k in a.entries && k in b.entries
    && a.entries[k].DictVal? && b.entries[k].DictVal?
  }

  /** The inner `rec(a, b)` of `_merge_dicts`, on values. */
  function MergeInto(a: Dict, b: Dict): (r: Dict)
    decreases b
    // the key set is the union; new keys are appended in b's order
    ensures r.entries.Keys == a.entries.Keys + b.entries.Keys
    ensures r.keys == a.keys + Absent(b.keys, a.entries.Keys)
    // a key only in `a` keeps its value
    ensures forall k :: k in a.entries && k !in b.entries ==> r.entries[k] == a.entries[k]
    // unless both sides are dicts, `b`'s value replaces `a`'s outright
    ensures forall k :: k in b.entries && !Recurses(a, b, k) ==> r.entries[k] == b.entries[k]
    // where both are dicts the result is a dict holding the keys of both
    ensures forall k :: Recurses(a, b, k) ==>
              && r.entries[k].DictVal?
              && r.entries[k].dict.entries.Keys
                 == a.entries[k].dict.entries.Keys + b.entries[k].dict.entries.Keys
    // and that dict is the merge of the two
    ensures forall k :: Recurses(a, b, k) ==>
              r.entries[k] == DictVal(MergeInto(a.entries[k].dict, b.entries[k].dict))
    // merging an empty dict changes nothing; merging into an empty dict yields `b`
    ensures b == Empty() ==> r == a
    ensures a == Empty() ==> r == b
  {
    var keys := a.keys + Absent(b.keys, a.entries.Keys);
    var entries := map k | k in a.entries.Keys + b.entries.Keys ::
      if k !in b.entries then a.entries[k]
      else if Recurses(a, b, k) then DictVal(MergeInto(a.entries[k].dict, b.entries[k].dict))
      else b.entries[k];
    EmptySides(a, b, Dict(keys, entries));
    Dict(keys, entries)
  }

  /** Any dict with the keys and values the merge promises equals `a` when
      `b` is empty, and `b` when `a` is. */
  lemma EmptySides(a: Dict, b: Dict, r: Dict)
    requires r.entries.Keys == a.entries.Keys + b.entries.Keys
    requires r.keys == a.keys + Absent(b.keys, a.entries.Keys)
    requires forall k :: k in a.entries && k !in b.entries ==> r.entries[k] == a.entries[k]
    requires forall k :: k in b.entries && !Recurses(a, b, k) ==> r.entries[k] == b.entries[k]
    ensures b == Empty() ==> r == a
    ensures a == Empty() ==> r == b
  {
    if b == Empty() {
      assert r.keys == a.keys + [];
      assert r.entries.Keys == a.entries.Keys;
      assert r.entries == a.entries;
    }
    if a == Empty() {
      assert r.keys == [] + b.keys;
      assert r.entries.Keys == b.entries.Keys;
      forall k | k in b.entries
        ensures r.entries[k] == b.entries[k]
      {
        assert !Recurses(a, b, k);
      }
      assert r.entries == b.entries;
    }
  }

  /** `_merge_dicts(a, b)` on arbitrary values: `b.keys()` needs a dict, and
      the first key of a non-empty `b` needs `a.get` (when its value is a
      dict) or `a[k] = ...` (when it is not), so `a` must be a dict unless `b`
      is empty, in which case `a` comes back as is. */
  function MergeValues(a: Value, b: Value): (r: Result<Value>)
    ensures r.Ok? <==> b.DictVal? && (b.dict.entries == map[] || a.DictVal?)
    ensures r.Ok? && a.DictVal? ==> r.value == DictVal(MergeInto(a.dict, b.dict))
    ensures r.Ok? && !a.DictVal? ==> r.value == a
    ensures !b.DictVal? ==> r == Err(AttributeMissing("keys"))
    ensures b.DictVal? && b.dict.Wf() && b.dict.entries != map[] && !a.DictVal? ==>
              r.Err? && |b.dict.keys| > 0 &&
              (r.error == AttributeMissing("get") <==> b.dict.entries[b.dict.keys[0]].DictVal?) &&
              (r.error == TypeMismatch("object does not support item assignment") <==>
                 !b.dict.entries[b.dict.keys[0]].DictVal?)
  {
    if !b.DictVal? then Err(AttributeMissing("keys"))
    else if b.dict.entries == map[] then
      if a.DictVal? then Ok(DictVal(MergeInto(a.dict, b.dict))) else Ok(a)
    else if !a.DictVal? then
      if |b.dict.keys| > 0 && b.dict.keys[0] in b.dict.entries && b.dict.entries[b.dict.keys[0]].DictVal? then
        Err(AttributeMissing("get"))
      else Err(TypeMismatch("object does not support item assignment"))
    else Ok(DictVal(MergeInto(a.dict, b.dict)))
  }

  /** `merge_dicts(*args)`: `{}` for no argument, the argument itself for one,
      and otherwise `_merge_dicts(first, merge_dicts(*rest))`. */
  function MergeAll(args: seq<Value>): (r: Result<Value>)
    ensures |args| == 0 ==> r == Ok(DictVal(Empty()))
    ensures |args| == 1 ==> r == Ok(args[0])
    ensures (forall i :: 0 <= i < |args| ==> args[i].DictVal?) ==> r.Ok? && r.value.DictVal?
  {
    if |args| == 0 then Ok(DictVal(Empty()))
    else if |args| == 1 then Ok(args[0])
    else
      var rest :- MergeAll(args[1..]);
      MergeValues(args[0], rest)
  }

  /** The left fold the variadic form is sometimes assumed to be. */
  function MergeLeft(acc: Value, args: seq<Value>): Result<Value>
    decreases |args|
  {
    if |args| == 0 then Ok(acc)
    else
      var next :- MergeValues(acc, args[0]);
      MergeLeft(next, args[1..])
  }

  /** Merging a dict with itself gives it back. */
  lemma {:induction false} MergeIdempotent(a: Dict)
    requires NestedWf(a)
    ensures MergeInto(a, a) == a
    decreases a
  {
    var r := MergeInto(a, a);
    forall k | k in a.entries && a.entries[k].DictVal?
      ensures r.entries[k] == a.entries[k]
    {
      MergeIdempotent(a.entries[k].dict);
    }
    assert r.entries == a.entries;
    assert Absent(a.keys, a.entries.Keys) == [];
  }

  /** Every non-dict value reachable in `b` sits at the same path in the
      result: the right side wins on leaves. */
  lemma {:induction false} RightWinsOnLeaves(a: Dict, b: Dict, path: seq<string>, v: Value)
    requires At(DictVal(b), path) == Some(v) && !v.DictVal?
    ensures At(DictVal(MergeInto(a, b)), path) == Some(v)
    decreases |path|
  {
    var k := path[0];
    var r := MergeInto(a, b);
    if Recurses(a, b, k) {
      RightWinsOnLeaves(a.entries[k].dict, b.entries[k].dict, path[1..], v);
    } else {
      assert r.entries[k] == b.entries[k];
    }
  }

  /** `b` holds nothing at `path` nor a non-dict above it. */
  predicate Untouched(b: Dict, path: seq<string>)
    decreases |path|
  {
    && |path| > 0
    && (|| path[0] !in b.entries
        || (|path| > 1 && b.entries[path[0]].DictVal? && Untouched(b.entries[path[0]].dict, path[1..])))
  }

  /** What `a` holds at a path `b` leaves untouched survives the merge, so
      sibling keys inside a nested dict of `a` are kept. */
  lemma {:induction false} LeftSurvives(a: Dict, b: Dict, path: seq<string>, v: Value)
    requires At(DictVal(a), path) == Some(v) && Untouched(b, path)
    ensures At(DictVal(MergeInto(a, b)), path) == Some(v)
    decreases |path|
  {
    var k := path[0];
    var r := MergeInto(a, b);
    if k in b.entries {
      if a.entries[k].DictVal? {
        LeftSurvives(a.entries[k].dict, b.entries[k].dict, path[1..], v);
      }
    } else {
      assert r.entries[k] == a.entries[k];
    }
  }

  /** Nothing is found at a path `b` leaves untouched. */
  lemma {:induction false} UntouchedIsAbsent(b: Dict, path: seq<string>)
    requires Untouched(b, path)
    ensures At(DictVal(b), path).None?
    decreases |path|
  {
    if path[0] in b.entries {
      UntouchedIsAbsent(b.entries[path[0]].dict, path[1..]);
    }
  }

  /** A path absent from `a` and untouched by `b` is absent from the merge. */
  lemma {:induction false} UntouchedStaysAbsent(a: Dict, b: Dict, path: seq<string>)
    requires At(DictVal(a), path).None? && Untouched(b, path)
    ensures At(DictVal(MergeInto(a, b)), path).None?
    decreases |path|
  {
    var k := path[0];
    if k in b.entries {
      if Recurses(a, b, k) {
        UntouchedStaysAbsent(a.entries[k].dict, b.entries[k].dict, path[1..]);
      } else {
        UntouchedIsAbsent(b.entries[k].dict, path[1..]);
      }
    }
  }

  /** One level of well-formedness survives the merge. */
  lemma MergeKeepsShallowWf(a: Dict, b: Dict)
    requires a.Wf() && b.Wf()
    ensures MergeInto(a, b).Wf()
  {
    var added := Absent(b.keys, a.entries.Keys);
    NoDuplicatesConcat(a.keys, added);
  }

  /** Merging well-formed dicts yields a well-formed dict. */
  lemma {:induction false} MergeKeepsWf(a: Dict, b: Dict)
    requires NestedWf(a) && NestedWf(b)
    ensures NestedWf(MergeInto(a, b))
    decreases b
  {
    var r := MergeInto(a, b);
    MergeKeepsShallowWf(a, b);
    forall k | k in r.entries && r.entries[k].DictVal?
      ensures NestedWf(r.entries[k].dict)
    {
      if Recurses(a, b, k) {
        MergeKeepsWf(a.entries[k].dict, b.entries[k].dict);
      }
    }
  }

  /** In the variadic form the rightmost argument wins on leaves. */
  lemma {:induction false} LastArgumentWins(args: seq<Value>, path: seq<string>, v: Value)
    requires |args| > 0 && forall i :: 0 <= i < |args| ==> args[i].DictVal?
    requires At(args[|args| - 1], path) == Some(v) && !v.DictVal?
    ensures MergeAll(args).Ok? && At(MergeAll(args).value, path) == Some(v)
  {
    if |args| > 1 {
      var rest := args[1..];
      assert rest[|rest| - 1] == args[|args| - 1];
      LastArgumentWins(rest, path, v);
      var inner := MergeAll(rest).value;
      assert MergeAll(args) == MergeValues(args[0], inner);
      RightWinsOnLeaves(args[0].dict, inner.dict, path, v);
    }
  }

  /** Merging two one-entry dicts under the same key. */
  lemma MergeSingles(k: string, v: Value, w: Value)
    ensures MergeInto(Single(k, v), Single(k, w))
            == Single(k, if v.DictVal? && w.DictVal? then DictVal(MergeInto(v.dict, w.dict)) else w)
  {
    var r := MergeInto(Single(k, v), Single(k, w));
    var x := if v.DictVal? && w.DictVal? then DictVal(MergeInto(v.dict, w.dict)) else w;
    assert Absent([k], {k}) == [];
    assert r.keys == [k];
    assert r.entries.Keys == {k};
    assert r.entries[k] == x;
    assert r.entries == map[k := x];
  }

  /** With a scalar in the middle, the right fold still merges the outer dicts. */
  lemma RightFoldThroughScalar(k: string, y: Dict, z: Dict, n: int)
    ensures MergeAll([DictVal(Single(k, DictVal(y))), DictVal(Single(k, Int(n))), DictVal(Single(k, DictVal(z)))])
            == Ok(DictVal(Single(k, DictVal(MergeInto(y, z)))))
  {
    var a, b, c := DictVal(Single(k, DictVal(y))), DictVal(Single(k, Int(n))), DictVal(Single(k, DictVal(z)));
    assert [a, b, c][1..] == [b, c] && [b, c][1..] == [c];
    MergeSingles(k, Int(n), DictVal(z));
    MergeSingles(k, DictVal(y), DictVal(z));
    assert MergeAll([b, c]) == Ok(c);
  }

  /** With a scalar in the middle, the left fold drops the first dict. */
  lemma LeftFoldThroughScalar(k: string, y: Dict, z: Dict, n: int)
    ensures MergeLeft(DictVal(Single(k, DictVal(y))), [DictVal(Single(k, Int(n))), DictVal(Single(k, DictVal(z)))])
            == Ok(DictVal(Single(k, DictVal(z))))
  {
    var a, b, c := DictVal(Single(k, DictVal(y))), DictVal(Single(k, Int(n))), DictVal(Single(k, DictVal(z)));
    assert [b, c][1..] == [c];
    MergeSingles(k, DictVal(y), Int(n));
    MergeSingles(k, Int(n), DictVal(z));
    assert MergeValues(a, b) == Ok(b);
    assert MergeLeft(a, [b, c]) == MergeLeft(b, [c]);
    assert MergeValues(b, c) == Ok(c);
    assert [c][1..] == [];
    assert MergeLeft(b, [c]) == MergeLeft(c, [c][1..]) == Ok(c);
  }

  /** The variadic form is a right fold and differs from the left fold when
      the middle argument holds a scalar where the outer ones hold dicts. */
  lemma RightFoldIsNotLeftFold()
    ensures
      var a := DictVal(Single("x", DictVal(Single("y", Int(1)))));
      var b := DictVal(Single("x", Int(5)));
      var c := DictVal(Single("x", DictVal(Single("z", Int(2)))));
      && MergeAll([a, b, c]).Ok?
      && MergeLeft(a, [b, c]).Ok?
      && MergeAll([a, b, c]) != MergeLeft(a, [b, c])
  {
    var y, z := Single("y", Int(1)), Single("z", Int(2));
    RightFoldThroughScalar("x", y, z, 5);
    LeftFoldThroughScalar("x", y, z, 5);
    assert "y" in MergeInto(y, z).entries && "y" !in z.entries;
    assert DictVal(MergeInto(y, z)) != DictVal(z);
    assert Single("x", DictVal(MergeInto(y, z))).entries["x"] != Single("x", DictVal(z)).entries["x"];
  }
}

=== FILE: scopes.dfy ===
/** The store stack behind the `values(...)` context managers of
    `p10s/values.py` and `p10s/engine.py`. The source keeps one global "current
    store" and each active `with values(...)` frame remembers the store it
    replaced; the model makes both explicit. */
module Scopes {
  import opened Tree

  /** `current` is the store lookups see; `saved` holds the stores the active
      scopes replaced, innermost last. */
  datatype Stack = Stack(current: Dict, saved: seq<Dict>) {

    function Depth(): nat {
      |saved|
    }

    /** Entering a scope: `next` becomes current and the old store is kept. */
    function Push(next: Dict): (r: Stack)
      ensures r.current == next && r.Depth() == Depth() + 1
      ensures r.Pop() == this
    {
      Stack(next, saved + [current])
    }

    /** Leaving a scope normally: the store it replaced is current again. */
    function Pop(): (r: Stack)
      requires Depth() > 0
      ensures r.Depth() + 1 == Depth()
      ensures r.current == saved[|saved| - 1]
      ensures r.saved == saved[..|saved| - 1]
    {
      Stack(saved[|saved| - 1], saved[..|saved| - 1])
    }

    /** An exception leaving a scope that has no try/finally: the frame and
        the store it saved are gone, and the inner store stays current. */
    function Abandon(): (r: Stack)
      requires Depth() > 0
      ensures r.current == current && r.Depth() + 1 == Depth()
      ensures r.saved == saved[..|saved| - 1]
    {
      Stack(current, saved[..|saved| - 1])
    }

    /** Leaving a `with values(...)` block. Neither context manager has a
        try/finally: on normal exit the replaced store is restored, but an
        exception raised in the body leaves the inner store current. */
    function Exit(raised: bool): (r: Stack)
      requires Depth() > 0
      ensures !raised ==> r.current == saved[|saved| - 1]
      ensures raised ==> r.current == current
      ensures r.Depth() + 1 == Depth()
      ensures r.saved == saved[..|saved| - 1]
    {
      if raised then Abandon() else Pop()
    }

    /** Assigning one key of the current store. */
    function SetTop(k: string, v: Value): (r: Stack)
      ensures r.saved == saved
      ensures r.current.entries == current.entries[k := v]
    {
      Stack(current.Put(k, v), saved)
    }
  }
}

=== FILE: terraform.dfy ===
/** `p10s/terraform.py`: terraform blocks, their storage and renaming, the
    `Output` shorthand, the `Context` that merges blocks together, and the
    conversion of a parsed HCL document back into blocks. */
module Terraform {
  import opened Wrappers
  import opened Tree
  import opened Scopes
  import Merge
  import Contexts

  /** The block classes, each with its `KIND` and the number of identity
      fields its constructor takes. */
  datatype Kind =
    | TerraformKind | LocalsKind
    | VariableKind | OutputKind | ModuleKind | ProviderKind
    | ResourceKind | DataKind
  {
    /** The class attribute `KIND`, the top-level key of the block's data. */
    function Name(): string {
      match this
      case TerraformKind => "terraform"
      case LocalsKind => "locals"
      case VariableKind => "variable"
      case OutputKind => "output"
      case ModuleKind => "module"
      case ProviderKind => "provider"
      case ResourceKind => "resource"
      case DataKind => "data"
    }

    /** 0 for `NoArgsBlock`, 1 for `NameBlock`, 2 for `TypeNameBlock`. */
    function Arity(): nat {
      match this
      case TerraformKind => 0
      case LocalsKind => 0
      case ResourceKind => 2
      case DataKind => 2
      case _ => 1
    }
  }

  /** The identity fields a block carries besides its body. */
  datatype Identity = NoArgs | Named(name: string) | TypeNamed(typ: string, name: string) {
    function Arity(): nat {
      match this
      case NoArgs => 0
      case Named(_) => 1
      case TypeNamed(_, _) => 2
    }
  }

  /** The identity matches the constructor of the kind's class. */
  predicate Fits(kind: Kind, id: Identity) {
    kind.Arity() == id.Arity()
  }

  /** Where a block keeps its body: `KIND`, then the type, then the name. */
  function StoragePath(kind: Kind, id: Identity): (r: seq<string>)
    ensures |r| == 1 + id.Arity() && r[0] == kind.Name()
  {
    match id
    case NoArgs => [kind.Name()]
    case Named(n) => [kind.Name(), n]
    case TypeNamed(t, n) => [kind.Name(), t, n]
  }

  /** `{p0: {p1: ... {pn: body}}}`. */
  function Nest(path: seq<string>, body: Value): (r: Dict)
    requires |path| > 0
    ensures r.keys == [path[0]] && r.Wf()
    ensures At(DictVal(r), path) == Some(body)
    decreases |path|
  {
    if |path| == 1 then Single(path[0], body)
    else Single(path[0], DictVal(Nest(path[1..], body)))
  }

  /** `body or {}`. */
  function OrEmpty(body: Value): (r: Value)
    ensures Truthy(body) ==> r == body
    ensures !Truthy(body) ==> r == DictVal(Empty())
    ensures Truthy(r) || r == DictVal(Empty())
  {
    if Truthy(body) then body else DictVal(Empty())
  }

  /** A block object: its class, identity fields and storage `data`. */
  datatype Block = Block(kind: Kind, id: Identity, data: Dict)

  /** The constructors of `NoArgsBlock`, `NameBlock` and `TypeNameBlock`:
      the body, or `{}` when it is falsy, stored under the block's path. */
  function Make(kind: Kind, id: Identity, body: Value): (r: Block)
    requires Fits(kind, id)
    ensures r.kind == kind && r.id == id && r.data.keys == [kind.Name()]
    ensures Body(r) == Ok(OrEmpty(body))
  {
    Block(kind, id, Nest(StoragePath(kind, id), OrEmpty(body)))
  }

  /** The `body` property: the value at the block's storage path. */
  function Body(b: Block): (r: Result<Value>)
    ensures r.Ok? <==> At(DictVal(b.data), StoragePath(b.kind, b.id)).Some?
    ensures r.Ok? ==> At(DictVal(b.data), StoragePath(b.kind, b.id)) == Some(r.value)
  {
    var path := StoragePath(b.kind, b.id);
    match At(DictVal(b.data), path)
    case Some(v) => Ok(v)
    case None => Err(KeyMissing(path[|path| - 1]))
  }

  /** `At` along a path of two keys, step by step. */
  lemma AtTwo(d: Dict, a: string, b: string)
    ensures At(DictVal(d), [a, b]) ==
              if a in d.entries && d.entries[a].DictVal? && b in d.entries[a].dict.entries
              then Some(d.entries[a].dict.entries[b]) else None
  {
    assert [a, b][1..] == [b];
    assert [b][1..] == [];
    if a in d.entries && d.entries[a].DictVal? {
      var inner := d.entries[a];
      assert At(DictVal(d), [a, b]) == At(inner, [b]);
      if b in inner.dict.entries {
        assert At(inner, [b]) == At(inner.dict.entries[b], []);
      }
    }
  }

  /** `At` along a path of three keys, step by step. */
  lemma AtThree(d: Dict, a: string, b: string, c: string)
    ensures At(DictVal(d), [a, b, c]) ==
              if a in d.entries && d.entries[a].DictVal? then At(d.entries[a], [b, c]) else None
  {
    assert [a, b, c][1..] == [b, c];
  }

  /** A `TypeNameBlock` has a body exactly when its kind table holds a
      dict for its type that holds its name. */
  lemma TypedBodyFound(b: Block)
    requires b.id.TypeNamed?
    ensures Body(b).Ok? <==>
              && b.kind.Name() in b.data.entries && b.data.entries[b.kind.Name()].DictVal?
              && var table := b.data.entries[b.kind.Name()].dict;
                 && b.id.typ in table.entries && table.entries[b.id.typ].DictVal?
                 && b.id.name in table.entries[b.id.typ].dict.entries
  {
    AtThree(b.data, b.kind.Name(), b.id.typ, b.id.name);
    if b.kind.Name() in b.data.entries && b.data.entries[b.kind.Name()].DictVal? {
      AtTwo(b.data.entries[b.kind.Name()].dict, b.id.typ, b.id.name);
    }
  }

  lemma NestTwo(a: string, b: string, v: Value)
    ensures Nest([a, b], v) == Single(a, DictVal(Single(b, v)))
  {
    assert [a, b][1..] == [b];
  }

  lemma NestThree(a: string, b: string, c: string, v: Value)
    ensures Nest([a, b, c], v) == Single(a, DictVal(Single(b, DictVal(Single(c, v)))))
  {
    assert [a, b, c][1..] == [b, c];
    NestTwo(b, c, v);
  }

  /** `d[k]` where the result is indexed or assigned into next. */
  function Child(d: Dict, k: string): (r: Result<Dict>)
    ensures r.Ok? <==> k in d.entries && d.entries[k].DictVal?
    ensures r.Ok? ==> r.value == d.entries[k].dict
  {
    if k !in d.entries then Err(KeyMissing(k))
    else if !d.entries[k].DictVal? then Err(TypeMismatch("not subscriptable"))
    else Ok(d.entries[k].dict)
  }

  /** `table[to] = table[from]; del table[from]`, with no check that the two
      keys differ: when they are equal the entry is deleted. */
  function Move(table: Dict, from: string, to: string): (r: Result<Dict>)
    ensures r.Ok? <==> from in table.entries
    ensures r.Ok? && to != from ==> r.value.entries == (table.entries - {from})[to := table.entries[from]]
    ensures r.Ok? && to == from ==> r.value.entries == table.entries - {from}
    ensures r.Ok? && table.Wf() ==> r.value.Wf()
  {
    if from !in table.entries then Err(KeyMissing(from))
    else
      var v := table.entries[from];
      RemoveAfterPut(table.entries, from, to, v);
      Ok(table.Put(to, v).Remove(from))
  }

  /** Storing at `to` then deleting `from` is deleting first then storing,
      unless the two keys are the same. */
  lemma RemoveAfterPut(m: map<string, Value>, from: string, to: string, v: Value)
    ensures to != from ==> m[to := v] - {from} == (m - {from})[to := v]
    ensures to == from ==> m[to := v] - {from} == m - {from}
  {
  }

  /** The `name` setter of `NameBlock`: a different name moves the body to
      the new key and deletes the old one; the same name changes nothing. */
  function SetName(b: Block, name: string): (r: Result<Block>)
    requires b.id.Named?
    ensures name == b.id.name ==> r == Ok(b)
    ensures r.Ok? <==> name == b.id.name || Body(b).Ok?
    ensures r.Ok? ==> r.value.kind == b.kind && r.value.id == Named(name) && Body(r.value) == Body(b)
    ensures r.Ok? && name != b.id.name ==> At(DictVal(r.value.data), [b.kind.Name(), b.id.name]).None?
  {
    var k := b.kind.Name();
    AtTwo(b.data, k, b.id.name);
    if name == b.id.name then Ok(b)
    else
      var table :- Child(b.data, k);
      var moved :- Move(table, b.id.name, name);
      var data := b.data.Put(k, DictVal(moved));
      AtTwo(data, k, name);
      AtTwo(data, k, b.id.name);
      Ok(Block(b.kind, Named(name), data))
  }

  /** The `type` setter of `TypeNameBlock`, as written: no guard, so setting
      the current type deletes the block's whole type table. */
  function SetType(b: Block, typ: string): (r: Result<Block>)
    requires b.id.TypeNamed?
    ensures r.Ok? <==> (&& b.kind.Name() in b.data.entries && b.data.entries[b.kind.Name()].DictVal?
                        && b.id.typ in b.data.entries[b.kind.Name()].dict.entries)
    ensures r.Ok? ==> r.value.kind == b.kind && r.value.id == TypeNamed(typ, b.id.name)
    ensures r.Ok? && typ != b.id.typ ==> Body(r.value) == Body(b)
    ensures r.Ok? && typ == b.id.typ ==> Body(r.value).Err?
  {
    var k := b.kind.Name();
    AtThree(b.data, k, b.id.typ, b.id.name);
    var table :- Child(b.data, k);
    AtTwo(table, b.id.typ, b.id.name);
    var moved :- Move(table, b.id.typ, typ);
    var data := b.data.Put(k, DictVal(moved));
    AtThree(data, k, typ, b.id.name);
    AtTwo(moved, typ, b.id.name);
    Ok(Block(b.kind, TypeNamed(typ, b.id.name), data))
  }

  /** The `name` setter of `TypeNameBlock`, as written: no guard, so setting
      the current name deletes the body. */
  function SetTypedName(b: Block, name: string): (r: Result<Block>)
    requires b.id.TypeNamed?
    ensures r.Ok? <==> Body(b).Ok?
    ensures r.Ok? ==> r.value.kind == b.kind && r.value.id == TypeNamed(b.id.typ, name)
    ensures r.Ok? && name != b.id.name ==> Body(r.value) == Body(b)
    ensures r.Ok? && name == b.id.name ==> Body(r.value).Err?
  {
    var k := b.kind.Name();
    AtThree(b.data, k, b.id.typ, b.id.name);
    var table :- Child(b.data, k);
    AtTwo(table, b.id.typ, b.id.name);
    var typed :- Child(table, b.id.typ);
    var moved :- Move(typed, b.id.name, name);
    var table' := table.Put(b.id.typ, DictVal(moved));
    var data := b.data.Put(k, DictVal(table'));
    AtThree(data, k, b.id.typ, name);
    AtTwo(table', b.id.typ, name);
    Ok(Block(b.kind, TypeNamed(b.id.typ, name), data))
  }

  /** The `type` setter with the same-value guard `NameBlock` has. */
  function SetTypeGuarded(b: Block, typ: string): (r: Result<Block>)
    requires b.id.TypeNamed?
    ensures r.Ok? ==> r.value.id == TypeNamed(typ, b.id.name) && Body(r.value) == Body(b)
    ensures Body(b).Ok? ==> r.Ok?
  {
    TypedBodyFound(b);
    if typ == b.id.typ then Ok(b) else SetType(b, typ)
  }

  /** The `name` setter of `TypeNameBlock` with the same-value guard. */
  function SetTypedNameGuarded(b: Block, name: string): (r: Result<Block>)
    requires b.id.TypeNamed?
    ensures r.Ok? ==> r.value.id == TypeNamed(b.id.typ, name) && Body(r.value) == Body(b)
    ensures r.Ok? <==> Body(b).Ok? || name == b.id.name
  {
    if name == b.id.name then Ok(b) else SetTypedName(b, name)
  }

  /** One successful run of the `NameBlock` name setter to a new name. */
  lemma SetNameStep(b: Block, name: string, table: Dict, moved: Dict)
    requires b.id.Named? && name != b.id.name
    requires Child(b.data, b.kind.Name()) == Ok(table)
    requires Move(table, b.id.name, name) == Ok(moved)
    ensures SetName(b, name) == Ok(Block(b.kind, Named(name), b.data.Put(b.kind.Name(), DictVal(moved))))
  {
  }

  /** One successful run of the `TypeNameBlock` type setter. */
  lemma SetTypeStep(b: Block, typ: string, table: Dict, moved: Dict)
    requires b.id.TypeNamed?
    requires Child(b.data, b.kind.Name()) == Ok(table)
    requires Move(table, b.id.typ, typ) == Ok(moved)
    ensures SetType(b, typ) == Ok(Block(b.kind, TypeNamed(typ, b.id.name), b.data.Put(b.kind.Name(), DictVal(moved))))
  {
  }

  /** One successful run of the `TypeNameBlock` name setter. */
  lemma SetTypedNameStep(b: Block, name: string, table: Dict, typed: Dict, moved: Dict)
    requires b.id.TypeNamed?
    requires Child(b.data, b.kind.Name()) == Ok(table)
    requires Child(table, b.id.typ) == Ok(typed)
    requires Move(typed, b.id.name, name) == Ok(moved)
    ensures SetTypedName(b, name)
            == Ok(Block(b.kind, TypeNamed(b.id.typ, name),
                        b.data.Put(b.kind.Name(), DictVal(table.Put(b.id.typ, DictVal(moved))))))
  {
  }

  /** The data of a constructed named block. */
  lemma MadeNamed(kind: Kind, n: string, body: Value)
    requires kind.Arity() == 1
    ensures Make(kind, Named(n), body).data == Single(kind.Name(), DictVal(Single(n, OrEmpty(body))))
  {
    NestTwo(kind.Name(), n, OrEmpty(body));
  }

  /** The data of a constructed typed block. */
  lemma MadeTyped(kind: Kind, t: string, n: string, body: Value)
    requires kind.Arity() == 2
    ensures Make(kind, TypeNamed(t, n), body).data
            == Single(kind.Name(), DictVal(Single(t, DictVal(Single(n, OrEmpty(body))))))
  {
    NestThree(kind.Name(), t, n, OrEmpty(body));
  }

  /** Renaming a constructed named block gives the block constructed under
      the new name with the same body. */
  lemma NameRenameIsRebuild(kind: Kind, n: string, m: string, body: Value)
    requires kind.Arity() == 1
    ensures SetName(Make(kind, Named(n), body), m) == Ok(Make(kind, Named(m), body))
  {
    if n != m {
      NameRenameMoves(kind, n, m, body);
    }
  }

  lemma NameRenameMoves(kind: Kind, n: string, m: string, body: Value)
    requires kind.Arity() == 1 && n != m
    ensures SetName(Make(kind, Named(n), body), m) == Ok(Make(kind, Named(m), body))
  {
    var k, v := kind.Name(), OrEmpty(body);
    var before := Make(kind, Named(n), body);
    MadeNamed(kind, n, body);
    MadeNamed(kind, m, body);
    assert Child(before.data, k) == Ok(Single(n, v));
    MoveSingle(n, m, v);
    SetNameStep(before, m, Single(n, v), Single(m, v));
    PutSingle(k, DictVal(Single(n, v)), DictVal(Single(m, v)));
  }

  lemma MoveSingle(from: string, to: string, v: Value)
    requires from != to
    ensures Move(Single(from, v), from, to) == Ok(Single(to, v))
  {
    var put := Single(from, v).Put(to, v);
    assert put == Dict([from, to], map[from := v, to := v]);
    assert [from, to][1..] == [to];
    assert Absent([to], {from}) == [to];
    assert Absent([from, to], {from}) == [to];
    assert map[from := v, to := v] - {from} == map[to := v];
  }

  lemma PutSingle(k: string, x: Value, y: Value)
    ensures Single(k, x).Put(k, y) == Single(k, y)
  {
  }

  /** Changing the type of a constructed block to a different one gives the
      block constructed under the new type with the same body. */
  lemma TypeRenameMoves(kind: Kind, t: string, n: string, t2: string, body: Value)
    requires kind.Arity() == 2 && t != t2
    ensures SetType(Make(kind, TypeNamed(t, n), body), t2) == Ok(Make(kind, TypeNamed(t2, n), body))
  {
    var k, v := kind.Name(), OrEmpty(body);
    var before := Make(kind, TypeNamed(t, n), body);
    var x := DictVal(Single(n, v));
    MadeTyped(kind, t, n, body);
    MadeTyped(kind, t2, n, body);
    assert Child(before.data, k) == Ok(Single(t, x));
    MoveSingle(t, t2, x);
    SetTypeStep(before, t2, Single(t, x), Single(t2, x));
    PutSingle(k, DictVal(Single(t, x)), DictVal(Single(t2, x)));
  }

  /** Changing the name of a constructed typed block to a different one
      gives the block constructed under the new name with the same body. */
  lemma TypedNameRenameMoves(kind: Kind, t: string, n: string, m: string, body: Value)
    requires kind.Arity() == 2 && n != m
    ensures SetTypedName(Make(kind, TypeNamed(t, n), body), m) == Ok(Make(kind, TypeNamed(t, m), body))
  {
    var k, v := kind.Name(), OrEmpty(body);
    var before := Make(kind, TypeNamed(t, n), body);
    var table := Single(t, DictVal(Single(n, v)));
    MadeTyped(kind, t, n, body);
    MadeTyped(kind, t, m, body);
    assert Child(before.data, k) == Ok(table);
    assert Child(table, t) == Ok(Single(n, v));
    MoveSingle(n, m, v);
    SetTypedNameStep(before, m, table, Single(n, v), Single(m, v));
    PutSingle(t, DictVal(Single(n, v)), DictVal(Single(m, v)));
    PutSingle(k, DictVal(table), DictVal(Single(t, DictVal(Single(m, v)))));
  }

  /** Setting a constructed typed block's type to the type it already has
      leaves an empty kind table: the body is lost. */
  lemma SameTypeLosesBody(kind: Kind, t: string, n: string, body: Value)
    requires kind.Arity() == 2
    ensures var r := SetType(Make(kind, TypeNamed(t, n), body), t);
            && r.Ok? && r.value.data == Single(kind.Name(), DictVal(Empty()))
            && Body(r.value).Err?
  {
    var k, v := kind.Name(), OrEmpty(body);
    var x := DictVal(Single(n, v));
    MadeTyped(kind, t, n, body);
    MoveOntoItself(t, x);
    SetTypeStep(Make(kind, TypeNamed(t, n), body), t, Single(t, x), Empty());
    PutSingle(k, DictVal(Single(t, x)), DictVal(Empty()));
  }

  /** Setting a constructed typed block's name to the name it already has
      leaves an empty type table: the body is lost. */
  lemma SameTypedNameLosesBody(kind: Kind, t: string, n: string, body: Value)
    requires kind.Arity() == 2
    ensures var r := SetTypedName(Make(kind, TypeNamed(t, n), body), n);
            && r.Ok? && r.value.data == Single(kind.Name(), DictVal(Single(t, DictVal(Empty()))))
            && Body(r.value).Err?
  {
    var k, v := kind.Name(), OrEmpty(body);
    var b := Make(kind, TypeNamed(t, n), body);
    var table := Single(t, DictVal(Single(n, v)));
    MadeTyped(kind, t, n, body);
    MoveOntoItself(n, v);
    SetTypedNameStep(b, n, table, Single(n, v), Empty());
    PutSingle(t, DictVal(Single(n, v)), DictVal(Empty()));
    PutSingle(k, DictVal(table), DictVal(Single(t, DictVal(Empty()))));
  }

  /** Moving the only key of a table onto itself empties the table. */
  lemma MoveOntoItself(k: string, v: Value)
    ensures Move(Single(k, v), k, k) == Ok(Empty())
  {
    assert Single(k, v).Put(k, v).Remove(k).keys == [];
  }

  /** With the guard, any type change of a constructed block, including to
      the same type, is a rebuild under the new type. */
  lemma GuardedTypeRenameIsRebuild(kind: Kind, t: string, n: string, t2: string, body: Value)
    requires kind.Arity() == 2
    ensures SetTypeGuarded(Make(kind, TypeNamed(t, n), body), t2) == Ok(Make(kind, TypeNamed(t2, n), body))
  {
    if t != t2 {
      TypeRenameMoves(kind, t, n, t2, body);
    }
  }

  /** With the guard, any name change of a constructed typed block,
      including to the same name, is a rebuild under the new name. */
  lemma GuardedTypedNameRenameIsRebuild(kind: Kind, t: string, n: string, m: string, body: Value)
    requires kind.Arity() == 2
    ensures SetTypedNameGuarded(Make(kind, TypeNamed(t, n), body), m) == Ok(Make(kind, TypeNamed(t, m), body))
  {
    if n != m {
      TypedNameRenameMoves(kind, t, n, m, body);
    }
  }

  /** `copy()`: the same class rebuilt from the identity fields and the body,
      which goes through `body or {}` again. */
  function Copy(b: Block): (r: Result<Block>)
    requires Fits(b.kind, b.id)
    ensures r.Ok? <==> Body(b).Ok?
    ensures r.Ok? ==> && r.value.kind == b.kind && r.value.id == b.id
                      && Body(r.value) == Ok(OrEmpty(Body(b).value))
  {
    var body :- Body(b);
    Ok(Make(b.kind, b.id, body))
  }

  /** Copying a constructed block gives it back. */
  lemma CopyOfMade(kind: Kind, id: Identity, body: Value)
    requires Fits(kind, id)
    ensures Copy(Make(kind, id, body)) == Ok(Make(kind, id, body))
  {
  }

  /** The `Output` constructor. With neither a name nor a body given, the
      keyword arguments must hold exactly one pair `k=v`, which becomes the
      block `k` with body `{'value': v}`; otherwise the keywords are ignored.
      Python binds `name=` and `body=` to the parameters, so `kwargs` never
      holds those keys. */
  function NewOutput(name: Option<string>, body: Value, kwargs: Dict): (r: Result<Block>)
    requires kwargs.Wf() && "name" !in kwargs.entries && "body" !in kwargs.entries
    ensures name.Some? ==> r == Ok(Make(OutputKind, Named(name.value), body))
    ensures name.None? && body == Null ==> (r.Ok? <==> |kwargs.keys| == 1)
    ensures name.None? && body == Null && r.Ok? ==>
              && r.value.kind == OutputKind && r.value.id.Named?
              && r.value.id.name in kwargs.entries
              && Body(r.value) == Ok(DictVal(Single("value", kwargs.entries[r.value.id.name])))
    ensures name.None? && body != Null ==> r.Err?
  {
    if name.None? && body == Null then
      if |kwargs.keys| != 1 then Err(Raised("Output's dwim constructor expects exactly one arg"))
      else
        var n := kwargs.keys[0];
        assert n in kwargs.entries;
        SingleIsTruthy("value", kwargs.entries[n]);
        Ok(Make(OutputKind, Named(n), DictVal(Single("value", kwargs.entries[n]))))
    else if name.None? then Err(KeyMissing("name"))
    else Ok(Make(OutputKind, Named(name.value), body))
  }

  lemma SingleIsTruthy(k: string, v: Value)
    ensures Truthy(DictVal(Single(k, v)))
  {
    assert k in Single(k, v).entries;
  }

  /** A `terraform.Context`: where it reads and writes (`output` is None
      while the attribute is unset) and the merged data of its blocks. */
  datatype Context = Context(input: Value, output: Option<Value>, data: Value)

  /** `Context.output_file_extension`. */
  const OutputExtension: string := ".tf.json"

  /** `Context(input, output, data=...)`: `data` defaults to `{}`, then the
      base class of `p10s/context.py` places the context. */
  function NewContext(s: Stack, input: Value, output: Value, data: Value): (r: Result<Context>)
    ensures r.Ok? <==> Contexts.InitContext(s, input, output, Some(OutputExtension)).Ok?
    ensures r.Ok? ==> r.value.data == if data == Null then DictVal(Empty()) else data
    ensures r.Ok? ==>
              Contexts.InitContext(s, input, output, Some(OutputExtension))
              == Ok(Contexts.Placement(r.value.input, r.value.output))
  {
    var placed :- Contexts.InitContext(s, input, output, Some(OutputExtension));
    Ok(Context(placed.input, placed.output, if data == Null then DictVal(Empty()) else data))
  }

  /** Outside any script the store binds no `p10s` entry, so a context made
      with no arguments has no input and no `output` attribute. */
  lemma BareContextHasNoOutput()
    ensures NewContext(Stack(Empty(), []), Null, Null, Null) == Ok(Context(Null, None, DictVal(Empty())))
  {
  }

  /** `merge_dicts(a, b)` with two arguments is `_merge_dicts(a, b)`. */
  lemma MergeTwo(a: Value, b: Value)
    ensures Merge.MergeAll([a, b]) == Merge.MergeValues(a, b)
  {
    assert [a, b][1..] == [b];
  }

  /** The top-level keys the blocks store under. */
  function Tops(blocks: seq<Block>): set<string> {
    if |blocks| == 0 then {} else blocks[0].data.entries.Keys + Tops(blocks[1..])
  }

  /** `add(block)` (and `+=`): each block's data is merged into the context's
      data in turn; a single block is added as a one-element list. */
  function Add(c: Context, blocks: seq<Block>): (r: Result<Context>)
    decreases |blocks|
    ensures |blocks| == 0 ==> r == Ok(c)
    ensures c.data.DictVal? ==> r.Ok? && r.value.data.DictVal?
    ensures r.Ok? ==> r.value.input == c.input && r.value.output == c.output
    ensures r.Ok? && c.data.DictVal? ==>
              r.value.data.dict.entries.Keys == c.data.dict.entries.Keys + Tops(blocks)
  {
    if |blocks| == 0 then Ok(c)
    else
      MergeTwo(c.data, DictVal(blocks[0].data));
      var merged :- Merge.MergeAll([c.data, DictVal(blocks[0].data)]);
      Add(c.(data := merged), blocks[1..])
  }

  /** Adding one block merges its data into the context's. */
  lemma AddOne(c: Context, b: Block)
    requires c.data.DictVal?
    ensures Add(c, [b]) == Ok(c.(data := DictVal(Merge.MergeInto(c.data.dict, b.data))))
  {
    assert [b][1..] == [];
  }

  lemma AddTwo(c: Context, x: Block, y: Block)
    requires c.data.DictVal?
    ensures Add(c, [x, y])
            == Ok(c.(data := DictVal(Merge.MergeInto(Merge.MergeInto(c.data.dict, x.data), y.data))))
  {
    var c1 := c.(data := DictVal(Merge.MergeInto(c.data.dict, x.data)));
    MergeTwo(c.data, DictVal(x.data));
    assert [x, y][1..] == [y];
    assert Add(c, [x, y]) == Add(c1, [y]);
    AddOne(c1, y);
  }

  /** Adding a list is adding its parts one after the other. */
  lemma {:induction false} AddConcat(c: Context, xs: seq<Block>, ys: seq<Block>)
    ensures Add(c, xs).Ok? ==> Add(c, xs + ys) == Add(Add(c, xs).value, ys)
    ensures Add(c, xs).Err? ==> Add(c, xs + ys).Err?
    decreases |xs|
  {
    if |xs| == 0 {
      assert xs + ys == ys;
    } else {
      assert (xs + ys)[0] == xs[0];
      assert (xs + ys)[1..] == xs[1..] + ys;
      MergeTwo(c.data, DictVal(xs[0].data));
      var merged := Merge.MergeAll([c.data, DictVal(xs[0].data)]);
      if merged.Ok? {
        AddConcat(c.(data := merged.value), xs[1..], ys);
      }
    }
  }

  /** Every non-dict value in the last block added sits at the same path in
      the context afterwards, whatever was added before. */
  lemma LastBlockLeavesWin(c: Context, xs: seq<Block>, b: Block, path: seq<string>, v: Value)
    requires c.data.DictVal?
    requires At(DictVal(b.data), path) == Some(v) && !v.DictVal?
    ensures Add(c, xs + [b]).Ok? && At(Add(c, xs + [b]).value.data, path) == Some(v)
  {
    AddConcat(c, xs, [b]);
    var mid := Add(c, xs).value;
    AddOne(mid, b);
    Merge.RightWinsOnLeaves(mid.data.dict, b.data, path, v);
  }

  /** Two blocks of one named kind share its table: `{'variable': {'foo':
      ..., 'bar': ...}}`, in the order added. */
  lemma SiblingBlocksShareTable(i: Value, o: Option<Value>, kind: Kind, n1: string, b1: Value, n2: string, b2: Value)
    requires kind.Arity() == 1 && n1 != n2
    ensures
      var c := Context(i, o, DictVal(Empty()));
      var table := Dict([n1, n2], map[n1 := OrEmpty(b1), n2 := OrEmpty(b2)]);
      Add(c, [Make(kind, Named(n1), b1), Make(kind, Named(n2), b2)])
      == Ok(Context(i, o, DictVal(Single(kind.Name(), DictVal(table)))))
  {
    var k, v1, v2 := kind.Name(), OrEmpty(b1), OrEmpty(b2);
    var x, y := Make(kind, Named(n1), b1), Make(kind, Named(n2), b2);
    var c := Context(i, o, DictVal(Empty()));
    NestTwo(k, n1, v1);
    NestTwo(k, n2, v2);
    var d1 := Single(k, DictVal(Single(n1, v1)));
    assert x.data == d1;
    AddTwo(c, x, y);
    assert Merge.MergeInto(Empty(), d1) == d1;
    SiblingMerge(k, n1, v1, n2, v2);
  }

  lemma SiblingMerge(k: string, n1: string, v1: Value, n2: string, v2: Value)
    requires n1 != n2
    ensures Merge.MergeInto(Single(k, DictVal(Single(n1, v1))), Single(k, DictVal(Single(n2, v2))))
            == Single(k, DictVal(Dict([n1, n2], map[n1 := v1, n2 := v2])))
  {
    var inner := Merge.MergeInto(Single(n1, v1), Single(n2, v2));
    assert Absent([n2], {n1}) == [n2];
    assert inner.keys == [n1, n2];
    assert inner.entries == map[n1 := v1, n2 := v2];
    assert Absent([k], {k}) == [];
  }

  /** Two paths part ways: at their first difference both still go on. */
  predicate Diverge(p: seq<string>, q: seq<string>)
    decreases |p|
  {
    && |p| > 0 && |q| > 0
    && (p[0] != q[0] || Diverge(p[1..], q[1..]))
  }

  lemma {:induction false} DivergeSymmetric(p: seq<string>, q: seq<string>)
    requires Diverge(p, q)
    ensures Diverge(q, p)
    decreases |p|
  {
    if p[0] == q[0] {
      DivergeSymmetric(p[1..], q[1..]);
    }
  }

  /** A block stored along `q` leaves every path diverging from `q` alone. */
  lemma {:induction false} NestLeavesDiverging(p: seq<string>, q: seq<string>, v: Value)
    requires Diverge(p, q)
    ensures Merge.Untouched(Nest(q, v), p)
    decreases |p|
  {
    if p[0] == q[0] {
      NestLeavesDiverging(p[1..], q[1..], v);
    }
  }

  /** Merging `{p0: ... {pn: v}}` into a dict with nothing at that path puts
      `v` there. */
  lemma {:induction false} NestLands(a: Dict, p: seq<string>, v: Value)
    requires |p| > 0 && At(DictVal(a), p).None?
    ensures At(DictVal(Merge.MergeInto(a, Nest(p, v))), p) == Some(v)
    decreases |p|
  {
    var b := Nest(p, v);
    var k := p[0];
    if |p| > 1 {
      if Merge.Recurses(a, b, k) {
        NestLands(a.entries[k].dict, p[1..], v);
      }
    }
  }

  /** The block was built by its constructor: its data holds just its body
      along its storage path. */
  predicate Shaped(b: Block) {
    Body(b).Ok? && b.data == Nest(StoragePath(b.kind, b.id), Body(b).value)
  }

  lemma MadeIsShaped(kind: Kind, id: Identity, body: Value)
    requires Fits(kind, id)
    ensures Shaped(Make(kind, id, body))
  {
  }

  /** What the context holds along a path every added block diverges from
      survives the adding. */
  lemma {:induction false} DivergingSurvives(c: Context, blocks: seq<Block>, p: seq<string>, v: Value)
    requires c.data.DictVal? && At(c.data, p) == Some(v)
    requires forall i :: 0 <= i < |blocks| ==> Shaped(blocks[i])
    requires forall i :: 0 <= i < |blocks| ==> Diverge(p, StoragePath(blocks[i].kind, blocks[i].id))
    ensures Add(c, blocks).Ok? && At(Add(c, blocks).value.data, p) == Some(v)
    decreases |blocks|
  {
    if |blocks| > 0 {
      var b := blocks[0];
      var q := StoragePath(b.kind, b.id);
      HeadTail(blocks);
      AddConcat(c, [b], blocks[1..]);
      AddOne(c, b);
      NestLeavesDiverging(p, q, Body(b).value);
      Merge.LeftSurvives(c.data.dict, b.data, p, v);
      var next := Add(c, [b]).value;
      DivergingSurvives(next, blocks[1..], p, v);
    }
  }

  /** Blocks whose storage paths pairwise diverge, added to a context that
      holds none of those paths, each leave their body at their storage
      path: the context rebuilds the document the blocks came from. */
  lemma {:induction false} AddedBodiesFound(c: Context, blocks: seq<Block>)
    requires c.data.DictVal?
    requires forall i :: 0 <= i < |blocks| ==> Shaped(blocks[i])
    requires forall i :: 0 <= i < |blocks| ==> At(c.data, StoragePath(blocks[i].kind, blocks[i].id)).None?
    requires forall i, j :: 0 <= i < j < |blocks| ==>
               Diverge(StoragePath(blocks[i].kind, blocks[i].id), StoragePath(blocks[j].kind, blocks[j].id))
    ensures Add(c, blocks).Ok?
    ensures forall i :: 0 <= i < |blocks| ==>
              Body(blocks[i]).Ok? &&
              At(Add(c, blocks).value.data, StoragePath(blocks[i].kind, blocks[i].id)) == Some(Body(blocks[i]).value)
    decreases |blocks|
  {
    if |blocks| > 0 {
      var b := blocks[0];
      AddedStepBefore(c, blocks);
      var next := Add(c, [b]).value;
      AddedBodiesFound(next, blocks[1..]);
      DivergingSurvives(next, blocks[1..], StoragePath(b.kind, b.id), Body(b).value);
      HeadTail(blocks);
      AddedStepAfter(c, b, blocks[1..], Add(next, blocks[1..]).value);
    }
  }

  /** What adding the first block leaves for adding the rest: its body in
      place and every later storage path still absent. */
  lemma AddedStepBefore(c: Context, blocks: seq<Block>)
    requires c.data.DictVal? && |blocks| > 0
    requires forall i :: 0 <= i < |blocks| ==> Shaped(blocks[i])
    requires forall i :: 0 <= i < |blocks| ==> At(c.data, StoragePath(blocks[i].kind, blocks[i].id)).None?
    requires forall i, j :: 0 <= i < j < |blocks| ==>
               Diverge(StoragePath(blocks[i].kind, blocks[i].id), StoragePath(blocks[j].kind, blocks[j].id))
    ensures Add(c, [blocks[0]]).Ok?
    ensures var next, rest := Add(c, [blocks[0]]).value, blocks[1..];
            && next.data.DictVal?
            && (forall i :: 0 <= i < |rest| ==> Shaped(rest[i]))
            && (forall i :: 0 <= i < |rest| ==> At(next.data, StoragePath(rest[i].kind, rest[i].id)).None?)
            && (forall i, j :: 0 <= i < j < |rest| ==>
                  Diverge(StoragePath(rest[i].kind, rest[i].id), StoragePath(rest[j].kind, rest[j].id)))
            && (forall j :: 0 <= j < |rest| ==>
                  Diverge(StoragePath(blocks[0].kind, blocks[0].id), StoragePath(rest[j].kind, rest[j].id)))
            && Body(blocks[0]).Ok?
            && At(next.data, StoragePath(blocks[0].kind, blocks[0].id)) == Some(Body(blocks[0]).value)
  {
    var b, rest := blocks[0], blocks[1..];
    AddOne(c, b);
    var next := Add(c, [b]).value;
    NestLands(c.data.dict, StoragePath(b.kind, b.id), Body(b).value);
    DivergeTail(blocks);
    forall j | 0 <= j < |rest|
      ensures Shaped(rest[j]) && At(next.data, StoragePath(rest[j].kind, rest[j].id)).None?
    {
      assert rest[j] == blocks[j + 1];
      AddKeepsAbsent(c, b, StoragePath(rest[j].kind, rest[j].id));
    }
  }

  /** The first block's body survives adding the rest, whose bodies are in
      place afterwards: every body is in place after adding them all. */
  lemma AddedStepAfter(c: Context, b: Block, rest: seq<Block>, done: Context)
    requires c.data.DictVal? && Body(b).Ok?
    requires Add(Add(c, [b]).value, rest) == Ok(done)
    requires At(done.data, StoragePath(b.kind, b.id)) == Some(Body(b).value)
    requires forall i :: 0 <= i < |rest| ==>
               Body(rest[i]).Ok? && At(done.data, StoragePath(rest[i].kind, rest[i].id)) == Some(Body(rest[i]).value)
    ensures Add(c, [b] + rest) == Ok(done)
    ensures forall i :: 0 <= i < |[b] + rest| ==>
              Body(([b] + rest)[i]).Ok? &&
              At(done.data, StoragePath(([b] + rest)[i].kind, ([b] + rest)[i].id)) == Some(Body(([b] + rest)[i]).value)
  {
    AddConcat(c, [b], rest);
    forall i | 0 <= i < |[b] + rest|
      ensures Body(([b] + rest)[i]).Ok? &&
              At(done.data, StoragePath(([b] + rest)[i].kind, ([b] + rest)[i].id)) == Some(Body(([b] + rest)[i]).value)
    {
      if i > 0 {
        assert ([b] + rest)[i] == rest[i - 1];
      }
    }
  }

  /** Adding a block leaves absent every path its own diverges from. */
  lemma AddKeepsAbsent(c: Context, b: Block, p: seq<string>)
    requires c.data.DictVal? && Shaped(b) && At(c.data, p).None?
    requires Diverge(StoragePath(b.kind, b.id), p)
    ensures Add(c, [b]).Ok? && At(Add(c, [b]).value.data, p).None?
  {
    var q := StoragePath(b.kind, b.id);
    AddOne(c, b);
    DivergeSymmetric(q, p);
    NestLeavesDiverging(p, q, Body(b).value);
    Merge.UntouchedStaysAbsent(c.data.dict, b.data, p);
  }

  /** Pairwise diverging storage paths still diverge after the first block
      is taken off, and the first one diverges from every later one. */
  lemma DivergeTail(blocks: seq<Block>)
    requires |blocks| > 0
    requires forall i, j :: 0 <= i < j < |blocks| ==>
               Diverge(StoragePath(blocks[i].kind, blocks[i].id), StoragePath(blocks[j].kind, blocks[j].id))
    ensures var rest := blocks[1..];
            forall i, j :: 0 <= i < j < |rest| ==>
              Diverge(StoragePath(rest[i].kind, rest[i].id), StoragePath(rest[j].kind, rest[j].id))
    ensures var rest := blocks[1..];
            forall j :: 0 <= j < |rest| ==>
              Diverge(StoragePath(blocks[0].kind, blocks[0].id), StoragePath(rest[j].kind, rest[j].id))
  {
    var rest := blocks[1..];
    forall i, j | 0 <= i < j < |rest|
      ensures Diverge(StoragePath(rest[i].kind, rest[i].id), StoragePath(rest[j].kind, rest[j].id))
    {
      assert rest[i] == blocks[i + 1] && rest[j] == blocks[j + 1];
    }
    forall j | 0 <= j < |rest|
      ensures Diverge(StoragePath(blocks[0].kind, blocks[0].id), StoragePath(rest[j].kind, rest[j].id))
    {
      assert rest[j] == blocks[j + 1];
    }
  }

  /** `ctx + block` as written: `copy()` passes `output=self.output`, which
      fails when the attribute was never set, and otherwise re-runs the
      constructor, which may look `input` up in the store again. */
  function PlusAsWritten(s: Stack, c: Context, blocks: seq<Block>): (r: Result<Context>)
    ensures c.output.None? ==> r == Err(AttributeMissing("output"))
    ensures c.output.Some? && c.output.value != Null && c.input != Null && c.data != Null ==>
              r == Add(c, blocks)
  {
    if c.output.None? then Err(AttributeMissing("output"))
    else
      var copy :- NewContext(s, c.input, c.output.value, c.data);
      Add(copy, blocks)
  }

  /** `ctx + block` with a copy that carries every attribute as it is,
      `output` included when unset: a new context holding the merge, which
      leaves `c` itself as it was. */
  function Plus(c: Context, blocks: seq<Block>): (r: Result<Context>)
    ensures r.Ok? ==> r.value.input == c.input && r.value.output == c.output
    ensures c.data.DictVal? ==>
              && r.Ok? && r.value.data.DictVal?
              && r.value.data.dict.entries.Keys == c.data.dict.entries.Keys + Tops(blocks)
  {
    var copy := Context(c.input, c.output, c.data);
    Add(copy, blocks)
  }

  /** Adding a block with `+` to a context made with no arguments outside a
      script fails as written. */
  lemma PlusOnBareContextFails(s: Stack, blocks: seq<Block>)
    ensures PlusAsWritten(s, NewContext(Stack(Empty(), []), Null, Null, Null).value, blocks).Err?
  {
    BareContextHasNoOutput();
  }

  /** With the copy fixed, `Context() + Variable('foo', body)` holds the
      variable while the bare context stays empty. */
  lemma PlusOnBareContext(n: string, body: Value)
    ensures
      var c := NewContext(Stack(Empty(), []), Null, Null, Null).value;
      && c.data == DictVal(Empty())
      && Plus(c, [Make(VariableKind, Named(n), body)])
         == Ok(c.(data := DictVal(Single("variable", DictVal(Single(n, OrEmpty(body)))))))
  {
    BareContextHasNoOutput();
    var c := Context(Null, None, DictVal(Empty()));
    var b := Make(VariableKind, Named(n), body);
    AddOne(c, b);
    NestTwo("variable", n, OrEmpty(body));
  }

  /** The block classes `many_from_hcl` builds one per name for. */
  function NamedKind(key: string): (r: Option<Kind>)
    ensures r.Some? ==> r.value.Arity() == 1 && r.value.Name() == key
    ensures forall kind: Kind :: kind.Arity() == 1 && kind.Name() == key ==> r == Some(kind)
  {
    if key == "variable" then Some(VariableKind)
    else if key == "output" then Some(OutputKind)
    else if key == "module" then Some(ModuleKind)
    else if key == "provider" then Some(ProviderKind)
    else None
  }

  /** The block classes `many_from_hcl` builds one per type and name for. */
  function TypedKind(key: string): (r: Option<Kind>)
    ensures r.Some? ==> r.value.Arity() == 2 && r.value.Name() == key
    ensures forall kind: Kind :: kind.Arity() == 2 && kind.Name() == key ==> r == Some(kind)
  {
    if key == "resource" then Some(ResourceKind)
    else if key == "data" then Some(DataKind)
    else None
  }

  /** The block `b` is what the parsed document `doc` holds at `b`'s storage
      path, passed through the block's constructor. */
  ghost predicate FromDoc(doc: Dict, b: Block) {
    && Fits(b.kind, b.id) && b.kind != LocalsKind
    && At(DictVal(doc), StoragePath(b.kind, b.id)).Some?
    && b == Make(b.kind, b.id, At(DictVal(doc), StoragePath(b.kind, b.id)).value)
  }

  /** Every body `doc` holds at the storage path of a block with top-level
      key `key` has its block among `blocks`. */
  ghost predicate Covers(doc: Dict, key: string, blocks: seq<Block>) {
    forall kind: Kind, id: Identity ::
      && kind.Name() == key && Fits(kind, id) && kind != LocalsKind
      && At(DictVal(doc), StoragePath(kind, id)).Some?
      ==> Make(kind, id, At(DictVal(doc), StoragePath(kind, id)).value) in blocks
  }

  /** One block per name of a `variable`/`output`/`module`/`provider`
      table, in the table's order. */
  function NamedBlocks(kind: Kind, table: Dict, names: seq<string>): (r: seq<Block>)
    requires kind.Arity() == 1
    requires forall n :: n in names ==> n in table.entries
    ensures |r| == |names|
    ensures forall i :: 0 <= i < |names| ==> r[i] == Make(kind, Named(names[i]), table.entries[names[i]])
  {
    seq(|names|, i requires 0 <= i < |names| => Make(kind, Named(names[i]), table.entries[names[i]]))
  }

  /** `for name in data[kind][type]`: a dict yields one block per key; an
      empty list, tuple or string yields nothing; indexing a non-empty one
      by its elements, or iterating a non-iterable, fails. */
  function TypedBlocks(kind: Kind, typ: string, v: Value): (r: Result<seq<Block>>)
    requires kind.Arity() == 2
    requires v.DictVal? ==> v.dict.Wf()
    ensures v.DictVal? ==> r.Ok? && |r.value| == |v.dict.keys|
    ensures v.DictVal? ==> forall i :: 0 <= i < |v.dict.keys| ==>
              r.value[i] == Make(kind, TypeNamed(typ, v.dict.keys[i]), v.dict.entries[v.dict.keys[i]])
    ensures r.Ok? && !v.DictVal? ==> r.value == []
  {
    match v
    case DictVal(d) =>
      Ok(seq(|d.keys|, i requires 0 <= i < |d.keys| => Make(kind, TypeNamed(typ, d.keys[i]), d.entries[d.keys[i]])))
    case List(xs) => if xs == [] then Ok([]) else Err(TypeMismatch("list indices must be integers"))
    case Tuple(xs) => if xs == [] then Ok([]) else Err(TypeMismatch("tuple indices must be integers"))
    case Str(s) => if s == "" then Ok([]) else Err(TypeMismatch("string indices must be integers"))
    case _ => Err(TypeMismatch("not iterable"))
  }

  /** Every dict directly inside `d` is well formed. */
  predicate ChildrenWf(d: Dict) {
    forall k :: k in d.entries && d.entries[k].DictVal? ==> d.entries[k].dict.Wf()
  }

  /** The blocks of every type of a `resource`/`data` table, types in the
      table's order. */
  function TypeTables(kind: Kind, table: Dict, types: seq<string>): (r: Result<seq<Block>>)
    requires kind.Arity() == 2 && ChildrenWf(table)
    requires forall t :: t in types ==> t in table.entries
    ensures r.Ok? <==> forall t :: t in types ==> TypedBlocks(kind, t, table.entries[t]).Ok?
    ensures r.Ok? ==> forall t, b :: t in types && b in TypedBlocks(kind, t, table.entries[t]).value ==> b in r.value
    ensures r.Ok? ==> forall b :: b in r.value ==> exists t :: t in types && b in TypedBlocks(kind, t, table.entries[t]).value
    decreases |types|
  {
    if |types| == 0 then Ok([])
    else
      var here :- TypedBlocks(kind, types[0], table.entries[types[0]]);
      var rest :- TypeTables(kind, table, types[1..]);
      assert forall t :: t in types[1..] ==> t in types;
      assert forall t :: t in types ==> t == types[0] || t in types[1..];
      Ok(here + rest)
  }

  /** Two collections of blocks one after the other: the first error, or
      both lists of blocks concatenated. */
  function Chain(a: Result<seq<Block>>, b: Result<seq<Block>>): (r: Result<seq<Block>>)
    ensures r.Ok? <==> a.Ok? && b.Ok?
    ensures a.Err? ==> r == a
    ensures a.Ok? && b.Err? ==> r == b
    ensures r.Ok? ==> r.value == a.value + b.value
  {
    if a.Err? then a else if b.Err? then b else Ok(a.value + b.value)
  }

  lemma ChainAssociates(a: Result<seq<Block>>, b: Result<seq<Block>>, c: Result<seq<Block>>)
    ensures Chain(a, Chain(b, c)) == Chain(Chain(a, b), c)
  {
    if a.Ok? && b.Ok? && c.Ok? {
      assert a.value + (b.value + c.value) == (a.value + b.value) + c.value;
    }
  }

  lemma ChainEmpty(b: Result<seq<Block>>)
    ensures Chain(Ok([]), b) == b
  {
    if b.Ok? {
      assert [] + b.value == b.value;
    }
  }

  /** The first type's blocks, then those of the other types. */
  lemma TypeTablesCons(kind: Kind, table: Dict, types: seq<string>)
    requires kind.Arity() == 2 && ChildrenWf(table) && |types| > 0
    requires forall t :: t in types ==> t in table.entries
    ensures TypeTables(kind, table, types)
            == Chain(TypedBlocks(kind, types[0], table.entries[types[0]]), TypeTables(kind, table, types[1..]))
  {
  }

  /** The blocks of a list of types are those of its first part followed
      by those of the rest; the first failing part is the error. */
  lemma {:induction false} TypeTablesConcat(kind: Kind, table: Dict, xs: seq<string>, ys: seq<string>)
    requires kind.Arity() == 2 && ChildrenWf(table)
    requires forall t :: t in xs ==> t in table.entries
    requires forall t :: t in ys ==> t in table.entries
    ensures TypeTables(kind, table, xs + ys) == Chain(TypeTables(kind, table, xs), TypeTables(kind, table, ys))
    decreases |xs|
  {
    if |xs| == 0 {
      assert xs + ys == ys;
      ChainEmpty(TypeTables(kind, table, ys));
    } else {
      HeadTailConcat(xs, ys);
      TypeTablesCons(kind, table, xs + ys);
      TypeTablesCons(kind, table, xs);
      TypeTablesConcat(kind, table, xs[1..], ys);
      ChainAssociates(TypedBlocks(kind, xs[0], table.entries[xs[0]]),
                      TypeTables(kind, table, xs[1..]), TypeTables(kind, table, ys));
    }
  }

  /** One type alone gives exactly the blocks of its table, or its error. */
  lemma TypeTablesOfOne(kind: Kind, table: Dict, t: string)
    requires kind.Arity() == 2 && ChildrenWf(table) && t in table.entries
    ensures TypeTables(kind, table, [t]) == TypedBlocks(kind, t, table.entries[t])
  {
    assert [t][1..] == [];
    assert [t][0] == t;
    TypeTablesCons(kind, table, [t]);
    var here := TypedBlocks(kind, t, table.entries[t]);
    if here.Ok? {
      assert here.value + [] == here.value;
    }
  }

  /** The error is that of the first type whose table cannot be read. */
  lemma {:induction false} TypeTablesFirstFailure(kind: Kind, table: Dict, types: seq<string>, i: nat)
    requires kind.Arity() == 2 && ChildrenWf(table)
    requires forall t :: t in types ==> t in table.entries
    requires i < |types| && TypedBlocks(kind, types[i], table.entries[types[i]]).Err?
    requires forall j :: 0 <= j < i ==> TypedBlocks(kind, types[j], table.entries[types[j]]).Ok?
    ensures TypeTables(kind, table, types) == Err(TypedBlocks(kind, types[i], table.entries[types[i]]).error)
    decreases i
  {
    if i > 0 {
      var rest := types[1..];
      forall j | 0 <= j < i - 1
        ensures TypedBlocks(kind, rest[j], table.entries[rest[j]]).Ok?
      {
        assert rest[j] == types[j + 1];
      }
      assert rest[i - 1] == types[i];
      TypeTablesFirstFailure(kind, table, rest, i - 1);
      TypeTablesCons(kind, table, types);
    }
  }

  /** What a dict nested in a well-formed parsed document satisfies. */
  lemma NestedWfChild(d: Dict, k: string)
    requires NestedWf(d) && k in d.entries && d.entries[k].DictVal?
    ensures NestedWf(d.entries[k].dict) && d.entries[k].dict.Wf() && ChildrenWf(d.entries[k].dict)
  {
    var c := d.entries[k].dict;
    forall j | j in c.entries && c.entries[j].DictVal?
      ensures c.entries[j].dict.Wf()
    {
      assert NestedWf(c.entries[j].dict);
    }
  }

  /** The blocks `many_from_hcl` builds from one top-level key of the parsed
      document. `terraform` gives one block; `local` is passed to `Locals`
      with a `name`, which its constructor does not take, so any entry under
      it fails; every other key is skipped. */
  function Section(doc: Dict, key: string): (r: Result<seq<Block>>)
    requires NestedWf(doc) && key in doc.entries
  {
    var v := doc.entries[key];
    if key == "terraform" then Ok([Make(TerraformKind, NoArgs, v)])
    else if key == "local" then
      if !v.DictVal? then Err(AttributeMissing("keys"))
      else if v.dict.keys == [] then Ok([])
      else Err(TypeMismatch("__init__() got an unexpected keyword argument 'name'"))
    else if NamedKind(key).Some? then
      if !v.DictVal? then Err(AttributeMissing("keys"))
      else
        NestedWfChild(doc, key);
        Ok(NamedBlocks(NamedKind(key).value, v.dict, v.dict.keys))
    else if TypedKind(key).Some? then
      if !v.DictVal? then Err(AttributeMissing("keys"))
      else
        NestedWfChild(doc, key);
        TypeTables(TypedKind(key).value, v.dict, v.dict.keys)
    else Ok([])
  }

  /** Each block of a section is read from the document under that key. */
  lemma SectionSound(doc: Dict, key: string)
    requires NestedWf(doc) && key in doc.entries
    ensures Section(doc, key).Ok? ==>
              forall b :: b in Section(doc, key).value ==> FromDoc(doc, b) && b.kind.Name() == key
  {
    var v := doc.entries[key];
    if key == "terraform" {
      assert [key][1..] == [];
    } else if NamedKind(key).Some? && v.DictVal? {
      SoundNamed(doc, NamedKind(key).value);
    } else if TypedKind(key).Some? && v.DictVal? {
      SoundTyped(doc, TypedKind(key).value);
    }
  }

  lemma SoundNamed(doc: Dict, kind: Kind)
    requires NestedWf(doc) && kind.Arity() == 1 && kind.Name() in doc.entries
    requires doc.entries[kind.Name()].DictVal?
    ensures Section(doc, kind.Name()).Ok?
    ensures forall b :: b in Section(doc, kind.Name()).value ==> FromDoc(doc, b) && b.kind.Name() == kind.Name()
  {
    var key := kind.Name();
    SectionNamed(doc, kind);
    var table := doc.entries[key].dict;
    forall b | b in Section(doc, key).value
      ensures FromDoc(doc, b) && b.kind.Name() == key
    {
      var i :| 0 <= i < |table.keys| && b == NamedBlocks(kind, table, table.keys)[i];
      AtTwo(doc, key, table.keys[i]);
    }
  }

  lemma SoundTyped(doc: Dict, kind: Kind)
    requires NestedWf(doc) && kind.Arity() == 2 && kind.Name() in doc.entries
    requires doc.entries[kind.Name()].DictVal?
    ensures Section(doc, kind.Name()).Ok? ==>
              forall b :: b in Section(doc, kind.Name()).value ==> FromDoc(doc, b) && b.kind.Name() == kind.Name()
  {
    var key := kind.Name();
    SectionTyped(doc, kind);
    var table := doc.entries[key].dict;
    if Section(doc, key).Ok? {
      forall b | b in Section(doc, key).value
        ensures FromDoc(doc, b) && b.kind.Name() == key
      {
        var t :| t in table.keys && b in TypedBlocks(kind, t, table.entries[t]).value;
        TypedBlockSound(doc, kind, t, b);
      }
    }
  }

  lemma TypedBlockSound(doc: Dict, kind: Kind, t: string, b: Block)
    requires NestedWf(doc) && kind.Arity() == 2 && kind.Name() in doc.entries
    requires doc.entries[kind.Name()].DictVal?
    requires ChildrenWf(doc.entries[kind.Name()].dict)
    requires t in doc.entries[kind.Name()].dict.entries
    requires var r := TypedBlocks(kind, t, doc.entries[kind.Name()].dict.entries[t]);
             r.Ok? && b in r.value
    ensures FromDoc(doc, b) && b.kind.Name() == kind.Name()
  {
    var key := kind.Name();
    var table := doc.entries[key].dict;
    var v := table.entries[t];
    assert v.DictVal?;
    var i :| 0 <= i < |v.dict.keys| && b == TypedBlocks(kind, t, v).value[i];
    var n := v.dict.keys[i];
    AtThree(doc, key, t, n);
    AtTwo(table, t, n);
  }

  /** A section holds the block for every body stored under its key. */
  lemma SectionCovers(doc: Dict, key: string)
    requires NestedWf(doc) && key in doc.entries
    ensures Section(doc, key).Ok? ==> Covers(doc, key, Section(doc, key).value)
  {
    if Section(doc, key).Ok? {
      forall kind: Kind, id: Identity |
        && kind.Name() == key && Fits(kind, id) && kind != LocalsKind
        && At(DictVal(doc), StoragePath(kind, id)).Some?
        ensures Make(kind, id, At(DictVal(doc), StoragePath(kind, id)).value) in Section(doc, key).value
      {
        match id
        case NoArgs =>
          CoversTerraform(doc, kind);
        case Named(n) =>
          CoversNamed(doc, kind, n);
        case TypeNamed(t, n) =>
          CoversTyped(doc, kind, t, n);
      }
    }
  }

  lemma CoversTerraform(doc: Dict, kind: Kind)
    requires NestedWf(doc) && kind.Arity() == 0 && kind != LocalsKind
    requires At(DictVal(doc), [kind.Name()]).Some?
    ensures kind.Name() in doc.entries
    ensures Section(doc, kind.Name()).Ok? ==>
              Make(kind, NoArgs, At(DictVal(doc), [kind.Name()]).value) in Section(doc, kind.Name()).value
  {
    assert [kind.Name()][1..] == [];
    assert kind == TerraformKind;
  }

  lemma CoversNamed(doc: Dict, kind: Kind, n: string)
    requires NestedWf(doc) && kind.Arity() == 1
    requires At(DictVal(doc), [kind.Name(), n]).Some?
    ensures kind.Name() in doc.entries
    ensures Section(doc, kind.Name()).Ok? ==>
              Make(kind, Named(n), At(DictVal(doc), [kind.Name(), n]).value) in Section(doc, kind.Name()).value
  {
    var key := kind.Name();
    AtTwo(doc, key, n);
    NestedWfChild(doc, key);
    var v := doc.entries[key];
    SectionNamed(doc, kind);
    var i :| 0 <= i < |v.dict.keys| && v.dict.keys[i] == n;
    assert Section(doc, key).value[i] == Make(kind, Named(n), v.dict.entries[n]);
  }

  lemma CoversTyped(doc: Dict, kind: Kind, t: string, n: string)
    requires NestedWf(doc) && kind.Arity() == 2
    requires At(DictVal(doc), [kind.Name(), t, n]).Some?
    ensures kind.Name() in doc.entries
    ensures Section(doc, kind.Name()).Ok? ==>
              Make(kind, TypeNamed(t, n), At(DictVal(doc), [kind.Name(), t, n]).value)
              in Section(doc, kind.Name()).value
  {
    var key := kind.Name();
    var v := doc.entries[key];
    AtThree(doc, key, t, n);
    AtTwo(v.dict, t, n);
    NestedWfChild(doc, key);
    var inner := v.dict.entries[t].dict;
    assert t in v.dict.keys;
    TypedBlocksHold(kind, t, inner, n);
    SectionTyped(doc, kind);
  }

  lemma TypedBlocksHold(kind: Kind, t: string, inner: Dict, n: string)
    requires kind.Arity() == 2 && inner.Wf() && n in inner.entries
    ensures Make(kind, TypeNamed(t, n), inner.entries[n]) in TypedBlocks(kind, t, DictVal(inner)).value
  {
    var i :| 0 <= i < |inner.keys| && inner.keys[i] == n;
    assert TypedBlocks(kind, t, DictVal(inner)).value[i] == Make(kind, TypeNamed(t, n), inner.entries[n]);
  }

  lemma SectionTyped(doc: Dict, kind: Kind)
    requires NestedWf(doc) && kind.Arity() == 2 && kind.Name() in doc.entries
    requires doc.entries[kind.Name()].DictVal?
    ensures NestedWf(doc.entries[kind.Name()].dict) && ChildrenWf(doc.entries[kind.Name()].dict)
    ensures var table := doc.entries[kind.Name()].dict;
            Section(doc, kind.Name()) == TypeTables(kind, table, table.keys)
  {
    NestedWfChild(doc, kind.Name());
    TypedKeyIsNotOther(kind);
  }

  lemma SectionNamed(doc: Dict, kind: Kind)
    requires NestedWf(doc) && kind.Arity() == 1 && kind.Name() in doc.entries
    requires doc.entries[kind.Name()].DictVal?
    ensures NestedWf(doc.entries[kind.Name()].dict)
    ensures var table := doc.entries[kind.Name()].dict;
            Section(doc, kind.Name()) == Ok(NamedBlocks(kind, table, table.keys))
  {
    NestedWfChild(doc, kind.Name());
    NamedKeyIsNotOther(kind);
  }

  /** The key of a `NameBlock` class takes the `NamedKind` branch of `Section`. */
  lemma NamedKeyIsNotOther(kind: Kind)
    requires kind.Arity() == 1
    ensures kind.Name() != "terraform" && kind.Name() != "local"
    ensures NamedKind(kind.Name()) == Some(kind)
  {
  }

  /** The key of a `TypeNameBlock` class takes none of the other branches
      of `Section`. */
  lemma TypedKeyIsNotOther(kind: Kind)
    requires kind.Arity() == 2
    ensures kind.Name() != "terraform" && kind.Name() != "local"
    ensures NamedKind(kind.Name()).None? && TypedKind(kind.Name()) == Some(kind)
  {
  }

  /** The sections of the keys `ks`, concatenated in order; the first
      failing section is the error. */
  function Sections(doc: Dict, ks: seq<string>): (r: Result<seq<Block>>)
    requires NestedWf(doc)
    requires forall k :: k in ks ==> k in doc.entries
    ensures r.Ok? <==> forall k :: k in ks ==> Section(doc, k).Ok?
    ensures r.Ok? ==> forall k, b :: k in ks && b in Section(doc, k).value ==> b in r.value
    ensures r.Ok? ==> forall b :: b in r.value ==> exists k :: k in ks && b in Section(doc, k).value
    decreases |ks|
  {
    if |ks| == 0 then Ok([])
    else
      var here :- Section(doc, ks[0]);
      var rest :- Sections(doc, ks[1..]);
      assert forall k :: k in ks[1..] ==> k in ks;
      assert forall k :: k in ks ==> k == ks[0] || k in ks[1..];
      Ok(here + rest)
  }

  /** The first key's section, then those of the other keys. */
  lemma SectionsCons(doc: Dict, ks: seq<string>)
    requires NestedWf(doc) && |ks| > 0
    requires forall k :: k in ks ==> k in doc.entries
    ensures Sections(doc, ks) == Chain(Section(doc, ks[0]), Sections(doc, ks[1..]))
  {
  }

  /** The sections of a list of keys are those of its first part followed
      by those of the rest; the first failing part is the error. */
  lemma {:induction false} SectionsConcat(doc: Dict, xs: seq<string>, ys: seq<string>)
    requires NestedWf(doc)
    requires forall k :: k in xs ==> k in doc.entries
    requires forall k :: k in ys ==> k in doc.entries
    ensures Sections(doc, xs + ys) == Chain(Sections(doc, xs), Sections(doc, ys))
    decreases |xs|
  {
    if |xs| == 0 {
      assert xs + ys == ys;
      ChainEmpty(Sections(doc, ys));
    } else {
      HeadTailConcat(xs, ys);
      SectionsCons(doc, xs + ys);
      SectionsCons(doc, xs);
      SectionsConcat(doc, xs[1..], ys);
      ChainAssociates(Section(doc, xs[0]), Sections(doc, xs[1..]), Sections(doc, ys));
    }
  }

  /** One key alone gives exactly its section, or its error. */
  lemma SectionsOfOne(doc: Dict, k: string)
    requires NestedWf(doc) && k in doc.entries
    ensures Sections(doc, [k]) == Section(doc, k)
  {
    assert [k][1..] == [];
    assert [k][0] == k;
    SectionsCons(doc, [k]);
    if Section(doc, k).Ok? {
      assert Section(doc, k).value + [] == Section(doc, k).value;
    }
  }

  /** The error is that of the first key whose section cannot be built. */
  lemma {:induction false} SectionsFirstFailure(doc: Dict, ks: seq<string>, i: nat)
    requires NestedWf(doc)
    requires forall k :: k in ks ==> k in doc.entries
    requires i < |ks| && Section(doc, ks[i]).Err?
    requires forall j :: 0 <= j < i ==> Section(doc, ks[j]).Ok?
    ensures Sections(doc, ks) == Err(Section(doc, ks[i]).error)
    decreases i
  {
    if i > 0 {
      var rest := ks[1..];
      forall j | 0 <= j < i - 1
        ensures Section(doc, rest[j]).Ok?
      {
        assert rest[j] == ks[j + 1];
      }
      assert rest[i - 1] == ks[i];
      SectionsFirstFailure(doc, rest, i - 1);
      SectionsCons(doc, ks);
    }
  }

  /** `many_from_hcl` returns the blocks of the sections before the `i`-th
      key of the document, then that key's, then those after it; the first
      failing section is the error. */
  lemma ManyFromHclInOrder(doc: Dict, i: nat)
    requires NestedWf(doc) && i < |doc.keys|
    ensures ManyFromHcl(doc)
            == Chain(Sections(doc, doc.keys[..i]),
                     Chain(Section(doc, doc.keys[i]), Sections(doc, doc.keys[i + 1..])))
  {
    var ks := doc.keys;
    assert ks == ks[..i] + ([ks[i]] + ks[i + 1..]);
    SectionsOfOne(doc, ks[i]);
    SectionsConcat(doc, [ks[i]], ks[i + 1..]);
    SectionsConcat(doc, ks[..i], [ks[i]] + ks[i + 1..]);
  }

  /** `many_from_hcl` on the parsed document: the sections of its keys in
      the document's order. */
  function ManyFromHcl(doc: Dict): (r: Result<seq<Block>>)
    requires NestedWf(doc)
    ensures r.Ok? <==> forall k :: k in doc.keys ==> Section(doc, k).Ok?
    ensures r.Ok? ==> forall b :: b in r.value ==> FromDoc(doc, b)
    ensures r.Ok? ==>
              forall kind: Kind, id: Identity ::
                && Fits(kind, id) && kind != LocalsKind
                && At(DictVal(doc), StoragePath(kind, id)).Some?
                ==> Make(kind, id, At(DictVal(doc), StoragePath(kind, id)).value) in r.value
  {
    var r := Sections(doc, doc.keys);
    ManyFromHclExact(doc, r);
    r
  }

  lemma ManyFromHclExact(doc: Dict, r: Result<seq<Block>>)
    requires NestedWf(doc) && r == Sections(doc, doc.keys)
    ensures r.Ok? ==> forall b :: b in r.value ==> FromDoc(doc, b)
    ensures r.Ok? ==>
              forall kind: Kind, id: Identity ::
                && Fits(kind, id) && kind != LocalsKind
                && At(DictVal(doc), StoragePath(kind, id)).Some?
                ==> Make(kind, id, At(DictVal(doc), StoragePath(kind, id)).value) in r.value
  {
    if r.Ok? {
      ManyFromHclSound(doc, r.value);
      ManyFromHclComplete(doc, r.value);
    }
  }

  lemma ManyFromHclSound(doc: Dict, blocks: seq<Block>)
    requires NestedWf(doc) && Sections(doc, doc.keys) == Ok(blocks)
    ensures forall b :: b in blocks ==> FromDoc(doc, b)
  {
    forall k | k in doc.keys
      ensures forall b :: b in Section(doc, k).value ==> FromDoc(doc, b)
    {
      SectionSound(doc, k);
    }
  }

  lemma ManyFromHclComplete(doc: Dict, blocks: seq<Block>)
    requires NestedWf(doc) && Sections(doc, doc.keys) == Ok(blocks)
    ensures forall kind: Kind, id: Identity ::
              && Fits(kind, id) && kind != LocalsKind
              && At(DictVal(doc), StoragePath(kind, id)).Some?
              ==> Make(kind, id, At(DictVal(doc), StoragePath(kind, id)).value) in blocks
  {
    forall kind: Kind, id: Identity |
      && Fits(kind, id) && kind != LocalsKind
      && At(DictVal(doc), StoragePath(kind, id)).Some?
      ensures Make(kind, id, At(DictVal(doc), StoragePath(kind, id)).value) in blocks
    {
      var key := kind.Name();
      assert key in doc.entries by {
        assert StoragePath(kind, id)[0] == key;
      }
      assert key in doc.keys;
      SectionCovers(doc, key);
    }
  }

  /** A named or typed table that is not a dict makes the whole conversion
      fail. */
  lemma NonDictTableFails(doc: Dict, key: string)
    requires NestedWf(doc) && key in doc.entries && !doc.entries[key].DictVal?
    requires NamedKind(key).Some? || TypedKind(key).Some? || key == "local"
    ensures ManyFromHcl(doc).Err?
  {
    assert Section(doc, key).Err?;
    assert key in doc.keys;
  }

  /** Any entry under `local` makes the whole conversion fail. */
  lemma LocalEntryFails(doc: Dict)
    requires NestedWf(doc) && "local" in doc.entries && doc.entries["local"].DictVal?
    requires doc.entries["local"].dict.keys != []
    ensures ManyFromHcl(doc).Err?
  {
    assert "local" in doc.keys;
  }

  /** `from_hcl`: the one block the document describes, or an error when it
      describes none or several. */
  function FromHcl(doc: Dict): (r: Result<Block>)
    requires NestedWf(doc)
    ensures r.Ok? <==> ManyFromHcl(doc).Ok? && |ManyFromHcl(doc).value| == 1
    ensures r.Ok? ==> FromDoc(doc, r.value)
  {
    var blocks :- ManyFromHcl(doc);
    if |blocks| == 1 then Ok(blocks[0])
    else Err(Raised("Expected exactly one block when using `from_hcl`"))
  }

  /** `from_hcl` of `resource "t" "n" { ... }` is that resource. */
  lemma FromHclResource(t: string, n: string, body: Dict)
    requires NestedWf(body)
    ensures var doc := Single("resource", DictVal(Single(t, DictVal(Single(n, DictVal(body))))));
            NestedWf(doc) && FromHcl(doc) == Ok(Make(ResourceKind, TypeNamed(t, n), DictVal(body)))
  {
    var inner := Single(n, DictVal(body));
    var table := Single(t, DictVal(inner));
    var doc := Single("resource", DictVal(table));
    NestedWfSingle(n, DictVal(body));
    NestedWfSingle(t, DictVal(inner));
    NestedWfSingle("resource", DictVal(table));
    SectionTyped(doc, ResourceKind);
    TypeTablesOne(ResourceKind, table, t);
    TypedSingle(ResourceKind, t, n, DictVal(body));
    SectionsOne(doc, "resource");
  }

  lemma NestedWfSingle(k: string, v: Value)
    requires v.DictVal? ==> NestedWf(v.dict)
    ensures NestedWf(Single(k, v))
  {
  }

  /** A `resource`/`data` type table with one name gives one block. */
  lemma TypedSingle(kind: Kind, t: string, n: string, body: Value)
    requires kind.Arity() == 2
    ensures TypedBlocks(kind, t, DictVal(Single(n, body))) == Ok([Make(kind, TypeNamed(t, n), body)])
  {
    var r := TypedBlocks(kind, t, DictVal(Single(n, body)));
    assert Single(n, body).keys == [n];
    assert r.Ok? && |r.value| == 1;
    assert r.value[0] == Make(kind, TypeNamed(t, n), body);
    assert r.value == [r.value[0]];
  }

  lemma TypeTablesOne(kind: Kind, table: Dict, t: string)
    requires kind.Arity() == 2 && ChildrenWf(table) && t in table.entries
    ensures TypeTables(kind, table, [t]) == TypedBlocks(kind, t, table.entries[t])
  {
    assert [t][1..] == [];
    var r := TypedBlocks(kind, t, table.entries[t]);
    if r.Ok? {
      assert r.value + [] == r.value;
    }
  }

  lemma SectionsOne(doc: Dict, key: string)
    requires NestedWf(doc) && key in doc.entries
    ensures Sections(doc, [key]) == Section(doc, key)
  {
    assert [key][1..] == [];
    var r := Section(doc, key);
    if r.Ok? {
      assert r.value + [] == r.value;
    }
  }

  /** The storage paths of the blocks pairwise diverge. */
  predicate Apart(blocks: seq<Block>) {
    forall i, j :: 0 <= i < j < |blocks| ==>
      Diverge(StoragePath(blocks[i].kind, blocks[i].id), StoragePath(blocks[j].kind, blocks[j].id))
  }

  lemma ApartConcat(xs: seq<Block>, ys: seq<Block>)
    requires Apart(xs) && Apart(ys)
    requires forall x, y :: x in xs && y in ys ==>
               Diverge(StoragePath(x.kind, x.id), StoragePath(y.kind, y.id))
    ensures Apart(xs + ys)
  {
    var zs := xs + ys;
    forall i, j | 0 <= i < j < |zs|
      ensures Diverge(StoragePath(zs[i].kind, zs[i].id), StoragePath(zs[j].kind, zs[j].id))
    {
      if j < |xs| {
        assert zs[i] == xs[i] && zs[j] == xs[j];
      } else if i >= |xs| {
        assert zs[i] == ys[i - |xs|] && zs[j] == ys[j - |xs|];
      } else {
        assert zs[i] in xs && zs[j] in ys;
      }
    }
  }

  /** Paths that differ in their second step diverge. */
  lemma DivergeAtSecond(p: seq<string>, q: seq<string>)
    requires |p| > 1 && |q| > 1 && p[0] == q[0] && p[1] != q[1]
    ensures Diverge(p, q)
  {
    assert p[1..][0] == p[1] && q[1..][0] == q[1];
  }

  /** Blocks of one `TypeNameBlock` class with different types are stored
      apart. */
  lemma TypesDiverge(x: Block, y: Block)
    requires x.kind == y.kind && x.id.TypeNamed? && y.id.TypeNamed? && x.id.typ != y.id.typ
    ensures Diverge(StoragePath(x.kind, x.id), StoragePath(y.kind, y.id))
  {
    DivergeAtSecond(StoragePath(x.kind, x.id), StoragePath(y.kind, y.id));
  }

  /** Paths that differ in their third step, after the same two, diverge. */
  lemma DivergeAtThird(p: seq<string>, q: seq<string>)
    requires |p| > 2 && |q| > 2 && p[0] == q[0] && p[1] == q[1] && p[2] != q[2]
    ensures Diverge(p, q)
  {
    DivergeAtSecond(p[1..], q[1..]);
  }

  lemma NamedApart(kind: Kind, table: Dict, names: seq<string>)
    requires kind.Arity() == 1 && NoDuplicates(names)
    requires forall n :: n in names ==> n in table.entries
    ensures Apart(NamedBlocks(kind, table, names))
  {
    var r := NamedBlocks(kind, table, names);
    forall i, j | 0 <= i < j < |r|
      ensures Diverge(StoragePath(r[i].kind, r[i].id), StoragePath(r[j].kind, r[j].id))
    {
      DivergeAtSecond(StoragePath(r[i].kind, r[i].id), StoragePath(r[j].kind, r[j].id));
    }
  }

  lemma TypedApart(kind: Kind, t: string, v: Value)
    requires kind.Arity() == 2 && (v.DictVal? ==> v.dict.Wf())
    ensures TypedBlocks(kind, t, v).Ok? ==>
              && Apart(TypedBlocks(kind, t, v).value)
              && forall b :: b in TypedBlocks(kind, t, v).value ==>
                   b.kind == kind && b.id.TypeNamed? && b.id.typ == t
  {
    if v.DictVal? {
      var r := TypedBlocks(kind, t, v).value;
      forall i, j | 0 <= i < j < |r|
        ensures Diverge(StoragePath(r[i].kind, r[i].id), StoragePath(r[j].kind, r[j].id))
      {
        DivergeAtThird(StoragePath(r[i].kind, r[i].id), StoragePath(r[j].kind, r[j].id));
      }
    }
  }

  lemma {:induction false} TypeTablesApart(kind: Kind, table: Dict, types: seq<string>)
    requires kind.Arity() == 2 && ChildrenWf(table) && NoDuplicates(types)
    requires forall t :: t in types ==> t in table.entries
    ensures TypeTables(kind, table, types).Ok? ==>
              && Apart(TypeTables(kind, table, types).value)
              && forall b :: b in TypeTables(kind, table, types).value ==>
                   b.kind == kind && b.id.TypeNamed? && b.id.typ in types
    decreases |types|
  {
    var r := TypeTables(kind, table, types);
    if |types| > 0 && r.Ok? {
      var t := types[0];
      var here := TypedBlocks(kind, t, table.entries[t]).value;
      assert forall u :: u in types[1..] ==> u in types;
      TypeTablesApart(kind, table, types[1..]);
      var rest := TypeTables(kind, table, types[1..]).value;
      assert r.value == here + rest;
      TypedApart(kind, t, table.entries[t]);
      assert t !in types[1..];
      forall x, y | x in here && y in rest
        ensures Diverge(StoragePath(x.kind, x.id), StoragePath(y.kind, y.id))
      {
        assert x.id.typ == t && y.id.typ in types[1..];
        TypesDiverge(x, y);
      }
      ApartConcat(here, rest);
    }
  }

  lemma SectionApart(doc: Dict, key: string)
    requires NestedWf(doc) && key in doc.entries
    ensures Section(doc, key).Ok? ==> Apart(Section(doc, key).value)
  {
    var v := doc.entries[key];
    if Section(doc, key).Ok? && key != "terraform" && key != "local" && v.DictVal? {
      NestedWfChild(doc, key);
      if NamedKind(key).Some? {
        NamedApart(NamedKind(key).value, v.dict, v.dict.keys);
      } else if TypedKind(key).Some? {
        TypeTablesApart(TypedKind(key).value, v.dict, v.dict.keys);
      }
    }
  }

  lemma {:induction false} SectionsApart(doc: Dict, ks: seq<string>)
    requires NestedWf(doc) && NoDuplicates(ks)
    requires forall k :: k in ks ==> k in doc.entries
    ensures Sections(doc, ks).Ok? ==> Apart(Sections(doc, ks).value)
    decreases |ks|
  {
    var r := Sections(doc, ks);
    if |ks| > 0 && r.Ok? {
      var k := ks[0];
      var here := Section(doc, k).value;
      assert forall u :: u in ks[1..] ==> u in ks;
      SectionsApart(doc, ks[1..]);
      var rest := Sections(doc, ks[1..]).value;
      assert r.value == here + rest;
      SectionApart(doc, k);
      SectionSound(doc, k);
      assert k !in ks[1..];
      forall x, y | x in here && y in rest
        ensures Diverge(StoragePath(x.kind, x.id), StoragePath(y.kind, y.id))
      {
        var k2 :| k2 in ks[1..] && y in Section(doc, k2).value;
        SectionSound(doc, k2);
      }
      ApartConcat(here, rest);
    }
  }

  /** Adding the blocks `many_from_hcl` returns to an empty context rebuilds
      the document: every body the document holds at a block's storage path
      is back at that path (a falsy body as `{}`). */
  lemma HclRebuild(doc: Dict, input: Value, output: Option<Value>)
    requires NestedWf(doc) && ManyFromHcl(doc).Ok?
    ensures Add(Context(input, output, DictVal(Empty())), ManyFromHcl(doc).value).Ok?
    ensures forall kind: Kind, id: Identity ::
              && Fits(kind, id) && kind != LocalsKind
              && At(DictVal(doc), StoragePath(kind, id)).Some?
              ==> At(Add(Context(input, output, DictVal(Empty())), ManyFromHcl(doc).value).value.data,
                     StoragePath(kind, id))
                  == Some(OrEmpty(At(DictVal(doc), StoragePath(kind, id)).value))
  {
    var blocks := ManyFromHcl(doc).value;
    var c := Context(input, output, DictVal(Empty()));
    SectionsApart(doc, doc.keys);
    forall i | 0 <= i < |blocks|
      ensures Shaped(blocks[i]) && At(c.data, StoragePath(blocks[i].kind, blocks[i].id)).None?
    {
      assert FromDoc(doc, blocks[i]);
      MadeIsShaped(blocks[i].kind, blocks[i].id, At(DictVal(doc), StoragePath(blocks[i].kind, blocks[i].id)).value);
    }
    AddedBodiesFound(c, blocks);
    forall kind: Kind, id: Identity |
      && Fits(kind, id) && kind != LocalsKind
      && At(DictVal(doc), StoragePath(kind, id)).Some?
      ensures At(Add(c, blocks).value.data, StoragePath(kind, id))
              == Some(OrEmpty(At(DictVal(doc), StoragePath(kind, id)).value))
    {
      var b := Make(kind, id, At(DictVal(doc), StoragePath(kind, id)).value);
      assert b in blocks;
      var i :| 0 <= i < |blocks| && blocks[i] == b;
    }
  }
}

=== FILE: tree.dfy ===
/** The JSON-like object trees every part of the system works on.

    A Python `dict` is modelled as `Dict`: the keys in insertion order plus the
    mapping itself. Python compares dicts without regard to order; the model's
    `==` also compares the order, so every equality it proves is the stronger one. */
module Tree {
  import opened Wrappers

  /** A pathlib path: its anchor ("" when relative, "/" when absolute) and the
      components after it, already normalised (no empty or "." components). */
  datatype Path = Path(anchor: string, parts: seq<string>) {

    /** `Path.name`: the last component, "" for a bare anchor or ".". */
    function Name(): string {
      if |parts| == 0 then "" else parts[|parts| - 1]
    }

    /** `str(path)` for a POSIX path. */
    function Text(): string {
      if anchor == "" && |parts| == 0 then "." else anchor + Join(parts)
    }
  }

  function Join(parts: seq<string>): string {
    if |parts| == 0 then ""
    else if |parts| == 1 then parts[0]
    else parts[0] + "/" + Join(parts[1..])
  }

  /** The Python objects that appear in configuration trees. `ConfigObj` is a
      nested `engine.Config` holding `config` as its data; `DataObj` is a nested
      `kubernetes.Data` (or subclass) holding `data`. */
  datatype Value =
    | Null
    | Bool(b: bool)
    | Int(i: int)
    | Str(s: string)
    | PathVal(path: Path)
    | List(items: seq<Value>)
    | Tuple(items: seq<Value>)
    | DictVal(dict: Dict)
    | ConfigObj(config: Value)
    | DataObj(data: Value)

  datatype Dict = Dict(keys: seq<string>, entries: map<string, Value>) {

    /** What every Python dict satisfies: each key listed once, and exactly the
        keys of the mapping. */
    predicate Wf() {
      && NoDuplicates(keys)
      && (forall k :: k in keys ==> k in entries)
      && (forall k :: k in entries ==> k in keys)
    }

    function GetOr(k: string, default: Value): Value {
      if k in entries then entries[k] else default
    }

    /** `d[k] = v`: a new key goes last, an existing key keeps its place. */
    function Put(k: string, v: Value): (r: Dict)
      ensures r.entries == entries[k := v]
      ensures forall j :: j in keys ==> j in r.keys
      ensures |r.keys| == |keys| + (if k in entries then 0 else 1)
      ensures forall i :: 0 <= i < |keys| ==> r.keys[i] == keys[i]
      ensures k !in entries ==> r.keys[|keys|] == k
      ensures Wf() ==> r.Wf()
    {
      if k in entries then Dict(keys, entries[k := v])
      else Dict(keys + [k], entries[k := v])
    }

    /** `del d[k]` when `k` is present. */
    function Remove(k: string): (r: Dict)
      ensures r.entries == entries - {k}
      ensures k !in r.keys
      ensures Wf() ==> r.Wf()
    {
      Dict(Absent(keys, {k}), entries - {k})
    }
  }

  function Empty(): (r: Dict)
    ensures r.Wf() && r.entries == map[]
  {
    Dict([], map[])
  }

  /** The one-entry dict `{k: v}`. */
  function Single(k: string, v: Value): (r: Dict)
    ensures r.Wf() && r.entries == map[k := v]
  {
    Dict([k], map[k := v])
  }

  predicate NoDuplicates(s: seq<string>) {
    forall i, j :: 0 <= i < j < |s| ==> s[i] != s[j]
  }

  /** Two duplicate-free sequences with no common element concatenate into one. */
  lemma NoDuplicatesConcat(s: seq<string>, t: seq<string>)
    requires NoDuplicates(s) && NoDuplicates(t)
    requires forall x :: x in s ==> x !in t
    ensures NoDuplicates(s + t)
  {
    forall i, j | 0 <= i < j < |s + t|
      ensures (s + t)[i] != (s + t)[j]
    {
      if j < |s| {
      } else if i >= |s| {
        assert (s + t)[i] == t[i - |s|] && (s + t)[j] == t[j - |s|];
      } else {
        assert (s + t)[i] in s && (s + t)[j] == t[j - |s|];
      }
    }
  }

  /** The elements of `ks` that are not in `present`, in their order. */
  function Absent(ks: seq<string>, present: set<string>): (r: seq<string>)
    ensures forall x :: x in r <==> x in ks && x !in present
    ensures NoDuplicates(ks) ==> NoDuplicates(r)
    ensures (forall x :: x in ks ==> x !in present) ==> r == ks
    ensures (forall x :: x in ks ==> x in present) ==> r == []
  {
    if |ks| == 0 then []
    else
      var rest := Absent(ks[1..], present);
      NoDuplicatesTail(ks);
      if ks[0] in present then rest
      else
        NoDuplicatesCons(ks[0], rest);
        assert (forall x :: x in ks ==> x !in present) ==> [ks[0]] + rest == ks;
        [ks[0]] + rest
  }

  /** A non-empty sequence is its first element followed by its tail. */
  lemma HeadTail<T>(s: seq<T>)
    requires |s| > 0
    ensures [s[0]] + s[1..] == s
  {
  }

  /** Concatenation after a non-empty prefix starts with the prefix's head. */
  lemma HeadTailConcat<T>(xs: seq<T>, zs: seq<T>)
    requires |xs| > 0
    ensures (xs + zs)[0] == xs[0] && (xs + zs)[1..] == xs[1..] + zs
    ensures [xs[0]] + (xs[1..] + zs) == xs + zs
  {
  }

  /** Splitting off the first element: the tail holds the other elements,
      and a duplicate-free sequence's first element is not in its tail. */
  lemma NoDuplicatesTail(ks: seq<string>)
    requires |ks| > 0
    ensures ks == [ks[0]] + ks[1..]
    ensures forall x :: x in ks <==> x == ks[0] || x in ks[1..]
    ensures NoDuplicates(ks) ==> NoDuplicates(ks[1..]) && ks[0] !in ks[1..]
  {
    if NoDuplicates(ks) {
      forall i, j | 0 <= i < j < |ks[1..]|
        ensures ks[1..][i] != ks[1..][j]
      {
        assert ks[1..][i] == ks[i + 1] && ks[1..][j] == ks[j + 1];
      }
      forall j | 0 <= j < |ks[1..]|
        ensures ks[1..][j] != ks[0]
      {
        assert ks[1..][j] == ks[j + 1];
      }
    }
  }

  /** Putting an element in front of a sequence that lacks it. */
  lemma NoDuplicatesCons(x: string, s: seq<string>)
    ensures NoDuplicates(s) && x !in s ==> NoDuplicates([x] + s)
  {
    if NoDuplicates(s) && x !in s {
      forall i, j | 0 <= i < j < |[x] + s|
        ensures ([x] + s)[i] != ([x] + s)[j]
      {
        assert ([x] + s)[j] == s[j - 1];
        if i > 0 {
          assert ([x] + s)[i] == s[i - 1];
        }
      }
    }
  }

  /** Python truthiness, which decides `body or {}`. Paths and wrapper
      objects define neither `__bool__` nor `__len__`, so they are true. */
  predicate Truthy(v: Value) {
    match v
    case Null => false
    case Bool(b) => b
    case Int(i) => i != 0
    case Str(s) => s != ""
    case List(xs) => xs != []
    case Tuple(xs) => xs != []
    case DictVal(d) => d.entries != map[]
    case PathVal(_) => true
    case ConfigObj(_) => true
    case DataObj(_) => true
  }

  /** `v[p0][p1]...`: the value reached by indexing dicts along `path`, or
      None when some step is missing or is not a dict. */
  function At(v: Value, path: seq<string>): Option<Value>
    decreases |path|
  {
    if |path| == 0 then Some(v)
    else if v.DictVal? && path[0] in v.dict.entries then At(v.dict.entries[path[0]], path[1..])
    else None
  }

  /** Every dict reachable from `d` through dicts is well formed. */
  predicate NestedWf(d: Dict)
    decreases d
  {
    d.Wf() && forall k :: k in d.entries && d.entries[k].DictVal? ==> NestedWf(d.entries[k].dict)
  }

  /** The bindings of `e` for the keys `ks`. */
  function Restrict(e: Dict, ks: seq<string>): map<string, Value> {
    map k | k in ks && k in e.entries :: e.entries[k]
  }

  lemma RestrictCons(e: Dict, ks: seq<string>)
    requires |ks| > 0
    ensures Restrict(e, ks) == Restrict(e, [ks[0]]) + Restrict(e, ks[1..])
  {
    var l, r := Restrict(e, ks), Restrict(e, [ks[0]]) + Restrict(e, ks[1..]);
    assert forall k :: k in ks <==> k == ks[0] || k in ks[1..];
    assert l.Keys == r.Keys;
  }

  /** `for k in ks: d[k] = e[k]`, one key at a time. */
  function PutEach(d: Dict, e: Dict, ks: seq<string>): (r: Dict)
    decreases |ks|
    ensures r.entries == d.entries + Restrict(e, ks)
    ensures d.Wf() ==> r.Wf()
  {
    if |ks| == 0 then d
    else
      var next := if ks[0] in e.entries then d.Put(ks[0], e.entries[ks[0]]) else d;
      PutHead(d, e, ks, next);
      PutEach(next, e, ks[1..])
  }

  /** Storing the first key, then the rest, stores all of `ks`. */
  lemma PutHead(d: Dict, e: Dict, ks: seq<string>, next: Dict)
    requires |ks| > 0
    requires next.entries == d.entries + Restrict(e, [ks[0]])
    ensures next.entries + Restrict(e, ks[1..]) == d.entries + Restrict(e, ks)
  {
    RestrictCons(e, ks);
    UnionAssoc(d.entries, Restrict(e, [ks[0]]), Restrict(e, ks[1..]));
  }

  lemma UnionAssoc(a: map<string, Value>, b: map<string, Value>, c: map<string, Value>)
    ensures a + b + c == a + (b + c)
  {
  }

  /** `for k, v in e.items(): d[k] = v`: every binding of `e` overrides `d`. */
  function Overlay(d: Dict, e: Dict): (r: Dict)
    ensures e.Wf() ==> r.entries == d.entries + e.entries
    ensures d.Wf() ==> r.Wf()
  {
    var r := PutEach(d, e, e.keys);
    assert e.Wf() ==> Restrict(e, e.keys) == e.entries;
    r
  }
}

=== FILE: values.dfy ===
/** `p10s/values.py`: the `Values` mapping, the global store with its
    `values(...)` scope, `value`, `set_value`, and the merge fold of
    `Values.from_files`. */
module ValueStore {
  import opened Wrappers
  import opened Tree
  import opened Scopes
  import Merge

  /** A `Values` object: a mutable mapping over the dict `values`. */
  datatype Values = Values(values: Dict) {

    /** `v[k]`. */
    function GetItem(k: string): (r: Result<Value>)
      ensures r.Ok? <==> k in values.entries
      ensures r.Ok? ==> r.value == values.entries[k]
    {
      if k in values.entries then Ok(values.entries[k]) else Err(KeyMissing(k))
    }

    /** `v[k] = x` (and `set_value`, which does the same). */
    function SetItem(k: string, x: Value): (r: Values)
      ensures r.GetItem(k) == Ok(x)
      ensures forall j :: j != k ==> r.GetItem(j) == GetItem(j)
      ensures r.Len() == if k in values.entries then Len() else Len() + 1
    {
      Values(values.Put(k, x))
    }

    /** `del v[k]`. */
    function DelItem(k: string): (r: Result<Values>)
      ensures r.Ok? <==> k in values.entries
      ensures r.Ok? ==> r.value.GetItem(k).Err? && r.value.Len() + 1 == Len()
      ensures r.Ok? ==> forall j :: j != k ==> r.value.GetItem(j) == GetItem(j)
    {
      if k in values.entries then Ok(Values(values.Remove(k))) else Err(KeyMissing(k))
    }

    /** `len(v)`: the number of keys. */
    function Len(): nat {
      |values.entries|
    }

    /** `iter(v)`: the keys in insertion order. */
    function Keys(): seq<string> {
      values.keys
    }

    /** `get_value(k, default)`: never fails. */
    function GetValue(k: string, default: Value): (r: Value)
      ensures k in values.entries ==> r == values.entries[k]
      ensures k !in values.entries ==> r == default
    {
      values.GetOr(k, default)
    }
  }

  /** The positional dicts of `values(*args)`, applied in order: the bindings a
      later dict makes win over an earlier one's. */
  function Bindings(args: seq<Value>): map<string, Value>
    decreases |args|
  {
    if |args| == 0 then map[]
    else
      var last := args[|args| - 1];
      Bindings(args[..|args| - 1]) + (if last.DictVal? then last.dict.entries else map[])
  }

  /** `for d in args: for k, v in d.items(): new.set_value(k, v)`; each `d`
      needs `.items()`, so a non-dict raises before the store is replaced. */
  function ApplyArgs(d: Dict, args: seq<Value>): (r: Result<Dict>)
    decreases |args|
    ensures r.Ok? <==> forall i :: 0 <= i < |args| ==> args[i].DictVal?
    ensures r.Ok? && d.Wf() ==> r.value.Wf()
  {
    if |args| == 0 then Ok(d)
    else
      var init := args[..|args| - 1];
      var last := args[|args| - 1];
      var prefix := ApplyArgs(d, init);
      assert forall i :: 0 <= i < |init| ==> init[i] == args[i];
      if prefix.Err? then Err(prefix.error)
      else if last.DictVal? then Ok(Overlay(prefix.value, last.dict))
      else Err(AttributeMissing("items"))
  }

  /** Applying the positional dicts binds exactly `Bindings(args)` over the
      copied store: a later dict wins over an earlier one and over the store. */
  lemma {:induction false} ApplyArgsBinds(d: Dict, args: seq<Value>)
    requires forall i :: 0 <= i < |args| ==> args[i].DictVal? && args[i].dict.Wf()
    ensures ApplyArgs(d, args).Ok?
    ensures ApplyArgs(d, args).value.entries == d.entries + Bindings(args)
    decreases |args|
  {
    if |args| > 0 {
      var init := args[..|args| - 1];
      var last := args[|args| - 1];
      assert forall i :: 0 <= i < |init| ==> init[i] == args[i];
      ApplyArgsBinds(d, init);
      var prefix := ApplyArgs(d, init).value;
      assert ApplyArgs(d, args) == Ok(Overlay(prefix, last.dict));
      UnionAssoc(d.entries, Bindings(init), last.dict.entries);
    }
  }

  /** Entering `with values(*args, **kwargs)`: the current store is deep-copied
      (a copy is the same value here), the positional dicts are applied in
      order and the keyword pairs last; the copy becomes current. */
  function Enter(s: Stack, args: seq<Value>, kwargs: Dict): (r: Result<Stack>)
    ensures r.Ok? <==> forall i :: 0 <= i < |args| ==> args[i].DictVal?
    ensures r.Ok? ==> r.value.saved == s.saved + [s.current]
  {
    var applied :- ApplyArgs(s.current, args);
    Ok(s.Push(Overlay(applied, kwargs)))
  }

  /** Inside the scope a key is bound to its keyword value if it has one, else
      to its value in the last positional dict holding it, else to its value in
      the enclosing store. */
  lemma EnterBinds(s: Stack, args: seq<Value>, kwargs: Dict)
    requires kwargs.Wf()
    requires forall i :: 0 <= i < |args| ==> args[i].DictVal? && args[i].dict.Wf()
    ensures Enter(s, args, kwargs).Ok?
    ensures Enter(s, args, kwargs).value.current.entries
            == s.current.entries + Bindings(args) + kwargs.entries
  {
    ApplyArgsBinds(s.current, args);
  }

  /** `value(key, default)`: the bound value or `default`; never raises. */
  function ValueOf(s: Stack, k: string, default: Value): (r: Value)
    ensures k in s.current.entries ==> r == s.current.entries[k]
    ensures k !in s.current.entries ==> r == default
  {
    Values(s.current).GetValue(k, default)
  }

  /** `set_value(k, v)`: assigns in the current store only and returns `v`. */
  function SetValue(s: Stack, k: string, v: Value): (r: (Stack, Value))
    ensures r.1 == v
    ensures ValueOf(r.0, k, Null) == v
    ensures r.0.saved == s.saved
    ensures forall j :: j != k ==> ValueOf(r.0, j, Null) == ValueOf(s, j, Null)
  {
    (Stack(Values(s.current).SetItem(k, v).values, s.saved), v)
  }

  /** `use_values(v)`: replaces the current store. */
  function UseValues(s: Stack, v: Values): (r: Stack)
    ensures r.current == v.values && r.saved == s.saved
  {
    Stack(v.values, s.saved)
  }

  /** Leaving a scope normally restores exactly the store that was current
      when it was entered, whatever was writes inside it. */
  lemma {:induction false} AssignmentsInsideScopeAreForgotten(
    s: Stack, args: seq<Value>, kwargs: Dict, writes: seq<(string, Value)>)
    requires Enter(s, args, kwargs).Ok?
    ensures SetAll(Enter(s, args, kwargs).value, writes).Exit(false) == s
  {
    var inner := Enter(s, args, kwargs).value;
    var done := SetAll(inner, writes);
    assert done.saved == s.saved + [s.current];
    assert done.saved[..|done.saved| - 1] == s.saved;
  }

  /** A sequence of `set_value` calls. */
  function SetAll(s: Stack, writes: seq<(string, Value)>): (r: Stack)
    decreases |writes|
    ensures r.saved == s.saved
  {
    if |writes| == 0 then s
    else SetAll(SetValue(s, writes[0].0, writes[0].1).0, writes[1..])
  }

  /** A keyword binding shadows the enclosing scope and is gone after exit:
      `foo=top` outside, `foo=bottom` inside. */
  lemma NestedScopeShadows(s: Stack, k: string, outer: Value, inner: Value)
    ensures
      var top := Enter(s, [], Single(k, outer)).value;
      var bottom := Enter(top, [], Single(k, inner)).value;
      && ValueOf(bottom, k, Null) == inner
      && ValueOf(bottom.Exit(false), k, Null) == outer
  {
  }

  /** Because there is no try/finally, an exception inside the scope leaves
      the scope's bindings visible afterwards. */
  lemma ExceptionLeaksScope(s: Stack, k: string, v: Value)
    requires k !in s.current.entries
    ensures
      var inner := Enter(s, [], Single(k, v)).value;
      && ValueOf(inner.Exit(true), k, Null) == v
      && ValueOf(s, k, Null) == Null
  {
  }

  /** The values files in the order `from_files` merges them: the walk starts
      at `basedir` (`chain[0]`) and goes up, inserting each file found at the
      front, so the outermost file comes first and `basedir`'s last. */
  function Collected(chain: seq<Option<Value>>): (r: seq<Value>)
    // exactly the files found, ...
    ensures forall x :: x in r ==> Some(x) in chain
    ensures forall i :: 0 <= i < |chain| && chain[i].Some? ==> chain[i].value in r
    ensures |r| <= |chain|
    // ... with `basedir`'s own file merged last
    ensures |chain| > 0 && chain[0].Some? ==> |r| > 0 && r[|r| - 1] == chain[0].value
    decreases |chain|
  {
    if |chain| == 0 then []
    else
      var last := chain[|chain| - 1];
      (if last.Some? then [last.value] else []) + Collected(chain[..|chain| - 1])
  }

  /** `for file in values_files: merge_dicts(values, load_file(file))`. */
  function MergeFiles(acc: Dict, files: seq<Value>): Result<Dict>
    decreases |files|
  {
    if |files| == 0 then Ok(acc)
    else
      var next :- Merge.MergeValues(DictVal(acc), files[0]);
      MergeFiles(next.dict, files[1..])
  }

  /** `Values.from_files(basedir)` over the already-loaded files met on the
      walk from `basedir` upwards (`None` where a directory has none). */
  method FromFiles(chain: seq<Option<Value>>) returns (r: Result<Values>)
    ensures r.Ok? <==> MergeFiles(Empty(), Collected(chain)).Ok?
    ensures r.Ok? ==> r.value == Values(MergeFiles(Empty(), Collected(chain)).value)
  {
    var files: seq<Value> := [];
    var i := 0;
    while i < |chain|
      invariant 0 <= i <= |chain|
      invariant files == Collected(chain[..i])
    {
      assert chain[..i + 1][..i] == chain[..i];
      if chain[i].Some? {
        files := [chain[i].value] + files;
      }
      i := i + 1;
    }
    assert chain[..|chain|] == chain;
    var acc := Empty();
    var j := 0;
    while j < |files|
      invariant 0 <= j <= |files|
      invariant MergeFiles(Empty(), files) == MergeFiles(acc, files[j..])
    {
      var next := Merge.MergeValues(DictVal(acc), files[j]);
      if next.Err? {
        return Err(next.error);
      }
      assert files[j..][1..] == files[j + 1..];
      acc := next.value.dict;
      j := j + 1;
    }
    return Ok(Values(acc));
  }

  /** Merging the first file and then the rest. */
  lemma MergeFilesStep(acc: Dict, files: seq<Value>)
    requires |files| > 0 && files[0].DictVal?
    ensures MergeFiles(acc, files) == MergeFiles(Merge.MergeInto(acc, files[0].dict), files[1..])
  {
    assert Merge.MergeValues(DictVal(acc), files[0]) == Ok(DictVal(Merge.MergeInto(acc, files[0].dict)));
  }

  /** The file closest to `basedir` wins on every leaf it sets. */
  lemma {:induction false} LastFileWins(acc: Dict, files: seq<Value>, path: seq<string>, v: Value)
    requires |files| > 0 && forall i :: 0 <= i < |files| ==> files[i].DictVal?
    requires At(files[|files| - 1], path) == Some(v) && !v.DictVal?
    ensures MergeFiles(acc, files).Ok? && At(DictVal(MergeFiles(acc, files).value), path) == Some(v)
    decreases |files|
  {
    if |files| == 1 {
      assert files == [DictVal(files[0].dict)];
      OneFileWins(acc, files[0].dict, path, v);
    } else {
      var next := Merge.MergeInto(acc, files[0].dict);
      MergeFilesStep(acc, files);
      var rest := files[1..];
      assert forall i :: 0 <= i < |rest| ==> rest[i] == files[i + 1];
      assert rest[|rest| - 1] == files[|files| - 1];
      LastFileWins(next, rest, path, v);
    }
  }

  /** The promise of `from_files`: a leaf set in `basedir`'s own values
      file overrides whatever the files further up set. */
  lemma BasedirFileWins(chain: seq<Option<Value>>, path: seq<string>, v: Value)
    requires |chain| > 0 && chain[0].Some? && At(chain[0].value, path) == Some(v) && !v.DictVal?
    requires forall i :: 0 <= i < |chain| && chain[i].Some? ==> chain[i].value.DictVal?
    ensures MergeFiles(Empty(), Collected(chain)).Ok?
    ensures At(DictVal(MergeFiles(Empty(), Collected(chain)).value), path) == Some(v)
  {
    var files := Collected(chain);
    forall i | 0 <= i < |files|
      ensures files[i].DictVal?
    {
      assert files[i] in files;
      assert Some(files[i]) in chain;
    }
    LastFileWins(Empty(), files, path, v);
  }

  /** A single file wins on every leaf it sets. */
  lemma OneFileWins(acc: Dict, f: Dict, path: seq<string>, v: Value)
    requires At(DictVal(f), path) == Some(v) && !v.DictVal?
    ensures MergeFiles(acc, [DictVal(f)]) == Ok(Merge.MergeInto(acc, f))
    ensures At(DictVal(Merge.MergeInto(acc, f)), path) == Some(v)
  {
    MergeFilesStep(acc, [DictVal(f)]);
    assert [DictVal(f)][1..] == [];
    Merge.RightWinsOnLeaves(acc, f, path, v);
  }
}

=== FILE: wrappers.dfy ===
/** Failure-carrying results shared by every module of the model.

    Python signals failure by raising; the model returns `Err(e)` instead, with
    `e` naming the exception class the source would raise. */
module Wrappers {

  datatype Option<+T> = None | Some(value: T) {
    function GetOr(default: T): T {
      match this
      case Some(v) => v
      case None => default
    }
  }

  /** The exceptions the modelled code can raise. */
  datatype Error =
    | AttributeMissing(attribute: string)   // AttributeError: the value lacks a method or field
    | KeyMissing(key: string)               // KeyError from a dict subscript or `del`
    | TypeMismatch(what: string)            // TypeError, e.g. calling a missing constructor
    | ValueInvalid(what: string)            // ValueError (pathlib, engine.value)
    | DataAccessMismatch                    // config_context.DataAccessMismatch
    | InvalidKeyType                        // config_context.InvalidKeyType
    | Raised(message: string)               // a bare `raise Exception(...)`
    | DuplicateOption(section: string, option: string)  // configparser.DuplicateOptionError

  datatype Result<+T> = Ok(value: T) | Err(error: Error) {
    predicate IsFailure() {
      Err?
    }

    function PropagateFailure<U>(): Result<U>
      requires Err?
    {
      Err(error)
    }

    function Extract(): T
      requires Ok?
    {
      value
    }
  }
}
